=== FILE: README.md ===
# API test automation framework: a verified model of its core

This project models, in Dafny, the decision logic of a Maven/Karate API test automation
framework and of its companion Node.js tool that converts Gatling performance results into
Cucumber JSON reports. Each piece is written as pure functions over immutable data. Methods are
used only where the original is a loop whose state is worth proving.

- `Support` (Support.dfy) resolves system properties. A property falls back to its default
  when it is blank. It can be read as an `int`, which may be malformed. It can be read as a
  boolean, where only a case-insensitive `true` or `false` counts. It can be read as a
  delimited list.
- `TagRunner` (TagRunner.dfy) builds the Karate tag list of the tag-based runner. The explicit
  `&`-separated tags come first. They are followed by the exclusion tags of the three switches
  `apitest.no.data.env`, `apitest.no.data` and `apitest.ignore`. The module also covers the
  environment fallbacks (`checkVars`, user and host names) and the report's display fallback.
- `TestRail` (TestRail.dfy) synchronises test results with TestRail as a state machine. Its
  output is the trace of calls made to the connector. The connector's answers are an abstract
  `Service` parameter.
- `LogMasking` (LogMasking.dfy) is the HTTP log modifier. It masks Basic `Authorization`
  credentials and leaves everything else as it is.
- `GatlingLog` (GatlingLog.dfy) holds the parsers of the converter:
  - the splitter of the Gatling results file into one block per simulation;
  - the scan of `simulation.log` for name, identifier, start and end;
  - the numeric parser;
  - the extraction of a Jira issue from a simulation name.
- `GatlingReport` (GatlingReport.dfy) covers the per-simulation Cucumber report: the assertion
  verdict and message, and the Jira registration with its error cases. It also covers the
  folder loop, and the run's outcome and summary counts.
- `EnvValue` (EnvValue.dfy) is the converter's `getEnvValue`: an environment variable with a
  default, coerced to a boolean or an integer when it spells one.
- Three supporting modules hold the string semantics of the two runtimes:
  - `Common` (Common.dfy): `Option` and map lookup;
  - `Text` (Text.dfy): Java whitespace, blank test, trim, ASCII case folding, and literal
    split and join;
  - `Decimal` (Decimal.dfy): digit strings, Java's `Integer.parseInt` with 32-bit range
    checking, and canonical integer rendering.

Environment variables, system properties, the clock, the local host lookup and file contents
are all parameters. The model reads no files and touches no network.

Source cells name the repository's files under its root folder
`maven-api-test-automation-master@7e36b2d2e7f`. The runner appends the explicit tags before
the derived exclusion tags (`TagBasedApiRunner.java:76-113`).

## Model

| member | source | states |
|---|---|---|
| Support.GetPropertyValue | maven-api-test-automation-master@7e36b2d2e7f/src/main/java/utils/util/Support.java:27-36 | a blank or undefined property yields the default; otherwise the stored value itself |
| Support.GetProperty | maven-api-test-automation-master@7e36b2d2e7f/src/main/java/utils/util/Support.java:43-50 | the raw stored value, blank or not; null exactly when the property is undefined |
| Support.RawVersusNullDefault | maven-api-test-automation-master@7e36b2d2e7f/src/main/java/utils/util/Support.java:43-65 | the raw read and the read with a null default differ exactly on a defined but blank property |
| Support.GetPropertyInt | maven-api-test-automation-master@7e36b2d2e7f/src/main/java/utils/util/Support.java:73-87 | the default for a blank property and for a malformed or out-of-range number; otherwise the parsed 32-bit value |
| Support.ParseBoolean | maven-api-test-automation-master@7e36b2d2e7f/src/main/java/utils/util/Support.java:94-102 | a boolean exactly when the text equals `true` or `false` ignoring case, and then that boolean |
| Support.GetPropertyBool | maven-api-test-automation-master@7e36b2d2e7f/src/main/java/utils/util/Support.java:110-121 | case-insensitive `true` gives true and `false` gives false; any other or missing value gives the default |
| Support.GetPropertyList | maven-api-test-automation-master@7e36b2d2e7f/src/main/java/utils/util/Support.java:148-157 | both blank gives the empty list; otherwise the stored value, or else the default, split by Java's `split` rules (trailing empty segments dropped) |
| Support.GetPropertyListDefault | maven-api-test-automation-master@7e36b2d2e7f/src/main/java/utils/util/Support.java:166-168 | the same as the three-argument form with `,` as the delimiter |
| Support.GetPropertyListOf | maven-api-test-automation-master@7e36b2d2e7f/src/main/java/utils/util/Support.java:176-178 | a blank property gives the empty list; otherwise its comma split |
| Support.ListWithoutDelimiter | maven-api-test-automation-master@7e36b2d2e7f/src/main/java/utils/util/Support.java:148-157 | a non-blank value without the delimiter is a one-element list, whatever the default |
| Support.ListRoundTrip | maven-api-test-automation-master@7e36b2d2e7f/src/main/java/utils/util/Support.java:148-157 | storing the join of non-empty, delimiter-free segments reads back as exactly those segments |
| Support.IntOverloadExamples | maven-api-test-automation-master@7e36b2d2e7f/src/test/java/utils/util/SupportTest.java:140-166 | the expected values of the `int` overload's unit tests: `111`, and the default for `blah`, empty and `987kjsjdf` |
| Support.BoolOverloadExamples | maven-api-test-automation-master@7e36b2d2e7f/src/test/java/utils/util/SupportTest.java:193-221 | the expected values of the boolean overload's unit tests: `tru` and `fals` keep the default, `TRUE` is true, empty keeps the default |
| TagRunner.NonEmptyTags | maven-api-test-automation-master@7e36b2d2e7f/src/test/java/runner/TagBasedApiRunner.java:76-81 | no kept tag is empty; a tag is kept exactly when it is a non-empty segment |
| TagRunner.NonEmptyTagsAppend | maven-api-test-automation-master@7e36b2d2e7f/src/test/java/runner/TagBasedApiRunner.java:76-81 | the filter distributes over concatenation, so the explicit tags keep their relative order |
| TagRunner.EnvTag | maven-api-test-automation-master@7e36b2d2e7f/src/test/java/runner/TagBasedApiRunner.java:99-102 | the environment tag is `~@NO-DATA-` followed by the upper-cased environment, or by `null` when the environment is undefined |
| TagRunner.DerivedTags | maven-api-test-automation-master@7e36b2d2e7f/src/test/java/runner/TagBasedApiRunner.java:99-113 | each exclusion tag is present exactly when its switch is on; the count is 1 + 1 + 2; with all switches on, the order is env, no-data, `~@ignore`, `~@IGNORE` |
| TagRunner.NoDataEnvOffRemovesOnlyItsTag | maven-api-test-automation-master@7e36b2d2e7f/src/test/java/runner/TagBasedApiRunner.java:99-102 | turning `apitest.no.data.env` off removes exactly the environment tag and keeps the rest in order |
| TagRunner.NoDataOffRemovesOnlyItsTag | maven-api-test-automation-master@7e36b2d2e7f/src/test/java/runner/TagBasedApiRunner.java:104-107 | turning `apitest.no.data` off removes exactly `~@NO-DATA` |
| TagRunner.IgnoreOffRemovesOnlyItsTags | maven-api-test-automation-master@7e36b2d2e7f/src/test/java/runner/TagBasedApiRunner.java:109-113 | turning `apitest.ignore` off removes exactly `~@ignore` and `~@IGNORE` |
| TagRunner.BuildTags | maven-api-test-automation-master@7e36b2d2e7f/src/test/java/runner/TagBasedApiRunner.java:76-113 | no tag is empty; the non-empty explicit tags form the prefix and the derived tags the suffix |
| TagRunner.TogglesOf | maven-api-test-automation-master@7e36b2d2e7f/src/test/java/runner/TagBasedApiRunner.java:99-113 | a switch is off exactly when its property is a case-insensitive `false` |
| TagRunner.TagsOf | maven-api-test-automation-master@7e36b2d2e7f/src/test/java/runner/TagBasedApiRunner.java:61-113 | the full list is the `&`-split explicit tags without empties, followed by exactly the tags derived from the environment and the three toggles; with nothing configured, all four exclusion tags |
| TagRunner.RunnerTags | maven-api-test-automation-master@7e36b2d2e7f/src/test/java/runner/TagBasedApiRunner.java:120-123 | tags reach the runner exactly when the list is non-empty, that is unless every switch is off and no explicit tag is given |
| TagRunner.EnvTagExamples | maven-api-test-automation-master@7e36b2d2e7f/src/test/java/runner/TagBasedApiRunner.java:101 | an undefined environment renders as `null`, an empty one as nothing, `dev` as `DEV` |
| TagRunner.CheckVars | maven-api-test-automation-master@7e36b2d2e7f/src/test/java/runner/TagBasedApiRunner.java:145-157 | the value of the first non-blank variable in order; none exactly when every variable is blank |
| TagRunner.GetUserName | maven-api-test-automation-master@7e36b2d2e7f/src/test/java/runner/TagBasedApiRunner.java:196-204 | `USER`, else `USERNAME`, else `UNKNOWN`; never blank |
| TagRunner.GetHostName | maven-api-test-automation-master@7e36b2d2e7f/src/test/java/runner/TagBasedApiRunner.java:169-185 | the local host name when resolved, else `HOSTNAME`, else `COMPUTERNAME`, else `UNKNOWN` |
| TagRunner.DisplayValue | maven-api-test-automation-master@7e36b2d2e7f/src/test/java/runner/TagBasedApiRunner.java:235-236 | a blank value is shown as `-`, any other as itself; never blank |
| TagRunner.Classifications | maven-api-test-automation-master@7e36b2d2e7f/src/test/java/runner/TagBasedApiRunner.java:224-240 | one non-blank display pair per classification, in order, captions unchanged; the stored value when it is not blank, otherwise the display form of the classification's default |
| TestRail.GetCredential | maven-api-test-automation-master@7e36b2d2e7f/src/main/java/utils/testrail/handlers/TestRailIntegrationImp.java:64-68 | a credential exactly when both user and key are defined, holding those two values |
| TestRail.GetTestRunName | maven-api-test-automation-master@7e36b2d2e7f/src/main/java/utils/testrail/handlers/TestRailIntegrationImp.java:81-90 | `<definition> - <number>` on a CI build, else `<prefix> <timestamp>` |
| TestRail.RunNameAndClock | maven-api-test-automation-master@7e36b2d2e7f/src/main/java/utils/testrail/handlers/TestRailIntegrationImp.java:81-90 | on a CI build the name ignores the clock; otherwise distinct timestamps give distinct names |
| TestRail.GetExpectedRun | maven-api-test-automation-master@7e36b2d2e7f/src/main/java/utils/testrail/handlers/TestRailIntegrationImp.java:70-78 | none exactly when no run's trimmed name equals the name ignoring case; otherwise a listed run that matches, and the first one |
| TestRail.UntrimmedNameMatchesNothing | maven-api-test-automation-master@7e36b2d2e7f/src/main/java/utils/testrail/handlers/TestRailIntegrationImp.java:73 | only the listed names are trimmed: a searched name with leading whitespace never matches |
| TestRail.LookupIgnoresCaseAndPadding | maven-api-test-automation-master@7e36b2d2e7f/src/main/java/utils/testrail/handlers/TestRailIntegrationImp.java:73 | a run listed as ` Nightly Build ` is found under `nightly build` |
| TestRail.Upload | maven-api-test-automation-master@7e36b2d2e7f/src/main/java/utils/testrail/handlers/TestRailIntegrationImp.java:52-61 | only case, association and result calls, all against the resolved run; it stops exactly when a case identifier is not an `int` |
| TestRail.UploadCount | maven-api-test-automation-master@7e36b2d2e7f/src/main/java/utils/testrail/handlers/TestRailIntegrationImp.java:52-61 | three calls for each well-formed identifier before the first malformed one; the loop completes exactly when none is malformed, else reports the first malformed one |
| TestRail.UploadShape | maven-api-test-automation-master@7e36b2d2e7f/src/main/java/utils/testrail/handlers/TestRailIntegrationImp.java:52-61 | entries are handled in order, three calls each, up to the first malformed identifier, which is reported |
| TestRail.Sync | maven-api-test-automation-master@7e36b2d2e7f/src/main/java/utils/testrail/handlers/TestRailIntegrationImp.java:46-61 | the uploaded run is the one found or the one created; it is created exactly when none was found; it completes exactly when every identifier parses |
| TestRail.SyncTrace | maven-api-test-automation-master@7e36b2d2e7f/src/main/java/utils/testrail/handlers/TestRailIntegrationImp.java:46-61 | the trace is opening, then resolution, then upload; the run is created at most once, before any upload call |
| TestRail.SyncUploadsEveryEntry | maven-api-test-automation-master@7e36b2d2e7f/src/main/java/utils/testrail/handlers/TestRailIntegrationImp.java:52-61 | a completed pass makes exactly three calls per report entry, in entry order |
| TestRail.Execute | maven-api-test-automation-master@7e36b2d2e7f/src/main/java/utils/testrail/handlers/TestRailIntegrationImp.java:30-62 | an empty report or a missing credential makes no call; an unknown project stops after the opening calls; otherwise the pass synchronises under the computed run name |
| TestRail.Update | maven-api-test-automation-master@7e36b2d2e7f/src/main/java/utils/testrail/handlers/TestRailIntegrationImp.java:98-103 | without a CI build number nothing happens; with one it is `execute` |
| TestRail.UpdateCreatesBuildRun | maven-api-test-automation-master@7e36b2d2e7f/src/main/java/utils/testrail/handlers/TestRailIntegrationImp.java:81-103 | a run created by `update` carries the CI build's name |
| TestRail.ScenarioCaseIds | maven-api-test-automation-master@7e36b2d2e7f/src/main/java/utils/testrail/handlers/TestRailIntegrationImp.java:58-59 | the case identifiers of the scenario parse to their numbers |
| TestRail.ScenarioLookup | maven-api-test-automation-master@7e36b2d2e7f/src/main/java/utils/testrail/handlers/TestRailIntegrationImp.java:70-78 | the run of the previous build does not answer to the new build's name |
| TestRail.ScenarioUpload | maven-api-test-automation-master@7e36b2d2e7f/src/main/java/utils/testrail/handlers/TestRailIntegrationImp.java:52-61 | the scenario's two entries give six calls and no malformed identifier |
| TestRail.ScenarioReachesSync | maven-api-test-automation-master@7e36b2d2e7f/src/main/java/utils/testrail/handlers/TestRailIntegrationImp.java:30-50 | the scenario's CI pass reaches the synchronisation with the run name `CI - 4521` |
| TestRail.ScenarioSync | maven-api-test-automation-master@7e36b2d2e7f/src/main/java/utils/testrail/handlers/TestRailIntegrationImp.java:46-61 | the synchronisation of the scenario creates the run and uploads both entries |
| TestRail.CiBuildScenario | maven-api-test-automation-master@7e36b2d2e7f/src/main/java/utils/testrail/handlers/TestRailIntegrationImp.java:30-103 | a complete CI pass: connection, project, run listing, creation of `CI - 4521`, then three calls per entry |
| LogMasking.Header | maven-api-test-automation-master@7e36b2d2e7f/src/test/java/runner/LogModifier.java:32-39 | a Basic `Authorization` header is logged as `Basic ***`; every other header value is logged unchanged |
| LogMasking.HeaderIdempotent | maven-api-test-automation-master@7e36b2d2e7f/src/test/java/runner/LogModifier.java:32-39 | masking a logged header again changes nothing |
| LogMasking.BasicCredentialsIndistinguishable | maven-api-test-automation-master@7e36b2d2e7f/src/test/java/runner/LogModifier.java:32-39 | two Basic authorization headers are logged identically, whatever their credentials |
| LogMasking.HeaderMaskExamples | maven-api-test-automation-master@7e36b2d2e7f/src/test/java/runner/LogModifier.java:32-39 | the header name and the scheme match in any case: `authorization: basic …` and `AUTHORIZATION: BASIC x` are both logged as `Basic ***` |
| LogMasking.HeaderKeepExamples | maven-api-test-automation-master@7e36b2d2e7f/src/test/java/runner/LogModifier.java:32-39 | a bare `Basic`, another scheme, another header name or an absent name or value pass through unchanged |
| LogMasking.Modify | maven-api-test-automation-master@7e36b2d2e7f/src/test/java/runner/LogModifier.java:27-49 | URIs, requests and responses are unchanged; a header keeps its name and changes only when it is masked |
| LogMasking.EnableForUri | maven-api-test-automation-master@7e36b2d2e7f/src/test/java/runner/LogModifier.java:21-23 | the modifier applies to every URI |
| GatlingLog.ParseNumeric | maven-api-test-automation-master@7e36b2d2e7f/gatling-generate-cucumber-json/lib/generate.js:178-184 | a number exactly for a non-empty all-digit text, and then its decimal value |
| GatlingLog.ParseNumericRoundTrip | maven-api-test-automation-master@7e36b2d2e7f/gatling-generate-cucumber-json/lib/generate.js:178-184 | every natural number's rendering parses back to it |
| GatlingLog.HeaderLineRoundTrip | maven-api-test-automation-master@7e36b2d2e7f/gatling-generate-cucumber-json/lib/generate.js:115-118 | `Simulation <name> started...` is a header naming exactly `<name>` when the name is non-empty and has no line terminator |
| GatlingLog.ScanLines | maven-api-test-automation-master@7e36b2d2e7f/gatling-generate-cucumber-json/lib/generate.js:116-143 | the line loop stops only at a header whose name is already stored, after blocks that are the headers' blocks so far |
| GatlingLog.LoadResultsFile | maven-api-test-automation-master@7e36b2d2e7f/gatling-generate-cucumber-json/lib/generate.js:104-156 | loads exactly when simulation names are distinct, one block per header (header line through the line before the next header); otherwise reports the first repeated name with both line numbers |
| GatlingLog.InheritedNameIsSpuriousDuplicate | maven-api-test-automation-master@7e36b2d2e7f/gatling-generate-cucumber-json/lib/generate.js:133-136 | a file announcing `constructor` once has distinct names, yet the duplicate test as written fires on its first header |
| GatlingLog.ExistingAsWrittenMeaning | maven-api-test-automation-master@7e36b2d2e7f/gatling-generate-cucumber-json/lib/generate.js:133-134 | the duplicate test as written agrees with a lookup of the stored names, except that it fires for every inherited object property |
| GatlingLog.LastRecord | maven-api-test-automation-master@7e36b2d2e7f/gatling-generate-cucumber-json/lib/generate.js:226-237 | the index of the last record of a kind, none exactly when there is no such record |
| GatlingLog.LastScanRecords | maven-api-test-automation-master@7e36b2d2e7f/gatling-generate-cucumber-json/lib/generate.js:226-237 | name, id and start are those of the last `RUN` record and the end time that of the last `USER ... END` record; the name is undefined exactly when there is no `RUN` record, the end when there is no end record |
| GatlingLog.ScanSnoc | maven-api-test-automation-master@7e36b2d2e7f/gatling-generate-cucumber-json/lib/generate.js:227-236 | one more line changes the scan exactly as the loop body does: a `RUN` record sets name, id and start, a `USER ... END` record sets the end |
| GatlingLog.ScanFoldIsLastScan | maven-api-test-automation-master@7e36b2d2e7f/gatling-generate-cucumber-json/lib/generate.js:226-237 | scanning the lines one at a time ends with the scan of the last records |
| GatlingLog.ScanPerformanceLog | maven-api-test-automation-master@7e36b2d2e7f/gatling-generate-cucumber-json/lib/generate.js:226-237 | name, identifier and start come from the last `RUN` record, the end from the last `USER ... END` record |
| GatlingLog.CheckScan | maven-api-test-automation-master@7e36b2d2e7f/gatling-generate-cucumber-json/lib/generate.js:239-259 | one error per missing (falsy) field, in the order name, id, start, end; the identifier falls back to the name |
| GatlingLog.LoadPerformanceDetails | maven-api-test-automation-master@7e36b2d2e7f/gatling-generate-cucumber-json/lib/generate.js:215-260 | the details and errors are those checked on the scan of the log |
| GatlingLog.GetJiraIssue | maven-api-test-automation-master@7e36b2d2e7f/gatling-generate-cucumber-json/lib/generate.js:276-289 | a found project is a capital letter followed by capitals or digits; the key is `<PROJECT>-<number>` |
| GatlingLog.GetJiraIssueSound | maven-api-test-automation-master@7e36b2d2e7f/gatling-generate-cucumber-json/lib/generate.js:276-289 | an issue only when the name ends in `_<PROJECT>_<digits>`, and then with that project and number |
| GatlingLog.IssueOfJoined | maven-api-test-automation-master@7e36b2d2e7f/gatling-generate-cucumber-json/lib/generate.js:276-289 | any text, then `_`, a project, `_` and digits, refers to exactly that issue, whatever `_` the text holds |
| GatlingLog.GetJiraIssueComplete | maven-api-test-automation-master@7e36b2d2e7f/gatling-generate-cucumber-json/lib/generate.js:276-289 | every name ending in `_<PROJECT>_<digits>` yields exactly that project and number |
| GatlingLog.GetJiraIssueNone | maven-api-test-automation-master@7e36b2d2e7f/gatling-generate-cucumber-json/lib/generate.js:276-289 | no issue exactly when the name has no such ending |
| GatlingLog.LeadingZeroDropped | maven-api-test-automation-master@7e36b2d2e7f/gatling-generate-cucumber-json/lib/generate.js:283-287 | leading zeros of the issue number do not change it |
| GatlingLog.ExampleIssue | maven-api-test-automation-master@7e36b2d2e7f/gatling-generate-cucumber-json/tests/generate-test.js:101-115 | any name ending in `_EXAMPLE_10` refers to `EXAMPLE-10` |
| GatlingLog.PaddedNumberSameIssue | maven-api-test-automation-master@7e36b2d2e7f/gatling-generate-cucumber-json/lib/generate.js:283-287 | a zero in front of the issue number yields the same issue, key included |
| GatlingLog.PaddedExampleIssue | maven-api-test-automation-master@7e36b2d2e7f/gatling-generate-cucumber-json/lib/generate.js:283-287 | any name ending in `_EXAMPLE_010` refers to `EXAMPLE-10` too |
| GatlingLog.PlainNameHasNoIssue | maven-api-test-automation-master@7e36b2d2e7f/gatling-generate-cucumber-json/tests/generate-test.js:148-169 | a name without `_` refers to no issue |
| GatlingReport.AllPassed | maven-api-test-automation-master@7e36b2d2e7f/gatling-generate-cucumber-json/lib/generate.js:391-399 | the count of passed assertions equals their number exactly when all hold |
| GatlingReport.TallyCounts | maven-api-test-automation-master@7e36b2d2e7f/gatling-generate-cucumber-json/lib/generate.js:389-400 | the loop over the assertions, started from a pass, passes exactly when all hold and counts each assertion once, as passed or failed |
| GatlingReport.TallyMessage | maven-api-test-automation-master@7e36b2d2e7f/gatling-generate-cucumber-json/lib/generate.js:401-407 | the message the loop builds is the assertions' lines joined by newlines, in order |
| GatlingReport.AggregateAssertions | maven-api-test-automation-master@7e36b2d2e7f/gatling-generate-cucumber-json/lib/generate.js:384-416 | no assertion fails with `FAIL: No assertions present!`; otherwise passed exactly when every assertion holds, the counts add up, and the message is one line per assertion |
| GatlingReport.MessageLines | maven-api-test-automation-master@7e36b2d2e7f/gatling-generate-cucumber-json/lib/generate.js:401-407 | the message splits back into the assertions' lines, and a line starts with `FAIL: ` exactly when its assertion failed |
| GatlingReport.RegisterJira | maven-api-test-automation-master@7e36b2d2e7f/gatling-generate-cucumber-json/lib/generate.js:331-342 | a missing reference is the no-reference error, an unknown project the invalid-project error with the issue key and project, an issue already referenced the already-referenced error naming the first referrer, and these leave the referrers unchanged; a new valid issue is registered to this simulation with no error |
| GatlingReport.RegisteredWhenReferred | maven-api-test-automation-master@7e36b2d2e7f/gatling-generate-cucumber-json/lib/generate.js:331-342 | over a run, an issue is registered exactly when some simulation refers to it with a valid project |
| GatlingReport.FirstReferrerKept | maven-api-test-automation-master@7e36b2d2e7f/gatling-generate-cucumber-json/lib/generate.js:331-342 | over a run, an issue's referrer is the first simulation that refers to it validly; later references do not replace it |
| GatlingReport.CreateCucumberReport | maven-api-test-automation-master@7e36b2d2e7f/gatling-generate-cucumber-json/lib/generate.js:327-444 | the Jira errors; the report is written unless its file already exists, with the tag, the nanosecond duration and a passed status exactly when all assertions hold; the step title counts the passed and failed assertions (0 and 1 when there are none), the doc string is the assertion lines joined by newlines (or the no-assertions message), and a failed step's error message is that text; report files stay distinct |
| GatlingReport.StepTitleInjective | maven-api-test-automation-master@7e36b2d2e7f/gatling-generate-cucumber-json/lib/generate.js:411 | the step title determines both counts: different passed or failed counts give different titles |
| GatlingReport.DurationMeaning | maven-api-test-automation-master@7e36b2d2e7f/gatling-generate-cucumber-json/lib/generate.js:329 | the duration is the end minus the start, milliseconds turned into nanoseconds, when both are non-zero, and zero otherwise; an end before the start gives a negative duration |
| GatlingReport.OutputFileNames | maven-api-test-automation-master@7e36b2d2e7f/gatling-generate-cucumber-json/lib/generate.js:429 | report files end in `.json`; two simulations write the same file exactly when their ids render alike; a missing id writes `undefined.json`, as the id `undefined` does |
| GatlingReport.ReportTagMeaning | maven-api-test-automation-master@7e36b2d2e7f/gatling-generate-cucumber-json/lib/generate.js:360-366 | a report is tagged exactly when its simulation refers to a Jira issue, with `@` and the issue key; it counts as untagged (`<none>`) exactly when there is no issue |
| GatlingReport.Summarize | maven-api-test-automation-master@7e36b2d2e7f/gatling-generate-cucumber-json/lib/generate.js:528-566 | passed plus failed is the number of reports; failed is zero exactly when all passed; untagged is zero exactly when all are tagged |
| GatlingReport.SummarizeCounts | maven-api-test-automation-master@7e36b2d2e7f/gatling-generate-cucumber-json/lib/generate.js:534-545 | the passed, failed and untagged counts are the numbers of reports that passed, failed, and carry no tag |
| GatlingReport.SummarizeReorder | maven-api-test-automation-master@7e36b2d2e7f/gatling-generate-cucumber-json/lib/generate.js:534 | any reordering of the reports, the sorted one included, gives the same summary |
| GatlingReport.ProcessFolder | maven-api-test-automation-master@7e36b2d2e7f/gatling-generate-cucumber-json/lib/generate.js:487-524 | a missing log or assertions file is an error and nothing else; a log whose simulation name differs from the assertions file adds exactly the log errors and the mismatch; every folder with such a defect adds an error; the run stops exactly when the names agree and the simulation is nameless or only an inherited object property names its log details; when the names agree the errors added are exactly the log errors, the missing-log-details error, the Jira error and the existing-file error, in that order; an added report is named after the log's simulation id (or name), passes exactly when every assertion holds and carries the issue tag; a folder that adds no error adds exactly one report, for a simulation whose Jira issue is in a valid project, tagged `@<issue key>`; earlier reports and errors are kept and file names stay distinct |
| GatlingReport.ReportSimulation | maven-api-test-automation-master@7e36b2d2e7f/gatling-generate-cucumber-json/lib/generate.js:509-520 | a nameless simulation stops the run; a name missing from the results file stops the run when the name is an inherited object property; otherwise the errors added are exactly the missing-log-details error (when the results file lacks the name), the Jira error and the existing-file error, earlier reports are kept, the Jira referrers are registered, and an added report is named after the simulation id, passes exactly when every assertion holds and carries the issue tag (or `<none>`); no error added means a report was added and the Jira issue is in a valid project |
| GatlingReport.GenerateCucumberJson | maven-api-test-automation-master@7e36b2d2e7f/gatling-generate-cucumber-json/lib/generate.js:457-567 | refuses an existing output folder exactly when not overwriting; aborts on a repeated simulation exactly when the results file repeats a name; a nameless-simulation or inherited-name abort points at a folder whose log has that name; success exactly when no error, which rules out any defective folder; on success the i-th report belongs to the i-th folder: it is named after that folder's simulation id (or name), passes exactly when all of its assertions hold, and is tagged `@<issue key>` of a Jira issue whose project is valid; no folders is an error |
| GatlingReport.ReportFolder | maven-api-test-automation-master@7e36b2d2e7f/gatling-generate-cucumber-json/lib/generate.js:501-520 | after both files are read: differing simulation names add exactly the log errors and the mismatch; agreeing names stop the run exactly as for `ReportSimulation`, and otherwise add exactly the log errors followed by the simulation's errors; an added report is named after the loaded id and carries the issue tag; no error added means one report added, for a simulation whose Jira issue is in a valid project |
| EnvValue.CanonicalInt | maven-api-test-automation-master@7e36b2d2e7f/gatling-generate-cucumber-json/lib/utils.js:30 | a text is an integer when it is that integer's own rendering |
| EnvValue.CanonicalIntRoundTrip | maven-api-test-automation-master@7e36b2d2e7f/gatling-generate-cucumber-json/lib/utils.js:30-31 | every integer's rendering is recognised as that integer |
| EnvValue.Coerce | maven-api-test-automation-master@7e36b2d2e7f/gatling-generate-cucumber-json/lib/utils.js:25-35 | `true` or `false` in any case gives a boolean, a safe integer's rendering gives the number, `NaN` gives NaN, and every other value is unchanged |
| EnvValue.CoerceIntegers | maven-api-test-automation-master@7e36b2d2e7f/gatling-generate-cucumber-json/lib/utils.js:30-31 | every safe integer's rendering becomes that integer |
| EnvValue.GetEnvValue | maven-api-test-automation-master@7e36b2d2e7f/gatling-generate-cucumber-json/lib/utils.js:18-36 | a set, non-empty variable is coerced; an unset or empty one is replaced by a defined default; with an undefined default an empty variable stays the empty string |
| EnvValue.BlankIsNotEmpty | maven-api-test-automation-master@7e36b2d2e7f/gatling-generate-cucumber-json/lib/utils.js:20-24 | a variable of spaces is not replaced by the default and is returned as it is |
| EnvValue.CoerceNumberExamples | maven-api-test-automation-master@7e36b2d2e7f/gatling-generate-cucumber-json/lib/utils.js:30-31 | `12` and `-3` become numbers and `NaN` becomes NaN |
| EnvValue.CoerceBooleanExamples | maven-api-test-automation-master@7e36b2d2e7f/gatling-generate-cucumber-json/lib/utils.js:25-29 | `TRUE` and `False` become booleans |
| EnvValue.CoerceStringExamples | maven-api-test-automation-master@7e36b2d2e7f/gatling-generate-cucumber-json/lib/utils.js:30-35 | `007`, `+1`, `1a` and `-0` stay strings |

## Left out

- File and network I/O. This covers reading the results, `simulation.log` and `assertions.json`, listing and creating folders, and writing reports. File contents and existence are parameters: the lines of a file, and an `Option` for a file that may be missing. The `\r?\n` line split happens before the model.
- JSON handling: cloning the report template, `JSON.stringify` of actual values (an `actualValue` is given as its text), schema validation, and the Base64 embedding of the log and results blocks. A feature records its name, identifier, tag, duration and assertion step only.
- `path.join` and the output folder path. A report is identified by its file name, `<id>.json`, in an output folder that is created empty at the start of the run.
- Console logging in all components, and `recordError`'s printing. Errors are collected as datatype values.
- The TestRail connector's HTTP behaviour and its exceptions. The answers (project, runs, new run identifier) are an abstract `Service` parameter, and the pass is the resulting call trace.
- The configuration manager and key vault behind the TestRail credentials. Properties and the environment are maps.
- The `SimpleDateFormat` clock stamp of the ad-hoc run name. It is an opaque `timestamp` parameter.
- The local host lookup through `InetAddress`. Its result is the `localHost` parameter of `GetHostName`.
- Running Karate, the parallel runner's thread count, and HTML report generation. Only the tags and classifications handed to them are modelled.
- TestRail.Upload: the report map's iteration order is a Java `HashMap` order. The model takes the entries as a sequence in the order they are visited.
- Text.EqualsIgnoreCase and Text.ToLower: case folding is ASCII only. Java and JavaScript fold the whole of Unicode, so a non-ASCII spelling of `true` or `Basic` is outside the model.
- Decimal.ParseJavaInt: only ASCII digits are accepted. `Integer.parseInt` also accepts other Unicode decimal digits.
- GatlingLog.ParseNumeric: numbers are exact integers. `parseInt` yields a double, which loses precision above 2^53.
- GatlingLog.GetJiraIssue: the issue number is exact, while the original's is a double (see `ParseNumeric`).
- EnvValue.Coerce: integers beyond 2^53 in magnitude stay strings. Any digit string whose double rounds back to the same text would become a number, and that rounding is not modelled.
- GatlingReport.GenerateCucumberJson: the summary counts the reports in the order they were written, whereas the original sorts the file names first. `SummarizeReorder` proves that the three counts do not depend on the order.
- GatlingReport.GenerateCucumberJson: a simulation without a name aborts the run, as the `TypeError` of `getJiraIssue` does. The errors recorded before that point are not part of the abort value. The missing-log-details error is recorded after the abort test, so a nameless simulation aborts in both orders.
- TagRunner.EnvTag: upper-casing is ASCII only. `StringUtils.upperCase` uses Java's Unicode, default-locale `toUpperCase` (`ß` becomes `SS`, and a Turkish locale maps `i` to a dotted capital).
- Support.GetPropertyList: the delimiter is one literal character, while Java's `split` takes a regular expression. Every call site passes `,` or `&`, which match themselves.
- TestRail.GetTestRunName: on an ad-hoc run with `default.datetime.format` unset, `new SimpleDateFormat(null)` throws a `NullPointerException` (TestRailIntegrationImp.java:94). The timestamp is a parameter, so that failure is not modelled.
- GatlingReport.GenerateCucumberJson: the run loads the results file with the corrected splitter (see Findings). The original throws at generate.js:133-135 on a header that names an inherited object property, such as `Simulation toString started...`, even when the name appears once.
- GatlingReport.GenerateCucumberJson: `assertions.json` is taken as already parsed. `utils.loadJson` (utils.js:128-131) throws on a file that is not JSON, and a file without an `assertions` array fails at generate.js:384; neither failure is modelled.
- GatlingReport.ProcessFolder: when the results file has no block for a simulation whose name is an inherited object property (`constructor`, `toString`, …), the lookup at generate.js:511 finds a function, so no missing-log-details error is recorded, and `logDetails.lines.join` at generate.js:376 throws a `TypeError`. The model aborts the run there with `InheritedLogDetails` and does not model the partial output written before the crash.

## Findings

| source | as written | input that shows it | evidently intended | confidence | as-written member | corrected member |
|---|---|---|---|---|---|---|
| maven-api-test-automation-master@7e36b2d2e7f/gatling-generate-cucumber-json/lib/generate.js:133-136 | the duplicate test reads `results[name]` from a plain object, so every name the object inherits counts as already stored | a results file with the single header `Simulation constructor started...` is rejected as a repeated simulation | a simulation is rejected only when the file announces its name twice | high; not executed | GatlingLog.InheritedNameIsSpuriousDuplicate | GatlingLog.LoadResultsFile |

=== FILE: Common.dfy ===
/** Values shared by every module of the model. */
module Common {

  /** A value that may be absent: Java's `null` and JavaScript's `undefined`. */
  datatype Option<+T> = None | Some(value: T) {

    /** The value, or `default` when absent. */
    function GetOr(default: T): T {
      match this
      case Some(v) => v
      case None => default
    }
  }

  /** Looks a key up in a map, absent keys giving `None` (as `System.getProperty` gives null). */
  function Lookup<K, V>(m: map<K, V>, k: K): (r: Option<V>)
    ensures r.Some? <==> k in m
    ensures r.Some? ==> r.value == m[k]
  {
    if k in m then Some(m[k]) else None
  }
}

=== FILE: Decimal.dfy ===
/**
  Decimal digit strings: their value, the canonical rendering of an integer (as both
  `Integer.toString` and JavaScript's `Number.prototype.toString` produce it for integers),
  and `Integer.parseInt` with its 32-bit range check.
 */
module Decimal {
  import opened Common

  const INT32_MIN: int := -0x8000_0000
  const INT32_MAX: int := 0x7fff_ffff

  /** Java's `int`. */
  type Int32 = x: int | INT32_MIN <= x <= INT32_MAX

  predicate IsDigit(c: char) {
    '0' <= c <= '9'
  }

  predicate AllDigits(s: string) {
    forall i :: 0 <= i < |s| ==> IsDigit(s[i])
  }

  function DigitChar(n: nat): (c: char)
    requires n < 10
    ensures IsDigit(c)
  {
    ('0' as int + n) as char
  }

  /** The number a string of decimal digits denotes (most significant digit first). */
  function DigitsValue(s: string): nat
    requires AllDigits(s)
  {
    if |s| == 0 then 0
    else DigitsValue(s[..|s| - 1]) * 10 + (s[|s| - 1] as int - '0' as int)
  }

  /** The shortest decimal rendering of `n`: no leading zero unless `n` is 0. */
  function NatToString(n: nat): (r: string)
    ensures |r| > 0 && AllDigits(r)
    ensures |r| > 1 ==> r[0] != '0'
  {
    if n < 10 then [DigitChar(n)] else NatToString(n / 10) + [DigitChar(n % 10)]
  }

  /** `Integer.toString`, and JavaScript's rendering of a safe integer. */
  function IntToString(n: int): string {
    if n < 0 then "-" + NatToString(-n) else NatToString(n)
  }

  /** A digit string without superfluous leading zeros. */
  predicate IsCanonicalDigits(s: string) {
    |s| > 0 && AllDigits(s) && (|s| == 1 || s[0] != '0')
  }

  /** Reading back a rendering gives the number. */
  lemma {:induction false} NatToStringValue(n: nat)
    ensures DigitsValue(NatToString(n)) == n
  {
    if n >= 10 {
      NatToStringValue(n / 10);
      var s := NatToString(n);
      assert s[..|s| - 1] == NatToString(n / 10);
    }
  }

  /** A string of digits whose first digit is not zero denotes a positive number. */
  lemma {:induction false} LeadingNonZeroPositive(s: string)
    requires |s| > 0 && AllDigits(s) && s[0] != '0'
    ensures DigitsValue(s) >= 1
  {
    if |s| > 1 {
      LeadingNonZeroPositive(s[..|s| - 1]);
    }
  }

  /** Rendering the value of a canonical digit string gives back the string: canonical
      strings and natural numbers are in one-to-one correspondence. */
  lemma {:induction false} CanonicalDigitsRoundTrip(s: string)
    requires IsCanonicalDigits(s)
    ensures NatToString(DigitsValue(s)) == s
  {
    var n := DigitsValue(s);
    if |s| > 1 {
      var init := s[..|s| - 1];
      LeadingNonZeroPositive(init);
      CanonicalDigitsRoundTrip(init);
      assert n / 10 == DigitsValue(init);
      assert s == init + [s[|s| - 1]];
    }
  }

  /** The length of the run of digits a text starts with. */
  function DigitRun(s: string): nat {
    if |s| == 0 || !IsDigit(s[0]) then 0 else 1 + DigitRun(s[1..])
  }

  /** Digits followed by a non-digit start with a run of exactly those digits. */
  lemma {:induction false} DigitRunOf(a: string, x: string)
    requires AllDigits(a) && |x| > 0 && !IsDigit(x[0])
    ensures DigitRun(a + x) == |a|
  {
    if |a| > 0 {
      assert (a + x)[1..] == a[1..] + x;
      DigitRunOf(a[1..], x);
    }
  }

  /** A run of digits followed by a non-digit is delimited: two such texts that agree agree
      on the digits and on what follows. */
  lemma DigitsThenOther(a: string, x: string, b: string, y: string)
    requires AllDigits(a) && AllDigits(b) && |x| > 0 && |y| > 0 && !IsDigit(x[0]) && !IsDigit(y[0])
    requires a + x == b + y
    ensures a == b && x == y
  {
    DigitRunOf(a, x);
    DigitRunOf(b, y);
    assert a == (a + x)[..|a|] && b == (b + y)[..|b|];
    assert x == (a + x)[|a|..] && y == (b + y)[|b|..];
  }

  /** Different numbers have different renderings. */
  lemma NatToStringInjective(m: nat, n: nat)
    requires NatToString(m) == NatToString(n)
    ensures m == n
  {
    NatToStringValue(m);
    NatToStringValue(n);
  }

  /** The value of a non-empty string of ASCII digits, read one digit at a time; none for the
      empty string or one holding any other character. */
  function ParseDigits(s: string): Option<nat> {
    if |s| == 0 || !IsDigit(s[|s| - 1]) then None
    else
      var last := s[|s| - 1] as int - '0' as int;
      if |s| == 1 then Some(last)
      else
        match ParseDigits(s[..|s| - 1])
        case None => None
        case Some(v) => Some(v * 10 + last)
  }

  /** Reading digit by digit accepts exactly the non-empty digit strings, with their value. */
  lemma {:induction false} ParseDigitsValue(s: string)
    ensures ParseDigits(s) == if |s| > 0 && AllDigits(s) then Some(DigitsValue(s)) else None
  {
    if |s| > 1 {
      var init := s[..|s| - 1];
      ParseDigitsValue(init);
      assert AllDigits(s) <==> AllDigits(init) && IsDigit(s[|s| - 1]);
    }
  }

  /** `Integer.parseInt(s)` in radix 10: an optional sign followed by at least one ASCII digit,
      whose value lies in the 32-bit range; anything else is a `NumberFormatException`. */
  function ParseJavaInt(s: string): (r: Option<Int32>)
    ensures r.Some? ==> |s| > 0 && (IsDigit(s[0]) || s[0] == '-' || s[0] == '+')
    ensures r.Some? ==> forall i :: 1 <= i < |s| ==> IsDigit(s[i])
    ensures r.Some? && s[0] != '-' ==> r.value >= 0
  {
    if |s| == 0 then None
    else
      var digits := if s[0] == '-' || s[0] == '+' then s[1..] else s;
      ParseDigitsValue(digits);
      match ParseDigits(digits)
      case None => None
      case Some(mag) =>
        var v: int := if s[0] == '-' then -(mag as int) else mag;
        if INT32_MIN <= v <= INT32_MAX then Some(v) else None
  }

  /** `Integer.parseInt(Integer.toString(n)) == n` for every `int`. */
  lemma IntRoundTrip(n: Int32)
    ensures ParseJavaInt(IntToString(n)) == Some(n)
  {
    var m: int := n;
    var digits := NatToString(if m < 0 then -m else m);
    NatToStringValue(if m < 0 then -m else m);
    ParseDigitsValue(digits);
    if n < 0 {
      assert IntToString(n)[1..] == digits;
    } else {
      assert IsDigit(IntToString(n)[0]);
    }
  }
}

=== FILE: EnvValue.dfy ===
/**
  `getEnvValue` of the converter's utilities (`gatling-generate-cucumber-json/lib/utils.js`):
  an environment variable read as a JavaScript value, with the default standing in for an
  unset or empty variable, and strings coerced to booleans and integers where they spell one.
 */
module EnvValue {
  import opened Common
  import opened Text
  import opened Decimal

  /** The JavaScript values involved: the default may be any of them; the environment holds
      strings only. */
  datatype JsValue = Undefined | Null | Str(s: string) | Bool(b: bool) | Num(n: int) | NaN

  /** Integers up to this magnitude are numbers exactly. */
  const SAFE_BOUND: int := 0x20_0000_0000_0000

  predicate IsSafe(n: int) {
    -SAFE_BOUND <= n <= SAFE_BOUND
  }

  /** A canonical digit string other than `0`, after a `-`, renders a negative integer. */
  lemma NegativeRendering(digits: string)
    requires IsCanonicalDigits(digits) && digits != "0"
    ensures DigitsValue(digits) > 0 && IntToString(-(DigitsValue(digits) as int)) == "-" + digits
  {
    assert digits[0] != '0' by {
      if |digits| == 1 {
        assert digits == [digits[0]];
      }
    }
    LeadingNonZeroPositive(digits);
    CanonicalDigitsRoundTrip(digits);
    var v := DigitsValue(digits);
    assert IntToString(-(v as int)) == "-" + NatToString(v);
  }

  /** The integer `s` is the rendering of, if any: `0`, or digits without a leading zero,
      optionally after a `-` (but not `-0`, which renders as `0`). */
  function CanonicalInt(s: string): (r: Option<int>)
    ensures r.Some? ==> IntToString(r.value) == s
  {
    if |s| > 0 && s[0] == '-' then
      var digits := s[1..];
      if IsCanonicalDigits(digits) && digits != "0" then
        NegativeRendering(digits);
        assert s == "-" + digits;
        Some(-(DigitsValue(digits) as int))
      else None
    else if IsCanonicalDigits(s) then
      CanonicalDigitsRoundTrip(s);
      Some(DigitsValue(s))
    else None
  }

  /** Every integer is recognised in its rendering. */
  lemma CanonicalIntRoundTrip(n: int)
    ensures CanonicalInt(IntToString(n)) == Some(n)
  {
    if n < 0 {
      NegativeRoundTrip(n);
    } else {
      NonNegativeRoundTrip(n);
    }
  }

  lemma NegativeRoundTrip(n: int)
    requires n < 0
    ensures CanonicalInt(IntToString(n)) == Some(n)
  {
    var m: nat := -n;
    NatToStringValue(m);
    NegativeOf(NatToString(m));
  }

  /** A `-` before the canonical digits of a positive number is recognised as its negation. */
  lemma NegativeOf(digits: string)
    requires IsCanonicalDigits(digits) && DigitsValue(digits) > 0
    ensures CanonicalInt("-" + digits) == Some(-(DigitsValue(digits) as int))
  {
    var s := "-" + digits;
    assert s[1..] == digits;
    assert digits != "0" by {
      assert DigitsValue("0") == 0;
    }
    NegativeRecognised(s);
  }

  /** A `-` before canonical digits other than `0` is recognised as their negation. */
  lemma NegativeRecognised(s: string)
    requires |s| > 0 && s[0] == '-' && IsCanonicalDigits(s[1..]) && s[1..] != "0"
    ensures CanonicalInt(s) == Some(-(DigitsValue(s[1..]) as int))
  {
  }

  lemma NonNegativeRoundTrip(n: int)
    requires n >= 0
    ensures CanonicalInt(IntToString(n)) == Some(n)
  {
    var s := IntToString(n);
    NatToStringValue(n);
    assert IsDigit(s[0]) && IsCanonicalDigits(s);
    assert CanonicalInt(s) == Some(DigitsValue(s));
  }

  /** The string coercions of `getEnvValue`: `true` and `false` in any case give booleans, a
      string equal to the rendering of its own `parseInt` gives that number (`NaN` for the
      string `NaN`), and every other value is returned as it is. */
  function Coerce(v: JsValue): (r: JsValue)
    ensures !v.Str? ==> r == v
    ensures v.Str? ==> (r == Bool(true) <==> ToLower(v.s) == "true")
    ensures v.Str? ==> (r == Bool(false) <==> ToLower(v.s) == "false")
    ensures r.Num? && v.Str? ==> v.s == IntToString(r.n) && IsSafe(r.n)
    ensures r == NaN ==> v == Str("NaN") || v == NaN
    ensures r.Str? ==> r == v
    ensures v.Str? ==> r == v || r.Bool? || r.Num? || r == NaN
    ensures v == Str("NaN") ==> r == NaN
  {
    match v
    case Str(s) =>
      if ToLower(s) == "true" then Bool(true)
      else if ToLower(s) == "false" then Bool(false)
      else if s == "NaN" then NaN
      else if CanonicalInt(s).Some? && IsSafe(CanonicalInt(s).value) then Num(CanonicalInt(s).value)
      else v
    case _ => v
  }

  /** Every safe integer's rendering becomes that integer. */
  lemma CoerceIntegers(n: int)
    requires IsSafe(n)
    ensures Coerce(Str(IntToString(n))) == Num(n)
  {
    CanonicalIntRoundTrip(n);
    var s := IntToString(n);
    assert |s| > 0;
    if n < 0 {
      assert s[0] == '-';
    } else {
      assert IsDigit(s[0]);
    }
    assert ToLower(s)[0] == s[0];
    assert s != "NaN" && ToLower(s) != "true" && ToLower(s) != "false";
  }

  /** `getEnvValue(name, defaultValue)`: an unset or empty variable is replaced by the default
      unless the default is undefined; the value is then coerced. */
  function GetEnvValue(env: map<string, string>, name: string, default: JsValue): (r: JsValue)
    ensures name in env && env[name] != "" ==> r == Coerce(Str(env[name]))
    ensures (name !in env || env[name] == "") && default != Undefined ==> r == Coerce(default)
    ensures name !in env && default == Undefined ==> r == Undefined
    ensures name in env && env[name] == "" && default == Undefined ==> r == Str("")
  {
    var value := if name in env then Str(env[name]) else Undefined;
    var chosen := if (value == Undefined || value == Null || value == Str("")) && default != Undefined then default
                  else value;
    Coerce(chosen)
  }

  /** A variable holding only spaces is not empty: it is returned as it is. */
  lemma BlankIsNotEmpty(env: map<string, string>, name: string, default: JsValue)
    requires name in env && env[name] == " "
    ensures GetEnvValue(env, name, default) == Str(" ")
  {
    assert ToLower(" ") == " ";
    assert CanonicalInt(" ").None?;
  }

  /** Examples: integers in their own rendering become numbers, and `NaN` becomes NaN. */
  lemma CoerceNumberExamples()
    ensures Coerce(Str("12")) == Num(12) && Coerce(Str("-3")) == Num(-3)
    ensures Coerce(Str("NaN")) == NaN
  {
    assert IntToString(12) == "12" by { assert NatToString(12) == NatToString(1) + [DigitChar(2)]; }
    CoerceIntegers(12);
    assert IntToString(-3) == "-3";
    CoerceIntegers(-3);
    assert ToLower("NaN") == "nan";
  }

  /** Examples: `true` and `false` are recognised in any case. */
  lemma CoerceBooleanExamples()
    ensures Coerce(Str("TRUE")) == Bool(true) && Coerce(Str("False")) == Bool(false)
  {
    assert ToLower("TRUE") == "true";
    assert ToLower("False") == "false";
  }

  /** Examples: a leading zero or sign, a trailing letter and a negative zero keep the string. */
  lemma CoerceStringExamples()
    ensures Coerce(Str("007")) == Str("007") && Coerce(Str("+1")) == Str("+1")
    ensures Coerce(Str("1a")) == Str("1a") && Coerce(Str("-0")) == Str("-0")
  {
    assert ToLower("007") == "007" && CanonicalInt("007").None?;
    assert ToLower("+1") == "+1" && CanonicalInt("+1").None?;
    assert ToLower("1a") == "1a" && CanonicalInt("1a").None? by { assert !IsDigit("1a"[1]); }
    assert ToLower("-0") == "-0" && CanonicalInt("-0").None? by { assert "-0"[1..] == "0"; }
  }
}

=== FILE: GatlingLog.dfy ===
/**
  The parsers of the Gatling-to-Cucumber converter (`gatling-generate-cucumber-json/lib/generate.js`):
  the splitting of Gatling's console output into one block per simulation, the digit-only
  number reader, the scan of a `simulation.log`, and the Jira issue reference carried by a
  simulation class name. Files arrive as their sequence of lines (the text split on `\r?\n`).
 */
module GatlingLog {
  import opened Common
  import opened Text
  import opened Decimal

  // ---------------------------------------------------------------------------
  // parseNumeric
  // ---------------------------------------------------------------------------

  /** `parseNumeric`: the value of a non-empty string of ASCII digits, undefined (`None`)
      for anything else. Numbers are exact here (see the README on precision). */
  function ParseNumeric(value: string): (r: Option<nat>)
    ensures r.Some? <==> |value| > 0 && AllDigits(value)
    ensures r.Some? ==> r.value == DigitsValue(value)
  {
    if |value| > 0 && AllDigits(value) then Some(DigitsValue(value)) else None
  }

  /** The rendering of a number reads back as that number, and a canonical digit string (no
      superfluous leading zero) is the rendering of the number it reads as. */
  lemma ParseNumericRoundTrip(n: nat, s: string)
    ensures ParseNumeric(NatToString(n)) == Some(n)
    ensures IsCanonicalDigits(s) ==> ParseNumeric(s).Some? && NatToString(ParseNumeric(s).value) == s
  {
    NatToStringValue(n);
    if IsCanonicalDigits(s) {
      CanonicalDigitsRoundTrip(s);
    }
  }

  // ---------------------------------------------------------------------------
  // loadResultsFile
  // ---------------------------------------------------------------------------

  const HEADER_PREFIX: string := "Simulation "
  const HEADER_SUFFIX: string := " started..."

  /** The characters JavaScript's regular-expression `.` does not match. */
  predicate IsLineTerminator(c: char) {
    c == '\n' || c == '\r' || c == '\U{2028}' || c == '\U{2029}'
  }

  /** What `(.+)` can capture. */
  predicate IsSimulationName(name: string) {
    |name| > 0 && forall i :: 0 <= i < |name| ==> !IsLineTerminator(name[i])
  }

  /** The simulation a line announces: the capture of `/^Simulation (.+) started\.\.\.$/`. */
  function HeaderName(line: string): (r: Option<string>)
    ensures r.Some? ==> IsSimulationName(r.value) && line == HEADER_PREFIX + r.value + HEADER_SUFFIX
  {
    var p := |HEADER_PREFIX|;
    var q := |line| - |HEADER_SUFFIX|;
    if |line| > p + |HEADER_SUFFIX| && line[..p] == HEADER_PREFIX && line[q..] == HEADER_SUFFIX
       && IsSimulationName(line[p..q])
    then
      assert line == line[..p] + line[p..q] + line[q..];
      Some(line[p..q])
    else None
  }

  /** Every simulation name is recognised in its header line: with the contract of
      `HeaderName`, a line is a header exactly when it has the header's shape. */
  lemma HeaderLineRoundTrip(name: string)
    requires IsSimulationName(name)
    ensures HeaderName(HEADER_PREFIX + name + HEADER_SUFFIX) == Some(name)
  {
    var line := HEADER_PREFIX + name + HEADER_SUFFIX;
    assert line[..|HEADER_PREFIX|] == HEADER_PREFIX;
    assert line[|line| - |HEADER_SUFFIX|..] == HEADER_SUFFIX;
    assert line[|HEADER_PREFIX|..|line| - |HEADER_SUFFIX|] == name;
  }

  predicate IsHeader(line: string) {
    HeaderName(line).Some?
  }

  /** The output of one simulation: its name, the 1-based number of its header line, and the
      lines from the header up to the next header or the end. */
  datatype Block = Block(name: string, lineNumber: nat, lines: seq<string>)

  /** The result of `loadResultsFile`: the blocks by simulation name, or the error thrown for
      a simulation announced twice, with both line numbers. */
  datatype LoadResult =
    | Loaded(blocks: map<string, Block>)
    | DuplicateSimulation(name: string, firstLine: nat, secondLine: nat)

  /** Where the block starting at header `i` ends: the next header, or the end of the lines. */
  function NextHeader(lines: seq<string>, i: nat): (e: nat)
    requires i < |lines|
    ensures i < e <= |lines|
    ensures forall j :: i < j < e ==> !IsHeader(lines[j])
    ensures e < |lines| ==> IsHeader(lines[e])
    decreases |lines| - i
  {
    if i + 1 == |lines| || IsHeader(lines[i + 1]) then i + 1 else NextHeader(lines, i + 1)
  }

  /** The block a header line opens. */
  function BlockAt(lines: seq<string>, i: nat): Block
    requires i < |lines| && IsHeader(lines[i])
  {
    Block(HeaderName(lines[i]).value, i + 1, lines[i..NextHeader(lines, i)])
  }

  /** No two header lines among the first `k` lines announce the same simulation. */
  predicate DistinctNames(lines: seq<string>, k: nat)
    requires k <= |lines|
  {
    forall i, j :: 0 <= i < j < k && IsHeader(lines[i]) && IsHeader(lines[j]) ==> HeaderName(lines[i]) != HeaderName(lines[j])
  }

  /** A stored block is the block of the header at its line number, one of the first `k` lines. */
  predicate StoredBlock(lines: seq<string>, name: string, b: Block, k: nat)
    requires k <= |lines|
  {
    1 <= b.lineNumber <= k && IsHeader(lines[b.lineNumber - 1]) && b == BlockAt(lines, b.lineNumber - 1) && b.name == name
  }

  /** The blocks are exactly those of the header lines: every header's block is stored under
      its name, and every stored block is the block of a header. */
  predicate BlocksOf(lines: seq<string>, blocks: map<string, Block>) {
    && (forall i :: 0 <= i < |lines| && IsHeader(lines[i]) ==>
          HeaderName(lines[i]).value in blocks && blocks[HeaderName(lines[i]).value] == BlockAt(lines, i))
    && (forall n :: n in blocks ==> StoredBlock(lines, n, blocks[n], |lines|))
  }

  /** Lines `first` and `second` (1-based) are the first two headers announcing `name`, and no
      header before the second repeats an earlier one. */
  predicate FirstRepetition(lines: seq<string>, name: string, first: nat, second: nat) {
    && 1 <= first < second <= |lines|
    && HeaderName(lines[first - 1]) == Some(name)
    && HeaderName(lines[second - 1]) == Some(name)
    && DistinctNames(lines, second - 1)
  }

  /** The state of `loadResultsFile` after the first `k` lines: the blocks of every header but
      the last one seen are stored, and the last one's block is being collected. */
  predicate Scanned(lines: seq<string>, k: nat, results: map<string, Block>, processing: bool, name: string,
                    block: seq<string>, lineNumber: nat)
    requires k <= |lines|
  {
    && DistinctNames(lines, k)
    && (processing ==>
          && 1 <= lineNumber <= k
          && HeaderName(lines[lineNumber - 1]) == Some(name)
          && block == lines[lineNumber - 1..k]
          && (forall j :: lineNumber - 1 < j < k ==> !IsHeader(lines[j]))
          && name !in results)
    && (!processing ==> forall j :: 0 <= j < k ==> !IsHeader(lines[j]))
    && (forall j :: 0 <= j < k && IsHeader(lines[j]) && (!processing || j != lineNumber - 1) ==>
          HeaderName(lines[j]).value in results && results[HeaderName(lines[j]).value] == BlockAt(lines, j))
    && (forall n :: n in results ==> StoredBlock(lines, n, results[n], k))
  }

  /** The block being collected is complete once the next header or the end is reached. */
  lemma CloseBlock(lines: seq<string>, k: nat, results: map<string, Block>, name: string, block: seq<string>,
                   lineNumber: nat)
    requires k <= |lines| && Scanned(lines, k, results, true, name, block, lineNumber)
    requires k == |lines| || IsHeader(lines[k])
    ensures Block(name, lineNumber, block) == BlockAt(lines, lineNumber - 1)
  {
    assert NextHeader(lines, lineNumber - 1) == k;
  }

  /** Storing the collected block keeps every stored block a block of its header. */
  lemma StoreBlock(lines: seq<string>, k: nat, results: map<string, Block>, name: string, block: seq<string>,
                   lineNumber: nat)
    requires k <= |lines| && Scanned(lines, k, results, true, name, block, lineNumber)
    requires k == |lines| || IsHeader(lines[k])
    ensures var stored := results[name := Block(name, lineNumber, block)];
      && (forall j :: 0 <= j < k && IsHeader(lines[j]) ==>
            HeaderName(lines[j]).value in stored && stored[HeaderName(lines[j]).value] == BlockAt(lines, j))
      && (forall n :: n in stored ==> StoredBlock(lines, n, stored[n], k))
  {
    var b := Block(name, lineNumber, block);
    var stored := results[name := b];
    CloseBlock(lines, k, results, name, block, lineNumber);
    forall j | 0 <= j < k && IsHeader(lines[j])
      ensures HeaderName(lines[j]).value in stored && stored[HeaderName(lines[j]).value] == BlockAt(lines, j)
    {
      if j != lineNumber - 1 {
        assert HeaderName(lines[j]).value in results;
      }
    }
    forall n | n in stored
      ensures StoredBlock(lines, n, stored[n], k)
    {
      if n != name {
        assert stored[n] == results[n];
      }
    }
  }

  /** Every header among the first `k` lines has its block stored under its name, and every
      stored block is the block of one of those headers. */
  predicate StoredUpTo(lines: seq<string>, k: nat, stored: map<string, Block>)
    requires k <= |lines|
  {
    && (forall j :: 0 <= j < k && IsHeader(lines[j]) ==>
          HeaderName(lines[j]).value in stored && stored[HeaderName(lines[j]).value] == BlockAt(lines, j))
    && (forall n :: n in stored ==> StoredBlock(lines, n, stored[n], k))
  }

  /** A header whose name is stored repeats an earlier header: the first repetition. */
  lemma RepeatedHeader(lines: seq<string>, k: nat, stored: map<string, Block>)
    requires k < |lines| && IsHeader(lines[k]) && DistinctNames(lines, k) && StoredUpTo(lines, k, stored)
    requires HeaderName(lines[k]).value in stored
    ensures var n := HeaderName(lines[k]).value;
      FirstRepetition(lines, n, stored[n].lineNumber, k + 1) && !DistinctNames(lines, |lines|)
  {
    var n := HeaderName(lines[k]).value;
    assert StoredBlock(lines, n, stored[n], k);
    var first := stored[n].lineNumber - 1;
    assert HeaderName(lines[first]) == HeaderName(lines[k]);
  }

  /** A header whose name is not stored opens a new block, and the names stay distinct. */
  lemma FreshHeader(lines: seq<string>, k: nat, stored: map<string, Block>)
    requires k < |lines| && IsHeader(lines[k]) && DistinctNames(lines, k) && StoredUpTo(lines, k, stored)
    requires HeaderName(lines[k]).value !in stored
    ensures Scanned(lines, k + 1, stored, true, HeaderName(lines[k]).value, [lines[k]], k + 1)
  {
    assert [lines[k]] == lines[k..k + 1];
    forall i, j | 0 <= i < j < k + 1 && IsHeader(lines[i]) && IsHeader(lines[j])
      ensures HeaderName(lines[i]) != HeaderName(lines[j])
    {
      if j == k {
        assert HeaderName(lines[i]).value in stored;
      }
    }
    forall n | n in stored
      ensures StoredBlock(lines, n, stored[n], k + 1)
    {
      assert StoredBlock(lines, n, stored[n], k);
    }
  }

  /** A header line: the collected block is stored and a new one starts, unless the name was
      seen before, which is the first repetition. */
  lemma HeaderStep(lines: seq<string>, k: nat, results: map<string, Block>, processing: bool, name: string,
                   block: seq<string>, lineNumber: nat)
    requires k < |lines| && IsHeader(lines[k])
    requires Scanned(lines, k, results, processing, name, block, lineNumber)
    ensures var stored := Closed(results, processing, name, block, lineNumber);
      var n := HeaderName(lines[k]).value;
      && (n !in stored ==> Scanned(lines, k + 1, stored, true, n, [lines[k]], k + 1))
      && (n in stored ==> FirstRepetition(lines, n, stored[n].lineNumber, k + 1) && !DistinctNames(lines, |lines|))
  {
    var stored := Closed(results, processing, name, block, lineNumber);
    assert StoredUpTo(lines, k, stored) by {
      if processing {
        StoreBlock(lines, k, results, name, block, lineNumber);
      }
    }
    if HeaderName(lines[k]).value in stored {
      RepeatedHeader(lines, k, stored);
    } else {
      FreshHeader(lines, k, stored);
    }
  }

  /** A line that is not a header joins the block being collected, if any. */
  lemma PlainStep(lines: seq<string>, k: nat, results: map<string, Block>, processing: bool, name: string,
                  block: seq<string>, lineNumber: nat)
    requires k < |lines| && !IsHeader(lines[k])
    requires Scanned(lines, k, results, processing, name, block, lineNumber)
    ensures Scanned(lines, k + 1, results, processing, name, if processing then block + [lines[k]] else block, lineNumber)
  {
    assert DistinctNames(lines, k + 1) by {
      forall i, j | 0 <= i < j < k + 1 && IsHeader(lines[i]) && IsHeader(lines[j])
        ensures HeaderName(lines[i]) != HeaderName(lines[j])
      {
        assert j < k;
      }
    }
    forall n | n in results
      ensures StoredBlock(lines, n, results[n], k + 1)
    {
      assert StoredBlock(lines, n, results[n], k);
    }
    forall j | 0 <= j < k + 1 && IsHeader(lines[j]) && (!processing || j != lineNumber - 1)
      ensures HeaderName(lines[j]).value in results && results[HeaderName(lines[j]).value] == BlockAt(lines, j)
    {
      assert j < k;
    }
    if processing {
      assert lines[lineNumber - 1..k + 1] == lines[lineNumber - 1..k] + [lines[k]];
      forall j | lineNumber - 1 < j < k + 1
        ensures !IsHeader(lines[j])
      {
      }
    } else {
      forall j | 0 <= j < k + 1
        ensures !IsHeader(lines[j])
      {
      }
    }
  }

  /** At the end of the lines the collected block is stored and the blocks are complete. */
  lemma FinishScan(lines: seq<string>, results: map<string, Block>, processing: bool, name: string,
                   block: seq<string>, lineNumber: nat)
    requires Scanned(lines, |lines|, results, processing, name, block, lineNumber)
    ensures var stored := Closed(results, processing, name, block, lineNumber);
      DistinctNames(lines, |lines|) && BlocksOf(lines, stored)
  {
    if processing {
      StoreBlock(lines, |lines|, results, name, block, lineNumber);
    }
  }

  /** The stored blocks once the block being collected is closed. */
  function Closed(results: map<string, Block>, processing: bool, name: string, block: seq<string>,
                  lineNumber: nat): map<string, Block>
  {
    if processing then results[name := Block(name, lineNumber, block)] else results
  }

  /** Before the first line nothing is stored or collected. */
  lemma ScanStart(lines: seq<string>)
    ensures Scanned(lines, 0, map[], false, "", [], 0)
  {
  }

  /** One line of the loop of `loadResultsFile`: a header closes the collected block and opens
      its own, unless its name is already stored, where the loop stops; any other line joins
      the block being collected. */
  method ScanStep(lines: seq<string>, k: nat, results: map<string, Block>, processing: bool, name: string,
                  block: seq<string>, lineNumber: nat)
    returns (stop: bool, results': map<string, Block>, processing': bool, name': string, block': seq<string>,
             lineNumber': nat)
    requires k < |lines|
    requires Scanned(lines, k, results, processing, name, block, lineNumber)
    ensures stop ==> IsHeader(lines[k]) && HeaderName(lines[k]).value in Closed(results, processing, name, block, lineNumber)
    ensures !stop ==> Scanned(lines, k + 1, results', processing', name', block', lineNumber')
  {
    if IsHeader(lines[k]) {
      var n := HeaderName(lines[k]).value;
      var stored := Closed(results, processing, name, block, lineNumber);
      stop := n in stored;
      if !stop {
        assert Scanned(lines, k + 1, stored, true, n, [lines[k]], k + 1) by {
          HeaderStep(lines, k, results, processing, name, block, lineNumber);
        }
      }
      results', processing', name', block', lineNumber' := stored, true, n, [lines[k]], k + 1;
    } else {
      stop := false;
      var grown := if processing then block + [lines[k]] else block;
      assert Scanned(lines, k + 1, results, processing, name, grown, lineNumber) by {
        PlainStep(lines, k, results, processing, name, block, lineNumber);
      }
      results', processing', name', block', lineNumber' := results, processing, name, grown, lineNumber;
    }
  }

  /** The loop of `loadResultsFile`: it reads the lines until the end, or until a header whose
      name is already stored once the collected block is closed; `k` is where it stopped. */
  method ScanLines(lines: seq<string>)
    returns (k: nat, results: map<string, Block>, processing: bool, name: string, block: seq<string>,
             lineNumber: nat)
    ensures k <= |lines|
    ensures Scanned(lines, k, results, processing, name, block, lineNumber)
    ensures k < |lines| ==>
      IsHeader(lines[k]) && HeaderName(lines[k]).value in Closed(results, processing, name, block, lineNumber)
  {
    results, processing, name, block, lineNumber := map[], false, "", [], 0;
    k := 0;
    ScanStart(lines);
    var stop := false;
    while k < |lines| && !stop
      invariant 0 <= k <= |lines|
      invariant Scanned(lines, k, results, processing, name, block, lineNumber)
      invariant stop ==> (k < |lines| &&
        IsHeader(lines[k]) && HeaderName(lines[k]).value in Closed(results, processing, name, block, lineNumber))
      decreases |lines| - k, if stop then 0 else 1
    {
      var results', processing', name', block', lineNumber';
      stop, results', processing', name', block', lineNumber' :=
        ScanStep(lines, k, results, processing, name, block, lineNumber);
      if !stop {
        results, processing, name, block, lineNumber := results', processing', name', block', lineNumber';
        k := k + 1;
      }
    }
  }

  /** `loadResultsFile`: lines before the first header are dropped; every header opens a block
      holding it and the lines up to the next header; a name announced twice is an error that
      reports the first repetition. */
  method LoadResultsFile(lines: seq<string>) returns (r: LoadResult)
    ensures r.Loaded? <==> DistinctNames(lines, |lines|)
    ensures r.Loaded? ==> BlocksOf(lines, r.blocks)
    ensures r.DuplicateSimulation? ==> FirstRepetition(lines, r.name, r.firstLine, r.secondLine)
  {
    var k, results, processing, name, block, lineNumber := ScanLines(lines);
    var stored := Closed(results, processing, name, block, lineNumber);
    if k < |lines| {
      HeaderStep(lines, k, results, processing, name, block, lineNumber);
      var n := HeaderName(lines[k]).value;
      r := DuplicateSimulation(n, stored[n].lineNumber, k + 1);
    } else {
      FinishScan(lines, results, processing, name, block, lineNumber);
      r := Loaded(stored);
    }
  }

  /** The names a plain JavaScript object answers to through its prototype. */
  const INHERITED_NAMES: set<string> := {
    "constructor", "__proto__", "hasOwnProperty", "isPrototypeOf", "propertyIsEnumerable",
    "toLocaleString", "toString", "valueOf", "__defineGetter__", "__defineSetter__",
    "__lookupGetter__", "__lookupSetter__" }

  /** The duplicate test of `loadResultsFile` as written, `results[name]` on a plain object: it
      is truthy for a stored block and also for an inherited name. */
  predicate ExistingAsWritten(results: map<string, Block>, name: string) {
    name in results || name in INHERITED_NAMES
  }

  /** The test as written agrees with a lookup of the stored names, except on the inherited
      names, where it fires whether or not a block is stored. */
  lemma ExistingAsWrittenMeaning(results: map<string, Block>, name: string)
    ensures name !in INHERITED_NAMES ==> (ExistingAsWritten(results, name) <==> name in results)
    ensures name in INHERITED_NAMES ==> ExistingAsWritten(results, name)
  {
  }

  /** A results file announcing `constructor` once: the names are distinct, so the splitter
      loads it, yet the test as written already fires on that first header, with nothing stored. */
  lemma InheritedNameIsSpuriousDuplicate()
    ensures var lines := [HEADER_PREFIX + "constructor" + HEADER_SUFFIX];
      && DistinctNames(lines, |lines|)
      && HeaderName(lines[0]) == Some("constructor")
      && ExistingAsWritten(map[], "constructor")
  {
    assert IsSimulationName("constructor");
    HeaderLineRoundTrip("constructor");
  }

  // ---------------------------------------------------------------------------
  // loadPerformanceDetails
  // ---------------------------------------------------------------------------

  const TAB: char := '\t'

  /** Records with fewer fields are ignored. */
  const FIELD_COUNT: nat := 6

  /** The fields of a `simulation.log` line: every tab-separated segment, empty ones included. */
  function Fields(line: string): seq<string> {
    SplitAll(line, TAB)
  }

  /** The two records the scan reads: the `RUN` record naming the simulation, and the
      `USER ... END` record of a finished virtual user. */
  datatype Record = RunRecord | UserEndRecord

  predicate IsRecord(kind: Record, v: seq<string>) {
    |v| >= FIELD_COUNT &&
    match kind
    case RunRecord => v[0] == "RUN"
    case UserEndRecord => v[0] == "USER" && v[3] == "END"
  }

  /** The index of the last line holding a record of the given kind. */
  function LastRecord(lines: seq<string>, kind: Record): (r: Option<nat>)
    ensures r.None? <==> forall j :: 0 <= j < |lines| ==> !IsRecord(kind, Fields(lines[j]))
    ensures r.Some? ==> r.value < |lines| && IsRecord(kind, Fields(lines[r.value]))
    ensures r.Some? ==> forall j :: r.value < j < |lines| ==> !IsRecord(kind, Fields(lines[j]))
  {
    if |lines| == 0 then None
    else if IsRecord(kind, Fields(lines[|lines| - 1])) then Some(|lines| - 1)
    else
      assert forall j :: 0 <= j < |lines| - 1 ==> lines[..|lines| - 1][j] == lines[j];
      LastRecord(lines[..|lines| - 1], kind)
  }

  /** What the scan of a `simulation.log` finds, before any check. */
  datatype Scan = Scan(name: Option<string>, id: Option<string>, start: Option<nat>, end: Option<nat>)

  /** The scan a log determines: name, id and start from its last `RUN` record, the end
      time from its last `USER ... END` record, nothing where there is no such record. */
  function LastScan(lines: seq<string>): Scan {
    var run := LastRecord(lines, RunRecord);
    var userEnd := LastRecord(lines, UserEndRecord);
    var v := if run.Some? then Fields(lines[run.value]) else [];
    Scan(if run.Some? then Some(v[1]) else None,
         if run.Some? then Some(v[2]) else None,
         if run.Some? then ParseNumeric(v[3]) else None,
         if userEnd.Some? then ParseNumeric(Fields(lines[userEnd.value])[5]) else None)
  }

  /** The scan of a log reads the last `RUN` record for name, id and start and the last
      `USER ... END` record for the end time; a field stays undefined when no record gives it. */
  lemma LastScanRecords(lines: seq<string>)
    ensures LastScan(lines).name.Some? <==> exists j :: 0 <= j < |lines| && IsRecord(RunRecord, Fields(lines[j]))
    ensures (forall j :: 0 <= j < |lines| ==> !IsRecord(UserEndRecord, Fields(lines[j]))) ==> LastScan(lines).end.None?
    ensures forall j :: 0 <= j < |lines| && IsRecord(RunRecord, Fields(lines[j])) && LastOfKind(lines, RunRecord, j) ==>
      var v := Fields(lines[j]);
      LastScan(lines).name == Some(v[1]) && LastScan(lines).id == Some(v[2]) && LastScan(lines).start == ParseNumeric(v[3])
    ensures forall j :: 0 <= j < |lines| && IsRecord(UserEndRecord, Fields(lines[j])) && LastOfKind(lines, UserEndRecord, j) ==>
      LastScan(lines).end == ParseNumeric(Fields(lines[j])[5])
  {
    forall j | 0 <= j < |lines| && IsRecord(RunRecord, Fields(lines[j])) && LastOfKind(lines, RunRecord, j) {
      LastRecordAt(lines, RunRecord, j);
    }
    forall j | 0 <= j < |lines| && IsRecord(UserEndRecord, Fields(lines[j])) && LastOfKind(lines, UserEndRecord, j) {
      LastRecordAt(lines, UserEndRecord, j);
    }
  }

  /** A record with none of its kind after it is the last one. */
  lemma LastRecordAt(lines: seq<string>, kind: Record, j: nat)
    requires j < |lines| && IsRecord(kind, Fields(lines[j])) && LastOfKind(lines, kind, j)
    ensures LastRecord(lines, kind) == Some(j)
  {
  }

  /** No line after line `j` holds a record of the kind. */
  predicate LastOfKind(lines: seq<string>, kind: Record, j: nat) {
    forall k :: j < k < |lines| ==> !IsRecord(kind, Fields(lines[k]))
  }

  /** What one line does to the scan: a `RUN` record overwrites name, id and start, a
      `USER ... END` record overwrites the end time. */
  function ScanLine(scan: Scan, line: string): Scan {
    var v := Fields(line);
    var afterRun := if IsRecord(RunRecord, v) then scan.(name := Some(v[1]), id := Some(v[2]), start := ParseNumeric(v[3]))
                    else scan;
    if IsRecord(UserEndRecord, v) then afterRun.(end := ParseNumeric(v[5])) else afterRun
  }

  /** Scanning one more line keeps the scan that of the last records. */
  lemma ScanSnoc(lines: seq<string>, k: nat)
    requires k < |lines|
    ensures LastScan(lines[..k + 1]) == ScanLine(LastScan(lines[..k]), lines[k])
  {
    var prefix := lines[..k + 1];
    assert prefix[..k] == lines[..k];
    assert prefix[k] == lines[k];
  }

  /** The scan built line by line, from nothing found. */
  function ScanFold(lines: seq<string>): Scan {
    if |lines| == 0 then Scan(None, None, None, None)
    else ScanLine(ScanFold(lines[..|lines| - 1]), lines[|lines| - 1])
  }

  /** Scanning line by line finds what the last records say. */
  lemma {:induction false} ScanFoldIsLastScan(lines: seq<string>)
    ensures ScanFold(lines) == LastScan(lines)
  {
    if |lines| > 0 {
      var k := |lines| - 1;
      ScanFoldIsLastScan(lines[..k]);
      ScanSnoc(lines, k);
      assert lines[..k + 1] == lines;
    }
  }

  /** Before the first line nothing is found. */
  lemma ScanNothing(lines: seq<string>)
    requires |lines| == 0
    ensures LastScan(lines) == Scan(None, None, None, None)
  {
  }

  /** The line loop of `loadPerformanceDetails`, one `ScanLine` per line. */
  method ScanPerformanceLog(lines: seq<string>) returns (scan: Scan)
    ensures scan == LastScan(lines)
  {
    scan := Scan(None, None, None, None);
    var k := 0;
    ScanNothing(lines[..k]);
    while k < |lines|
      invariant 0 <= k <= |lines|
      invariant scan == LastScan(lines[..k])
    {
      ScanSnoc(lines, k);
      scan := ScanLine(scan, lines[k]);
      k := k + 1;
    }
    assert lines[..k] == lines;
  }

  /** JavaScript truthiness of a possibly undefined string and of a possibly undefined number. */
  predicate TruthyText(s: Option<string>) {
    s.Some? && s.value != ""
  }

  predicate TruthyNumber(n: Option<nat>) {
    n.Some? && n.value != 0
  }

  /** The errors `loadPerformanceDetails` records, in the order it checks them. */
  datatype PerformanceError = NameNotFound | IdNotFound | StartNotFound | EndNotFound

  function CheckOrder(e: PerformanceError): nat {
    match e
    case NameNotFound => 0
    case IdNotFound => 1
    case StartNotFound => 2
    case EndNotFound => 3
  }

  /** The result of `loadPerformanceDetails`: the values found, with the simulation id standing
      in for by the name when it is missing, and the lines of the log. */
  datatype PerformanceDetails =
    PerformanceDetails(name: Option<string>, id: Option<string>, start: Option<nat>, end: Option<nat>,
                       lines: seq<string>)

  /** Errors listed in the order the checks run. */
  predicate InCheckOrder(errors: seq<PerformanceError>) {
    forall i :: 0 < i < |errors| ==> CheckOrder(errors[i - 1]) < CheckOrder(errors[i])
  }

  /** The errors of one check followed by those of the later checks. */
  function Check(failed: bool, e: PerformanceError, later: seq<PerformanceError>): (r: seq<PerformanceError>)
    requires InCheckOrder(later)
    requires later != [] ==> CheckOrder(e) < CheckOrder(later[0])
    ensures InCheckOrder(r)
    ensures r != [] ==> CheckOrder(e) <= CheckOrder(r[0])
    ensures forall x :: x in r <==> (failed && x == e) || x in later
  {
    if failed then [e] + later else later
  }

  /** The errors of the four checks, given which of them passed. */
  function FailedChecks(nameFound: bool, idFound: bool, startFound: bool, endFound: bool): (r: seq<PerformanceError>)
    ensures NameNotFound in r <==> !nameFound
    ensures IdNotFound in r <==> !idFound
    ensures StartNotFound in r <==> !startFound
    ensures EndNotFound in r <==> !endFound
  {
    var e4 := Check(!endFound, EndNotFound, []);
    var e3 := Check(!startFound, StartNotFound, e4);
    var e2 := Check(!idFound, IdNotFound, e3);
    Check(!nameFound, NameNotFound, e2)
  }

  /** The checks after the scan: each falsy value records one error, in a fixed order. */
  function CheckScan(scan: Scan, lines: seq<string>): (r: (PerformanceDetails, seq<PerformanceError>))
    ensures NameNotFound in r.1 <==> !TruthyText(scan.name)
    ensures IdNotFound in r.1 <==> !TruthyText(scan.id)
    ensures StartNotFound in r.1 <==> !TruthyNumber(scan.start)
    ensures EndNotFound in r.1 <==> !TruthyNumber(scan.end)
    ensures InCheckOrder(r.1)
    ensures r.0.id == (if TruthyText(scan.id) then scan.id else scan.name)
    ensures r.0.name == scan.name && r.0.start == scan.start && r.0.end == scan.end && r.0.lines == lines
  {
    var errors := FailedChecks(TruthyText(scan.name), TruthyText(scan.id), TruthyNumber(scan.start), TruthyNumber(scan.end));
    var id := if TruthyText(scan.id) then scan.id else scan.name;
    (PerformanceDetails(scan.name, id, scan.start, scan.end, lines), errors)
  }

  /** `loadPerformanceDetails` on the lines of a `simulation.log`. */
  method LoadPerformanceDetails(lines: seq<string>) returns (details: PerformanceDetails, errors: seq<PerformanceError>)
    ensures (details, errors) == CheckScan(LastScan(lines), lines)
  {
    var scan := ScanPerformanceLog(lines);
    details, errors := CheckScan(scan, lines).0, CheckScan(scan, lines).1;
  }

  // ---------------------------------------------------------------------------
  // getJiraIssue
  // ---------------------------------------------------------------------------

  predicate IsUpperLetter(c: char) {
    'A' <= c <= 'Z'
  }

  /** What `[A-Z][A-Z0-9]+` matches. */
  predicate IsJiraProject(p: string) {
    |p| >= 2 && IsUpperLetter(p[0]) && forall i :: 1 <= i < |p| ==> IsUpperLetter(p[i]) || IsDigit(p[i])
  }

  /** What `\d+` matches. */
  predicate IsNumber(d: string) {
    |d| > 0 && AllDigits(d)
  }

  /** `value` ends in `_P_D`, project `P` and issue number `D`: a match of
      `/_([A-Z][A-Z0-9]+)_(\d+)$/`. `j` is the position of the second `_`. */
  predicate EndsWithIssue(value: string, p: string, d: string) {
    && IsJiraProject(p) && IsNumber(d)
    && |value| >= |p| + |d| + 2
    && var j := |value| - |d| - 1;
       value[j - |p| - 1] == '_' && value[j - |p|..j] == p && value[j] == '_' && value[j + 1..] == d
  }

  /** The Jira test issue a simulation is linked to. */
  datatype JiraIssue = JiraIssue(project: string, id: nat, key: string)

  /** The issue of project `p` numbered by the digits `d`: the key is `P-` and the number. */
  function IssueOf(p: string, d: string): JiraIssue
    requires IsNumber(d)
  {
    JiraIssue(p, DigitsValue(d), p + "-" + NatToString(DigitsValue(d)))
  }

  /** `getJiraIssue`: the issue a simulation class name refers to, if it has one. Neither
      the project nor the number can hold `_`, so the match takes the last two `_`. */
  function GetJiraIssue(value: string): (r: Option<JiraIssue>)
    ensures r.Some? ==> IsJiraProject(r.value.project) && r.value.key == r.value.project + "-" + NatToString(r.value.id)
  {
    match LastIndexOf(value, '_')
    case None => None
    case Some(j) => IssueBefore(value[..j], value[j + 1..])
  }

  /** The rest of the match once the number `d` is cut off at the last `_`: the project is
      what follows the last `_` of `front`. */
  function IssueBefore(front: string, d: string): (r: Option<JiraIssue>)
    ensures r.Some? ==> IsJiraProject(r.value.project) && r.value.key == r.value.project + "-" + NatToString(r.value.id)
  {
    match LastIndexOf(front, '_')
    case None => None
    case Some(i) =>
      var p := front[i + 1..];
      if IsJiraProject(p) && IsNumber(d) then Some(IssueOf(p, d)) else None
  }

  /** A found issue comes from a `_P_D` ending of the name. */
  lemma GetJiraIssueSound(value: string)
    ensures GetJiraIssue(value).Some? ==>
              exists d :: EndsWithIssue(value, GetJiraIssue(value).value.project, d)
                          && GetJiraIssue(value).value == IssueOf(GetJiraIssue(value).value.project, d)
  {
    if GetJiraIssue(value).Some? {
      var j := LastIndexOf(value, '_').value;
      var front := value[..j];
      var d := value[j + 1..];
      assert GetJiraIssue(value) == IssueBefore(front, d);
      var i := LastIndexOf(front, '_').value;
      var p := front[i + 1..];
      assert IssueBefore(front, d) == Some(IssueOf(p, d));
      assert value[i] == '_' && value[i + 1..j] == p by {
        assert front[i] == '_';
      }
      IssueEndingAt(value, i, j);
    }
  }

  /** Two `_` at `i` and `j` around a project key, followed by a number to the end, make an
      issue ending. */
  lemma IssueEndingAt(value: string, i: nat, j: nat)
    requires i < j < |value| && value[i] == '_' && value[j] == '_'
    requires IsJiraProject(value[i + 1..j]) && IsNumber(value[j + 1..])
    ensures EndsWithIssue(value, value[i + 1..j], value[j + 1..])
  {
  }

  /** Neither a project key nor an issue number holds `_`. */
  lemma NoSeparatorInParts(p: string, d: string)
    requires IsJiraProject(p) && IsNumber(d)
    ensures '_' !in p && '_' !in d
  {
    forall k | 0 <= k < |p|
      ensures p[k] != '_'
    {
      assert IsUpperLetter(p[k]) || IsDigit(p[k]);
    }
    forall k | 0 <= k < |d|
      ensures d[k] != '_'
    {
      assert IsDigit(d[k]);
    }
  }

  /** The parts of `a`, `c`, `b` joined, read back by position. */
  lemma Around(a: string, c: char, b: string)
    ensures (a + [c] + b)[|a|] == c && (a + [c] + b)[..|a|] == a && (a + [c] + b)[|a| + 1..] == b
  {
  }

  /** After a last `_` and a number without `_`, the match goes on before that `_`. */
  lemma IssueAfterNumber(head: string, d: string)
    requires '_' !in d
    ensures GetJiraIssue(head + "_" + d) == IssueBefore(head, d)
  {
    Around(head, '_', d);
    LastIndexOfAt(head + "_" + d, '_', |head|);
  }

  /** After a last `_` and a project without `_`, the project is found. */
  lemma IssueAfterProject(front: string, p: string, d: string)
    requires IsJiraProject(p) && IsNumber(d) && '_' !in p
    ensures IssueBefore(front + "_" + p, d) == Some(IssueOf(p, d))
  {
    Around(front, '_', p);
    LastIndexOfAt(front + "_" + p, '_', |front|);
  }

  /** A name made of any front, `_`, a project, `_` and a number refers to that issue. */
  lemma IssueOfJoined(front: string, p: string, d: string)
    requires IsJiraProject(p) && IsNumber(d)
    ensures GetJiraIssue(front + "_" + p + "_" + d) == Some(IssueOf(p, d))
  {
    NoSeparatorInParts(p, d);
    IssueAfterNumber(front + "_" + p, d);
    IssueAfterProject(front, p, d);
  }

  /** A name with a `_P_D` ending is its front, `_`, `P`, `_` and `D`. */
  lemma EndsWithIssueJoined(value: string, p: string, d: string)
    requires EndsWithIssue(value, p, d)
    ensures value == value[..|value| - |d| - |p| - 2] + "_" + p + "_" + d
  {
    var j := |value| - |d| - 1;
    var front := value[..j - |p| - 1];
    assert value == front + [value[j - |p| - 1]] + value[j - |p|..j] + [value[j]] + value[j + 1..];
  }

  /** Every `_P_D` ending is found, and it is the only one there is. */
  lemma GetJiraIssueComplete(value: string, p: string, d: string)
    requires EndsWithIssue(value, p, d)
    ensures GetJiraIssue(value) == Some(IssueOf(p, d))
  {
    EndsWithIssueJoined(value, p, d);
    IssueOfJoined(value[..|value| - |d| - |p| - 2], p, d);
  }

  /** A name is linked to no issue exactly when it has no `_P_D` ending. */
  lemma GetJiraIssueNone(value: string)
    ensures GetJiraIssue(value).None? <==> forall p, d :: !EndsWithIssue(value, p, d)
  {
    GetJiraIssueSound(value);
    forall p, d | EndsWithIssue(value, p, d)
      ensures GetJiraIssue(value).Some?
    {
      GetJiraIssueComplete(value, p, d);
    }
  }

  /** Leading zeros of the issue number are dropped from the key. */
  lemma {:induction false} LeadingZeroDropped(d: string)
    requires AllDigits(d)
    ensures AllDigits("0" + d) && DigitsValue("0" + d) == DigitsValue(d)
    decreases |d|
  {
    assert AllDigits("0" + d) by {
      forall i | 0 <= i < |"0" + d|
        ensures IsDigit(("0" + d)[i])
      {
        if i > 0 { assert ("0" + d)[i] == d[i - 1]; }
      }
    }
    if |d| > 0 {
      var shorter := d[..|d| - 1];
      assert ("0" + d)[..|"0" + d| - 1] == "0" + shorter;
      LeadingZeroDropped(shorter);
    }
  }

  /** The issue `EXAMPLE-10`. */
  lemma ExampleKey()
    ensures IssueOf("EXAMPLE", "10") == JiraIssue("EXAMPLE", 10, "EXAMPLE-10")
  {
    assert DigitsValue("10") == 10 by {
      assert "10"[..1] == "1";
    }
  }

  /** A class name ending in `_EXAMPLE_10` refers to issue `EXAMPLE-10`. */
  lemma ExampleIssue(prefix: string)
    ensures GetJiraIssue(prefix + "_EXAMPLE_10") == Some(JiraIssue("EXAMPLE", 10, "EXAMPLE-10"))
  {
    assert prefix + "_EXAMPLE_10" == prefix + "_" + "EXAMPLE" + "_" + "10";
    assert IsJiraProject("EXAMPLE") && IsNumber("10");
    IssueOfJoined(prefix, "EXAMPLE", "10");
    ExampleKey();
  }

  /** A zero in front of the issue number changes nothing: the same issue, with the same key. */
  lemma PaddedNumberSameIssue(front: string, p: string, d: string)
    requires IsJiraProject(p) && IsNumber(d)
    ensures GetJiraIssue(front + "_" + p + "_" + ("0" + d)) == GetJiraIssue(front + "_" + p + "_" + d)
  {
    LeadingZeroDropped(d);
    IssueOfJoined(front, p, "0" + d);
    IssueOfJoined(front, p, d);
  }

  /** So a class name ending in `_EXAMPLE_010` refers to `EXAMPLE-10` too. */
  lemma PaddedExampleIssue(prefix: string)
    ensures GetJiraIssue(prefix + "_EXAMPLE_010") == Some(JiraIssue("EXAMPLE", 10, "EXAMPLE-10"))
  {
    var padded := prefix + "_" + "EXAMPLE" + "_" + "010";
    var plain := prefix + "_" + "EXAMPLE" + "_" + "10";
    assert prefix + "_EXAMPLE_010" == padded;
    assert IsJiraProject("EXAMPLE") && IsNumber("10");
    assert GetJiraIssue(padded) == GetJiraIssue(plain) by {
      assert "0" + "10" == "010";
      PaddedNumberSameIssue(prefix, "EXAMPLE", "10");
    }
    IssueOfJoined(prefix, "EXAMPLE", "10");
    ExampleKey();
  }

  /** A class name without two `_` refers to no issue, whatever else it holds. */
  lemma PlainNameHasNoIssue(value: string)
    requires '_' !in value
    ensures GetJiraIssue(value).None?
  {
  }
}

=== FILE: GatlingReport.dfy ===
/**
  The report side of the Gatling-to-Cucumber converter (`gatling-generate-cucumber-json/lib/generate.js`):
  the verdict drawn from a simulation's assertions, the Jira issue a simulation is linked to
  (each issue at most once), the Cucumber report of one simulation, and the run over all
  result folders with its summary. Files are given by their contents; the files written in
  this run are the reports already produced.
 */
module GatlingReport {
  import opened Common
  import opened Text
  import opened Decimal
  import opened GatlingLog

  const TAG_NONE: string := "<none>"
  const NO_ASSERTIONS: string := "FAIL: No assertions present!"

  /** Cucumber durations are nanoseconds; the log gives milliseconds. */
  const DURATION_FACTOR: int := 1000000

  /** JavaScript's rendering of a possibly undefined string inside a template or a sum. */
  function JsText(s: Option<string>): string {
    match s
    case Some(v) => v
    case None => "undefined"
  }

  // ---------------------------------------------------------------------------
  // Assertions
  // ---------------------------------------------------------------------------

  /** One entry of `js/assertions.json`; `actualValue` is its JSON rendering when present. */
  datatype Assertion = Assertion(result: bool, message: string, actualValue: Option<string>)

  /** The contents of `js/assertions.json`. */
  datatype AssertionsFile = AssertionsFile(simulation: Option<string>, assertions: seq<Assertion>)

  /** The line one assertion contributes to the step message. */
  function AssertionLine(a: Assertion): string {
    (if a.result then "PASS" else "FAIL") + ": " + a.message
    + (match a.actualValue case Some(v) => " (actual value: " + v + ")" case None => "")
  }

  function AssertionLines(a: seq<Assertion>): (r: seq<string>)
    ensures |r| == |a| && forall i :: 0 <= i < |a| ==> r[i] == AssertionLine(a[i])
  {
    seq(|a|, i requires 0 <= i < |a| => AssertionLine(a[i]))
  }

  /** The number of assertions that hold. */
  function PassedCount(a: seq<Assertion>): (n: nat)
    ensures n <= |a|
  {
    if |a| == 0 then 0
    else PassedCount(a[..|a| - 1]) + (if a[|a| - 1].result then 1 else 0)
  }

  /** Every assertion holds exactly when all of them are counted as passed. */
  lemma {:induction false} AllPassed(a: seq<Assertion>)
    ensures PassedCount(a) == |a| <==> forall i :: 0 <= i < |a| ==> a[i].result
  {
    if |a| > 0 {
      var front := a[..|a| - 1];
      AllPassed(front);
      assert forall i :: 0 <= i < |a| - 1 ==> front[i] == a[i];
    }
  }

  /** The verdict on a simulation's assertions. */
  datatype Verdict = Verdict(passed: bool, passedCount: nat, failedCount: nat, message: string)

  /** One pass of the assertion loop of `createCucumberReport`: the verdict so far and the
      next assertion. */
  function AddAssertion(v: Verdict, x: Assertion): Verdict {
    Verdict(v.passed && x.result,
            v.passedCount + (if x.result then 1 else 0),
            v.failedCount + (if x.result then 0 else 1),
            (if v.message != "" then v.message + "\n" else v.message) + AssertionLine(x))
  }

  /** The verdict after the loop has gone over the given assertions, from a passing start. */
  function TallyOf(a: seq<Assertion>): Verdict {
    if |a| == 0 then Verdict(true, 0, 0, "") else AddAssertion(TallyOf(a[..|a| - 1]), a[|a| - 1])
  }

  /** What the loop counts: the assertions pass exactly when all hold, the passed ones are
      counted, and every assertion is counted once. */
  lemma {:induction false} TallyCounts(a: seq<Assertion>)
    ensures TallyOf(a).passed <==> forall i :: 0 <= i < |a| ==> a[i].result
    ensures TallyOf(a).passedCount == PassedCount(a)
    ensures TallyOf(a).passedCount + TallyOf(a).failedCount == |a|
  {
    if |a| > 0 {
      var k := |a| - 1;
      var front := a[..k];
      TallyCounts(front);
      assert forall i :: 0 <= i < k ==> front[i] == a[i];
    }
  }

  /** The message the loop builds holds the assertions' lines in order, one per line. */
  lemma {:induction false} TallyMessage(a: seq<Assertion>)
    ensures TallyOf(a).message == Join(AssertionLines(a), '\n')
  {
    if |a| > 0 {
      var k := |a| - 1;
      TallyMessage(a[..k]);
      MessageStep(a, k);
      assert a[..k + 1] == a;
    }
  }

  /** The assertion loop of `createCucumberReport`: no assertion is a failure; otherwise the
      simulation passes when every assertion holds, and the message has one line per
      assertion. */
  method AggregateAssertions(a: seq<Assertion>) returns (v: Verdict)
    ensures |a| == 0 ==> v == Verdict(false, 0, 1, NO_ASSERTIONS)
    ensures |a| > 0 ==> (v.passed <==> forall i :: 0 <= i < |a| ==> a[i].result)
    ensures |a| > 0 ==> v.passedCount == PassedCount(a) && v.passedCount + v.failedCount == |a|
    ensures |a| > 0 ==> v.message == Join(AssertionLines(a), '\n')
  {
    if |a| == 0 {
      return Verdict(false, 0, 1, NO_ASSERTIONS);
    }
    v := Verdict(true, 0, 0, "");
    var k := 0;
    while k < |a|
      invariant 0 <= k <= |a|
      invariant v == TallyOf(a[..k])
    {
      assert a[..k + 1][..k] == a[..k];
      v := AddAssertion(v, a[k]);
      k := k + 1;
    }
    assert a[..k] == a;
    TallyCounts(a);
    TallyMessage(a);
  }

  /** The message after the first `k` assertions: their lines joined by newlines. */
  function MessageSoFar(a: seq<Assertion>, k: nat): string
    requires k <= |a|
  {
    Join(AssertionLines(a[..k]), '\n')
  }

  lemma MessageStep(a: seq<Assertion>, k: nat)
    requires k < |a|
    ensures MessageSoFar(a, k) == "" <==> k == 0
    ensures MessageSoFar(a, k + 1)
            == (if MessageSoFar(a, k) != "" then MessageSoFar(a, k) + "\n" else MessageSoFar(a, k)) + AssertionLine(a[k])
  {
    assert a[..k + 1][..k] == a[..k];
    assert AssertionLines(a[..k + 1]) == AssertionLines(a[..k]) + [AssertionLine(a[k])];
    if k > 0 {
      JoinSnoc(AssertionLines(a[..k]), AssertionLine(a[k]), '\n');
      assert |AssertionLine(a[0])| > 0;
    }
  }

  /** An assertion's line starts with `FAIL: ` exactly when the assertion failed. */
  lemma AssertionLineStatus(x: Assertion)
    ensures |AssertionLine(x)| >= 6 && (AssertionLine(x)[..6] == "FAIL: " <==> !x.result)
  {
    var line := AssertionLine(x);
    if x.result {
      assert line[..6] == "PASS: ";
    } else {
      assert line[..6] == "FAIL: ";
    }
  }

  /** Line `i` of the message reads back as the line of assertion `i`, and it starts with
      `FAIL: ` exactly when that assertion failed, provided no message spans several lines. */
  lemma MessageLines(a: seq<Assertion>, i: nat)
    requires |a| > 0 && i < |a|
    requires forall j :: 0 <= j < |a| ==> '\n' !in AssertionLine(a[j])
    ensures SplitAll(Join(AssertionLines(a), '\n'), '\n') == AssertionLines(a)
    ensures |AssertionLine(a[i])| >= 6 && (AssertionLine(a[i])[..6] == "FAIL: " <==> !a[i].result)
  {
    assert forall j :: 0 <= j < |AssertionLines(a)| ==> '\n' !in AssertionLines(a)[j];
    SplitAllJoin(AssertionLines(a), '\n');
    AssertionLineStatus(a[i]);
  }

  /** The second step of the report: its title, status and message. */
  datatype AssertionStep = AssertionStep(name: string, status: string, errorMessage: Option<string>, docString: string)

  /** The title of the assertion step: the passed and failed counts, or no pass and one
      failure when there is no assertion. */
  function AssertionTitle(a: seq<Assertion>): string {
    if |a| == 0 then StepTitle(0, 1) else StepTitle(PassedCount(a), |a| - PassedCount(a))
  }

  /** The text of the assertion step: one line per assertion, or the no-assertions failure. */
  function AssertionMessage(a: seq<Assertion>): string {
    if |a| == 0 then NO_ASSERTIONS else Join(AssertionLines(a), '\n')
  }

  /** The title of the assertion step. */
  function StepTitle(passedCount: nat, failedCount: nat): string {
    "Assertions (passed: " + NatToString(passedCount) + " failed: " + NatToString(failedCount) + ")"
  }

  /** The title determines both counts: different counts give different titles. */
  lemma StepTitleInjective(passed1: nat, failed1: nat, passed2: nat, failed2: nat)
    requires StepTitle(passed1, failed1) == StepTitle(passed2, failed2)
    ensures passed1 == passed2 && failed1 == failed2
  {
    var a1, b1 := NatToString(passed1), NatToString(failed1);
    var a2, b2 := NatToString(passed2), NatToString(failed2);
    TitleParts(passed1, failed1);
    TitleParts(passed2, failed2);
    DropPrefix("Assertions (passed: ", a1 + (" failed: " + (b1 + ")")), a2 + (" failed: " + (b2 + ")")));
    DigitsThenOther(a1, " failed: " + (b1 + ")"), a2, " failed: " + (b2 + ")"));
    NatToStringInjective(passed1, passed2);
    DropPrefix(" failed: ", b1 + ")", b2 + ")");
    DigitsThenOther(b1, ")", b2, ")");
    NatToStringInjective(failed1, failed2);
  }

  lemma TitleParts(passedCount: nat, failedCount: nat)
    ensures StepTitle(passedCount, failedCount)
         == "Assertions (passed: " + (NatToString(passedCount) + (" failed: " + (NatToString(failedCount) + ")")))
  {
  }

  /** Two texts with the same prefix are equal when the prefixed texts are. */
  lemma DropPrefix<T>(h: seq<T>, x: seq<T>, y: seq<T>)
    requires h + x == h + y
    ensures x == y
  {
    assert x == (h + x)[|h|..] && y == (h + y)[|h|..];
  }

  function StepOf(v: Verdict): AssertionStep {
    AssertionStep(StepTitle(v.passedCount, v.failedCount),
                  if v.passed then "passed" else "failed",
                  if v.passed then None else Some(v.message),
                  v.message)
  }

  /** The duration of the first step: the time between start and end when both are known and
      non-zero, else nothing. */
  function Duration(start: Option<nat>, end: Option<nat>): int {
    if TruthyNumber(start) && TruthyNumber(end) then (end.value - start.value) * DURATION_FACTOR else 0
  }

  /** The duration is the time from start to end, milliseconds turned into nanoseconds, when
      both are known and non-zero, and zero otherwise; an end before the start is not guarded
      against and gives a negative duration. */
  lemma DurationMeaning(start: Option<nat>, end: Option<nat>)
    ensures Duration(start, end) % DURATION_FACTOR == 0
    ensures Duration(start, end) != 0 ==> TruthyNumber(start) && TruthyNumber(end)
    ensures TruthyNumber(start) && TruthyNumber(end) ==>
      Duration(start, end) / DURATION_FACTOR == end.value - start.value
    ensures TruthyNumber(start) && TruthyNumber(end) && end.value < start.value ==> Duration(start, end) < 0
  {
  }

  // ---------------------------------------------------------------------------
  // Jira issues
  // ---------------------------------------------------------------------------

  datatype ReportError =
    | NoResultFolders
    | MissingSimulationLog(folder: string)
    | MissingAssertions(folder: string)
    | PerformanceLog(folder: string, error: PerformanceError)
    | SimulationMismatch(folder: string, logName: Option<string>, assertionsName: Option<string>)
    | MissingLogDetails(simulation: string)
    | NoJiraReference(simulation: string)
    | InvalidJiraProject(simulation: string, key: string, project: string)
    | JiraAlreadyReferenced(simulation: string, key: string, firstReferrer: string)
    | OutputFileExists(fileName: string, simulation: string)

  /** A simulation and the issue its name refers to. */
  datatype Referral = Referral(simulation: string, issue: Option<JiraIssue>)

  function ReferralOf(name: string): Referral {
    Referral(name, GetJiraIssue(name))
  }

  /** The key under which a simulation is registered: that of its issue, when the issue's
      project is one of the valid ones. */
  function ValidKey(ref: Referral, validProjects: seq<string>): Option<string> {
    match ref.issue
    case None => None
    case Some(issue) => if issue.project in validProjects then Some(issue.key) else None
  }

  /** The Jira check of `createCucumberReport`: no reference and an unknown project are errors;
      an issue already referenced is an error that keeps the earlier referrer; otherwise the
      simulation becomes the issue's referrer. */
  function RegisterJira(ref: Referral, validProjects: seq<string>, referrers: map<string, string>)
    : (r: (map<string, string>, seq<ReportError>))
    ensures ValidKey(ref, validProjects).None? ==> r.0 == referrers && |r.1| == 1
    ensures ref.issue.None? ==> r == (referrers, [NoJiraReference(ref.simulation)])
    ensures ref.issue.Some? && ref.issue.value.project !in validProjects ==>
      r == (referrers, [InvalidJiraProject(ref.simulation, ref.issue.value.key, ref.issue.value.project)])
    ensures ValidKey(ref, validProjects).Some? ==>
      var key := ValidKey(ref, validProjects).value;
      && (key in referrers ==> r == (referrers, [JiraAlreadyReferenced(ref.simulation, key, referrers[key])]))
      && (key !in referrers ==> r == (referrers[key := ref.simulation], []))
  {
    match ref.issue
    case None => (referrers, [NoJiraReference(ref.simulation)])
    case Some(issue) =>
      if issue.project !in validProjects then
        (referrers, [InvalidJiraProject(ref.simulation, issue.key, issue.project)])
      else if issue.key in referrers then
        (referrers, [JiraAlreadyReferenced(ref.simulation, issue.key, referrers[issue.key])])
      else (referrers[issue.key := ref.simulation], [])
  }

  /** The referrers after the given simulations, in order. */
  function RegisterAll(refs: seq<Referral>, validProjects: seq<string>): map<string, string> {
    if |refs| == 0 then map[]
    else RegisterJira(refs[|refs| - 1], validProjects, RegisterAll(refs[..|refs| - 1], validProjects)).0
  }

  /** An issue is registered exactly when some simulation refers to it validly. */
  lemma {:induction false} RegisteredWhenReferred(refs: seq<Referral>, validProjects: seq<string>, key: string)
    ensures key in RegisterAll(refs, validProjects) <==>
      exists i :: 0 <= i < |refs| && ValidKey(refs[i], validProjects) == Some(key)
  {
    if |refs| > 0 {
      var front := refs[..|refs| - 1];
      RegisteredWhenReferred(front, validProjects, key);
      assert forall i :: 0 <= i < |front| ==> front[i] == refs[i];
      if exists i :: 0 <= i < |refs| && ValidKey(refs[i], validProjects) == Some(key) {
        var i :| 0 <= i < |refs| && ValidKey(refs[i], validProjects) == Some(key);
        if i < |front| {
          assert ValidKey(front[i], validProjects) == Some(key);
        }
      }
    }
  }

  /** The referrer of an issue is the first simulation that refers to it validly; later
      references leave it as it is. */
  lemma {:induction false} FirstReferrerKept(refs: seq<Referral>, validProjects: seq<string>, key: string, i: nat)
    requires i < |refs| && ValidKey(refs[i], validProjects) == Some(key)
    requires forall j :: 0 <= j < i ==> ValidKey(refs[j], validProjects) != Some(key)
    ensures key in RegisterAll(refs, validProjects) && RegisterAll(refs, validProjects)[key] == refs[i].simulation
  {
    var front := refs[..|refs| - 1];
    assert forall j :: 0 <= j < |front| ==> front[j] == refs[j];
    if i == |refs| - 1 {
      RegisteredWhenReferred(front, validProjects, key);
    } else {
      FirstReferrerKept(front, validProjects, key, i);
    }
  }

  // ---------------------------------------------------------------------------
  // createCucumberReport
  // ---------------------------------------------------------------------------

  /** The contents of one Cucumber JSON report (embedded attachments left aside). */
  datatype Feature = Feature(name: string, id: Option<string>, tag: Option<string>, duration: int, step: AssertionStep)

  /** A written report, as listed in the summary. */
  datatype CucumberReport = CucumberReport(fileName: string, passed: bool, tag: string, feature: Feature)

  /** What the run has produced so far. */
  datatype Progress = Progress(referrers: map<string, string>, reports: seq<CucumberReport>, errors: seq<ReportError>)

  function FileNames(reports: seq<CucumberReport>): (r: seq<string>)
    ensures |r| == |reports| && forall i :: 0 <= i < |r| ==> r[i] == reports[i].fileName
  {
    seq(|reports|, i requires 0 <= i < |reports| => reports[i].fileName)
  }

  predicate DistinctFiles(reports: seq<CucumberReport>) {
    forall i, j :: 0 <= i < j < |reports| ==> reports[i].fileName != reports[j].fileName
  }

  function OutputFileName(id: Option<string>): string {
    JsText(id) + ".json"
  }

  /** Report files are `<id>.json`: two simulations write the same file exactly when their ids
      render alike, and a missing id renders as `undefined`, like the id `undefined`. */
  lemma OutputFileNames(a: Option<string>, b: Option<string>)
    ensures var f := OutputFileName(a); |f| >= 5 && f[|f| - 5..] == ".json"
    ensures OutputFileName(a) == OutputFileName(b) <==> JsText(a) == JsText(b)
    ensures OutputFileName(None) == OutputFileName(Some("undefined"))
  {
    var s, t := JsText(a), JsText(b);
    if OutputFileName(a) == OutputFileName(b) {
      assert s == (s + ".json")[..|s|] && t == (t + ".json")[..|t|];
    }
  }

  /** The tag a report carries: the issue key, when the name refers to one. */
  function TagOf(name: string): Option<string> {
    match GetJiraIssue(name)
    case Some(issue) => Some("@" + issue.key)
    case None => None
  }

  /** The tag the summary counts for a report: the issue's tag, or `<none>`. */
  function ReportTag(name: string): string {
    match TagOf(name)
    case Some(tag) => tag
    case None => TAG_NONE
  }

  /** A report is tagged exactly when its simulation refers to a Jira issue, with `@` and the
      issue key; the summary counts it as untagged exactly when there is no issue. */
  lemma ReportTagMeaning(name: string)
    ensures TagOf(name).Some? <==> GetJiraIssue(name).Some?
    ensures GetJiraIssue(name).Some? ==>
      TagOf(name) == Some("@" + GetJiraIssue(name).value.key) && ReportTag(name) == TagOf(name).value
    ensures ReportTag(name) == TAG_NONE <==> GetJiraIssue(name).None?
  {
    if GetJiraIssue(name).Some? {
      assert ReportTag(name)[0] == '@' != TAG_NONE[0];
    }
  }

  /** Every error a simulation named `name`, reported to `file`, adds to the run, in order:
      its log details missing from the console output, the Jira check's error, and a report
      file that an earlier simulation already wrote. */
  function SimulationErrors(name: string, file: string, logOutput: Option<map<string, Block>>,
                            validProjects: seq<string>, progress: Progress): seq<ReportError> {
    (if logOutput.Some? && name !in logOutput.value then [MissingLogDetails(name)] else [])
    + ReportErrors(name, file, validProjects, progress)
  }

  /** The errors `createCucumberReport` adds: the Jira check's, then a report file written
      before. */
  function ReportErrors(name: string, file: string, validProjects: seq<string>, progress: Progress): seq<ReportError> {
    RegisterJira(ReferralOf(name), validProjects, progress.referrers).1
    + (if file in FileNames(progress.reports) then [OutputFileExists(file, name)] else [])
  }

  /** `createCucumberReport` for a simulation with a name: the Jira check, the report's
      contents, and the report written unless a report of the same file name was written
      before, which is an error. */
  method CreateCucumberReport(details: PerformanceDetails, assertions: seq<Assertion>, validProjects: seq<string>,
                              progress: Progress)
    returns (next: Progress, feature: Feature)
    requires details.name.Some?
    requires DistinctFiles(progress.reports)
    ensures DistinctFiles(next.reports)
    ensures var name := details.name.value;
      var jira := RegisterJira(ReferralOf(name), validProjects, progress.referrers);
      var file := OutputFileName(details.id);
      && next.referrers == jira.0
      && (file in FileNames(progress.reports) ==>
            next.reports == progress.reports && next.errors == progress.errors + jira.1 + [OutputFileExists(file, name)])
      && (file !in FileNames(progress.reports) ==>
            next.errors == progress.errors + jira.1 &&
            next.reports == progress.reports + [CucumberReport(file, feature.step.status == "passed",
                                                              ReportTag(name), feature)])
    ensures next.errors == progress.errors + ReportErrors(details.name.value, OutputFileName(details.id), validProjects, progress)
    ensures |next.errors| >= |progress.errors| && next.errors[..|progress.errors|] == progress.errors
    ensures |progress.reports| <= |next.reports| <= |progress.reports| + 1
    ensures next.reports[..|progress.reports|] == progress.reports
    ensures |next.reports| == |progress.reports| + 1 || |next.errors| > |progress.errors|
    ensures |next.reports| > |progress.reports| ==>
      next.reports[|next.reports| - 1].fileName == OutputFileName(details.id)
      && next.reports[|next.reports| - 1].passed == (feature.step.status == "passed")
    ensures feature.name == "Gatling simulation '" + details.name.value + "'" && feature.id == details.id
    ensures feature.tag == TagOf(details.name.value)
    ensures feature.duration == Duration(details.start, details.end)
    ensures feature.step.status == "passed" <==> |assertions| > 0 && forall i :: 0 <= i < |assertions| ==> assertions[i].result
    ensures feature.step.errorMessage.Some? <==> feature.step.status != "passed"
    ensures feature.step.errorMessage.Some? ==> feature.step.errorMessage.value == feature.step.docString
    ensures feature.step.name == AssertionTitle(assertions)
    ensures feature.step.docString == AssertionMessage(assertions)
  {
    var name := details.name.value;
    var jira := RegisterJira(ReferralOf(name), validProjects, progress.referrers);
    var verdict := AggregateAssertions(assertions);
    var tag := TagOf(name);
    feature := Feature("Gatling simulation '" + name + "'", details.id, tag, Duration(details.start, details.end),
                       StepOf(verdict));
    var file := OutputFileName(details.id);
    if file in FileNames(progress.reports) {
      next := Progress(jira.0, progress.reports, progress.errors + jira.1 + [OutputFileExists(file, name)]);
    } else {
      var report := CucumberReport(file, verdict.passed, ReportTag(name), feature);
      next := Progress(jira.0, progress.reports + [report], progress.errors + jira.1);
      AppendDistinct(progress.reports, report);
    }
  }

  /** `createCucumberReport` as the folder loop sees it: what the report adds to the run. */
  method AddReport(details: PerformanceDetails, assertions: seq<Assertion>, validProjects: seq<string>,
                   progress: Progress)
    returns (next: Progress)
    requires details.name.Some?
    requires DistinctFiles(progress.reports)
    ensures DistinctFiles(next.reports)
    ensures next.referrers == RegisterJira(ReferralOf(details.name.value), validProjects, progress.referrers).0
    ensures next.errors == progress.errors + ReportErrors(details.name.value, OutputFileName(details.id), validProjects, progress)
    ensures |progress.reports| <= |next.reports| <= |progress.reports| + 1
    ensures next.reports[..|progress.reports|] == progress.reports
    ensures |next.reports| == |progress.reports| + 1 <==> OutputFileName(details.id) !in FileNames(progress.reports)
    ensures |next.reports| > |progress.reports| ==>
      var report := next.reports[|next.reports| - 1];
      && report.fileName == OutputFileName(details.id)
      && (report.passed <==> |assertions| > 0 && forall i :: 0 <= i < |assertions| ==> assertions[i].result)
      && report.tag == ReportTag(details.name.value)
  {
    var feature;
    next, feature := CreateCucumberReport(details, assertions, validProjects, progress);
  }

  /** A report whose file name is new keeps the file names distinct. */
  lemma AppendDistinct(reports: seq<CucumberReport>, report: CucumberReport)
    requires DistinctFiles(reports) && report.fileName !in FileNames(reports)
    ensures DistinctFiles(reports + [report])
  {
    assert forall i :: 0 <= i < |reports| ==> reports[i].fileName != report.fileName;
  }

  // ---------------------------------------------------------------------------
  // generateCucumberJson
  // ---------------------------------------------------------------------------

  /** One child folder of the Gatling results folder. */
  datatype Folder = Folder(path: string, simulationLog: Option<seq<string>>, assertions: Option<AssertionsFile>)

  /** The options that decide the run; the output folder is (re)created empty. */
  datatype Options = Options(outputFolderExists: bool, overwrite: bool, resultsFile: Option<seq<string>>,
                             validJiraProjects: seq<string>)

  /** Why a run stops with an exception. */
  datatype Abort =
    | OutputFolderExists
    | RepeatedSimulation(name: string, firstLine: nat, secondLine: nat)
    | UndefinedSimulationName(folder: string)
    | InheritedLogDetails(simulation: string)

  datatype Summary = Summary(passed: nat, failed: nat, noTag: nat)

  datatype Generation =
    | Aborted(reason: Abort)
    | Generated(reports: seq<CucumberReport>, errors: seq<ReportError>, summary: Summary, successful: bool)

  /** The summary of a single report. */
  function One(report: CucumberReport): Summary {
    Summary(if report.passed then 1 else 0, if report.passed then 0 else 1, if report.tag == TAG_NONE then 1 else 0)
  }

  function Plus(s: Summary, t: Summary): Summary {
    Summary(s.passed + t.passed, s.failed + t.failed, s.noTag + t.noTag)
  }

  /** The summary loop of `generateCucumberJson`, one report at a time. */
  function SummaryOf(reports: seq<CucumberReport>): Summary {
    if |reports| == 0 then Summary(0, 0, 0)
    else Plus(SummaryOf(reports[..|reports| - 1]), One(reports[|reports| - 1]))
  }

  /** The counts the run prints: reports passed, failed, and without a tag. */
  function Summarize(reports: seq<CucumberReport>): (s: Summary)
    ensures s.passed + s.failed == |reports|
    ensures s.failed == 0 <==> forall i :: 0 <= i < |reports| ==> reports[i].passed
    ensures s.noTag == 0 <==> forall i :: 0 <= i < |reports| ==> reports[i].tag != TAG_NONE
  {
    SummaryOfZeroes(reports);
    SummaryOf(reports)
  }

  lemma {:induction false} SummaryOfZeroes(reports: seq<CucumberReport>)
    ensures SummaryOf(reports).passed + SummaryOf(reports).failed == |reports|
    ensures SummaryOf(reports).failed == 0 <==> forall i :: 0 <= i < |reports| ==> reports[i].passed
    ensures SummaryOf(reports).noTag == 0 <==> forall i :: 0 <= i < |reports| ==> reports[i].tag != TAG_NONE
  {
    if |reports| > 0 {
      var front := reports[..|reports| - 1];
      SummaryOfZeroes(front);
      assert forall i :: 0 <= i < |reports| - 1 ==> front[i] == reports[i];
    }
  }

  /** The three things the summary counts. */
  datatype Tally = PassedReport | FailedReport | UntaggedReport

  predicate Counts(t: Tally, report: CucumberReport) {
    match t
    case PassedReport => report.passed
    case FailedReport => !report.passed
    case UntaggedReport => report.tag == TAG_NONE
  }

  /** The positions of the reports a tally counts. */
  function Indices(reports: seq<CucumberReport>, t: Tally): set<int> {
    set i | 0 <= i < |reports| && Counts(t, reports[i])
  }

  /** The counts report by report: the passed, failed and untagged reports. */
  lemma {:induction false} SummarizeCounts(reports: seq<CucumberReport>)
    ensures Summarize(reports).passed == |Indices(reports, PassedReport)|
    ensures Summarize(reports).failed == |Indices(reports, FailedReport)|
    ensures Summarize(reports).noTag == |Indices(reports, UntaggedReport)|
  {
    SummaryOfCounts(reports);
  }

  lemma {:induction false} SummaryOfCounts(reports: seq<CucumberReport>)
    ensures SummaryOf(reports).passed == |Indices(reports, PassedReport)|
    ensures SummaryOf(reports).failed == |Indices(reports, FailedReport)|
    ensures SummaryOf(reports).noTag == |Indices(reports, UntaggedReport)|
  {
    if |reports| > 0 {
      SummaryOfCounts(reports[..|reports| - 1]);
      IndicesStep(reports, PassedReport);
      IndicesStep(reports, FailedReport);
      IndicesStep(reports, UntaggedReport);
    }
  }

  /** Adding a report adds its position when the tally counts it. */
  lemma IndicesStep(reports: seq<CucumberReport>, t: Tally)
    requires |reports| > 0
    ensures var n := |reports| - 1;
      |Indices(reports, t)| == |Indices(reports[..n], t)| + (if Counts(t, reports[n]) then 1 else 0)
  {
    var n := |reports| - 1;
    IndicesSnoc(reports, t);
    assert n !in Indices(reports[..n], t);
  }

  lemma IndicesSnoc(reports: seq<CucumberReport>, t: Tally)
    requires |reports| > 0
    ensures var n := |reports| - 1;
      Indices(reports, t) == Indices(reports[..n], t) + (if Counts(t, reports[n]) then {n} else {})
  {
    var n := |reports| - 1;
    assert forall i :: 0 <= i < n ==> reports[..n][i] == reports[i];
  }

  /** The summary of two runs of reports is the sum of their summaries. */
  lemma {:induction false} SummaryOfAppend(a: seq<CucumberReport>, b: seq<CucumberReport>)
    ensures SummaryOf(a + b) == Plus(SummaryOf(a), SummaryOf(b))
    decreases |b|
  {
    if |b| == 0 {
      assert a + b == a;
    } else {
      var n := |b| - 1;
      var ab := a + b;
      assert ab[..|ab| - 1] == a + b[..n] && ab[|ab| - 1] == b[n];
      assert SummaryOf(ab) == Plus(SummaryOf(a + b[..n]), One(b[n]));
      SummaryOfAppend(a, b[..n]);
    }
  }

  /** The summary of a run with one report taken out, and with it put back. */
  lemma SummaryOfSplit(b: seq<CucumberReport>, j: nat)
    requires j < |b|
    ensures SummaryOf(b) == Plus(Plus(SummaryOf(b[..j]), One(b[j])), SummaryOf(b[j + 1..]))
    ensures SummaryOf(b[..j] + b[j + 1..]) == Plus(SummaryOf(b[..j]), SummaryOf(b[j + 1..]))
  {
    assert b == b[..j + 1] + b[j + 1..];
    SummaryOfTake(b, j);
    SummaryOfAppend(b[..j + 1], b[j + 1..]);
    SummaryOfAppend(b[..j], b[j + 1..]);
  }

  lemma SummaryOfTake(b: seq<CucumberReport>, j: nat)
    requires j < |b|
    ensures SummaryOf(b[..j + 1]) == Plus(SummaryOf(b[..j]), One(b[j]))
  {
    var front := b[..j + 1];
    assert front[..|front| - 1] == b[..j] && front[|front| - 1] == b[j];
  }

  /** Taking the last element off one of two permutations, and the same element off the
      other, leaves two permutations. */
  lemma RemoveLast<T>(a: seq<T>, b: seq<T>, j: nat)
    requires |a| > 0 && multiset(a) == multiset(b) && j < |b| && b[j] == a[|a| - 1]
    ensures multiset(a[..|a| - 1]) == multiset(b[..j] + b[j + 1..])
  {
    var n := |a| - 1;
    var x := a[n];
    assert a == a[..n] + [x];
    assert b == b[..j] + [x] + b[j + 1..];
    assert multiset(a[..n]) == multiset(a) - multiset{x};
    assert multiset(b[..j] + b[j + 1..]) == multiset(b) - multiset{x};
  }

  /** The summary does not depend on the order of the reports, so sorting them first, as
      the original does, prints the same counts. */
  lemma {:induction false} SummarizeReorder(a: seq<CucumberReport>, b: seq<CucumberReport>)
    requires multiset(a) == multiset(b)
    ensures Summarize(a) == Summarize(b)
  {
    SummaryOfReorder(a, b);
  }

  lemma {:induction false} SummaryOfReorder(a: seq<CucumberReport>, b: seq<CucumberReport>)
    requires multiset(a) == multiset(b)
    ensures SummaryOf(a) == SummaryOf(b)
    decreases |a|
  {
    if |a| == 0 {
      assert |b| == |multiset(b)| == 0;
    } else {
      var n := |a| - 1;
      var x := a[n];
      assert x in multiset(b);
      var j :| 0 <= j < |b| && b[j] == x;
      var rest := b[..j] + b[j + 1..];
      RemoveLast(a, b, j);
      SummaryOfReorder(a[..n], rest);
      SummaryOfSplit(b, j);
    }
  }

  /** The outcome of one folder: the run goes on, or stops with an exception. */
  datatype FolderOutcome = Continue(progress: Progress) | Stop(reason: Abort)

  /** The scan of a folder's `simulation.log`. */
  function ScanOf(folder: Folder): Scan
    requires folder.simulationLog.Some?
  {
    ScanFold(folder.simulationLog.value)
  }

  /** A scan the checks of `loadPerformanceDetails` accept. */
  predicate ScanComplete(scan: Scan) {
    TruthyText(scan.name) && TruthyText(scan.id) && TruthyNumber(scan.start) && TruthyNumber(scan.end)
  }

  /** The report file of a simulation: named after its id, or its name when the id is falsy. */
  function ReportFileOf(scan: Scan): string {
    OutputFileName(if TruthyText(scan.id) then scan.id else scan.name)
  }

  /** The run's errors after the checks of a folder's `simulation.log`. */
  function WithLogErrors(errors: seq<ReportError>, folder: Folder, logErrors: seq<PerformanceError>): (r: seq<ReportError>)
    ensures |r| >= |errors| && r[..|errors|] == errors
    ensures |r| > |errors| <==> logErrors != []
  {
    errors + seq(|logErrors|, i requires 0 <= i < |logErrors| => PerformanceLog(folder.path, logErrors[i]))
  }

  /** A folder that records an error whatever else happens: a file is missing, the
      performance log misses a field, or the two files name different simulations. */
  predicate FolderHasError(folder: Folder) {
    || folder.simulationLog.None?
    || folder.assertions.None?
    || !ScanComplete(ScanOf(folder))
    || ScanOf(folder).name != folder.assertions.value.simulation
  }

  /** What a folder that records no error contributes to the run: the report of its
      simulation, in the file named after the simulation, passed exactly when it has
      assertions and all of them hold, and tagged with its Jira issue, whose project is a
      valid one. */
  predicate CleanReport(folder: Folder, report: CucumberReport, validProjects: seq<string>) {
    && folder.simulationLog.Some? && folder.assertions.Some?
    && ScanOf(folder).name.Some?
    && ValidKey(ReferralOf(ScanOf(folder).name.value), validProjects).Some?
    && GetJiraIssue(ScanOf(folder).name.value).Some?
    && report.fileName == ReportFileOf(ScanOf(folder))
    && (report.passed <==>
          |folder.assertions.value.assertions| > 0
          && forall i :: 0 <= i < |folder.assertions.value.assertions| ==> folder.assertions.value.assertions[i].result)
    && report.tag == "@" + GetJiraIssue(ScanOf(folder).name.value).value.key
  }

  /** Some folder of the list records an error. */
  predicate SomeFolderHasError(folders: seq<Folder>) {
    |folders| > 0 && (SomeFolderHasError(folders[..|folders| - 1]) || FolderHasError(folders[|folders| - 1]))
  }

  lemma {:induction false} SomeFolderHasErrorMeaning(folders: seq<Folder>)
    ensures SomeFolderHasError(folders) <==> exists i :: 0 <= i < |folders| && FolderHasError(folders[i])
  {
    if |folders| > 0 {
      var front := folders[..|folders| - 1];
      SomeFolderHasErrorMeaning(front);
      assert forall i :: 0 <= i < |front| ==> front[i] == folders[i];
    }
  }

  /** The part of the folder loop after both files are read and their simulation names
      agree (`name`): a nameless simulation stops the run, as `getJiraIssue` throws on it. A
      name that the results file does not hold but that a plain object inherits (`toString`,
      …) finds a function in place of the log details, and reading its lines throws too.
      Otherwise a missing block of log details is an error, and the report is made. */
  method ReportSimulation(path: string, details: PerformanceDetails, file: AssertionsFile,
                          logOutput: Option<map<string, Block>>, validProjects: seq<string>, progress: Progress)
    returns (r: FolderOutcome)
    requires DistinctFiles(progress.reports)
    requires details.name == file.simulation
    ensures details.name.None? ==> r == Stop(UndefinedSimulationName(path))
    ensures (details.name.Some? && logOutput.Some? && details.name.value !in logOutput.value
             && details.name.value in INHERITED_NAMES) ==> r == Stop(InheritedLogDetails(details.name.value))
    ensures r.Stop? ==> details.name.None? || (logOutput.Some? && details.name.value !in logOutput.value
                                               && details.name.value in INHERITED_NAMES)
    ensures r.Continue? ==>
      var name := details.name.value;
      && details.name.Some?
      && DistinctFiles(r.progress.reports)
      && |progress.reports| <= |r.progress.reports| <= |progress.reports| + 1
      && r.progress.reports[..|progress.reports|] == progress.reports
      && |r.progress.errors| >= |progress.errors| && r.progress.errors[..|progress.errors|] == progress.errors
      && (|r.progress.reports| == |progress.reports| + 1 || |r.progress.errors| > |progress.errors|)
      && r.progress.referrers == RegisterJira(ReferralOf(name), validProjects, progress.referrers).0
      && (logOutput.Some? && name !in logOutput.value ==> MissingLogDetails(name) in r.progress.errors)
    ensures r.Continue? && |r.progress.reports| > |progress.reports| ==>
      var report := r.progress.reports[|r.progress.reports| - 1];
      && report.fileName == OutputFileName(details.id)
      && (report.passed <==> |file.assertions| > 0 && forall i :: 0 <= i < |file.assertions| ==> file.assertions[i].result)
      && report.tag == ReportTag(details.name.value)
    ensures r.Continue? ==>
      r.progress.errors == progress.errors
                           + SimulationErrors(details.name.value, OutputFileName(details.id), logOutput, validProjects, progress)
    ensures r.Continue? && |r.progress.errors| == |progress.errors| ==>
      && |r.progress.reports| == |progress.reports| + 1
      && ValidKey(ReferralOf(details.name.value), validProjects).Some?
  {
    if details.name.None? {
      return Stop(UndefinedSimulationName(path));
    }
    var name := details.name.value;
    var errors := progress.errors;
    if logOutput.Some? && name !in logOutput.value {
      if name in INHERITED_NAMES {
        return Stop(InheritedLogDetails(name));
      }
      errors := errors + [MissingLogDetails(name)];
    }
    var next := AddReport(details, file.assertions, validProjects, progress.(errors := errors));
    assert errors[..|progress.errors|] == progress.errors;
    PrefixOfPrefix(progress.errors, errors, next.errors);
    var missing := if logOutput.Some? && name !in logOutput.value then [MissingLogDetails(name)] else [];
    assert errors == progress.errors + missing;
    var reportErrors := ReportErrors(name, OutputFileName(details.id), validProjects, progress);
    assert ReportErrors(name, OutputFileName(details.id), validProjects, progress.(errors := errors)) == reportErrors;
    assert SimulationErrors(name, OutputFileName(details.id), logOutput, validProjects, progress) == missing + reportErrors;
    assert next.errors == errors + reportErrors;
    AppendAssociative(progress.errors, missing, reportErrors);
    r := Continue(next);
  }

  lemma AppendAssociative<T>(a: seq<T>, b: seq<T>, c: seq<T>)
    ensures a + b + c == a + (b + c)
  {
  }

  /** A prefix of a prefix is a prefix. */
  lemma PrefixOfPrefix<T>(a: seq<T>, b: seq<T>, c: seq<T>)
    requires |a| <= |b| <= |c| && c[..|b|] == b && b[..|a|] == a
    ensures c[..|a|] == a
  {
    assert c[..|a|] == c[..|b|][..|a|];
  }

  /** What `loadPerformanceDetails` gives for a folder's `simulation.log`: the details, and
      the checks that failed. */
  function LoadedDetails(folder: Folder): (PerformanceDetails, seq<PerformanceError>)
    requires folder.simulationLog.Some?
  {
    CheckScan(ScanOf(folder), folder.simulationLog.value)
  }

  /** The part of the folder loop after both files are read: the performance log's checks,
      then differing simulation names are an error that ends the folder's turn, and otherwise
      the simulation is reported. */
  method ReportFolder(folder: Folder, logOutput: Option<map<string, Block>>, validProjects: seq<string>,
                      progress: Progress)
    returns (r: FolderOutcome)
    requires folder.simulationLog.Some? && folder.assertions.Some?
    requires DistinctFiles(progress.reports)
    ensures var details := LoadedDetails(folder).0;
      var errors := WithLogErrors(progress.errors, folder, LoadedDetails(folder).1);
      var file := folder.assertions.value;
      && (details.name != file.simulation ==>
            r == Continue(progress.(errors := errors + [SimulationMismatch(folder.path, details.name, file.simulation)])))
      && (r.Stop? ==> details.name == file.simulation)
      && (r.Stop? && details.name.None? ==> r.reason == UndefinedSimulationName(folder.path))
      && (r.Stop? && details.name.Some? ==>
            && logOutput.Some? && details.name.value !in logOutput.value && details.name.value in INHERITED_NAMES
            && r.reason == InheritedLogDetails(details.name.value))
      && ((details.name == file.simulation
           && (details.name.None? || (logOutput.Some? && details.name.value !in logOutput.value
                                      && details.name.value in INHERITED_NAMES))) ==> r.Stop?)
      && (r.Continue? && details.name == file.simulation ==>
            && details.name.Some?
            && r.progress.referrers == RegisterJira(ReferralOf(details.name.value), validProjects, progress.referrers).0
            && r.progress.errors
               == errors + SimulationErrors(details.name.value, OutputFileName(details.id), logOutput, validProjects, progress))
    ensures r.Continue? ==>
      && DistinctFiles(r.progress.reports)
      && |progress.reports| <= |r.progress.reports| <= |progress.reports| + 1
      && r.progress.reports[..|progress.reports|] == progress.reports
      && |r.progress.errors| >= |progress.errors| && r.progress.errors[..|progress.errors|] == progress.errors
      && (|r.progress.reports| == |progress.reports| + 1 || |r.progress.errors| > |progress.errors|)
    ensures r.Continue? && |r.progress.reports| > |progress.reports| ==>
      var details := LoadedDetails(folder).0;
      var report := r.progress.reports[|r.progress.reports| - 1];
      var assertions := folder.assertions.value.assertions;
      && details.name == folder.assertions.value.simulation && details.name.Some?
      && report.fileName == OutputFileName(details.id)
      && (report.passed <==> |assertions| > 0 && forall i :: 0 <= i < |assertions| ==> assertions[i].result)
      && report.tag == ReportTag(details.name.value)
    ensures r.Continue? && |r.progress.errors| == |progress.errors| ==>
      && |r.progress.reports| == |progress.reports| + 1
      && LoadedDetails(folder).0.name.Some?
      && ValidKey(ReferralOf(LoadedDetails(folder).0.name.value), validProjects).Some?
  {
    var details, performanceErrors := LoadPerformanceDetails(folder.simulationLog.value);
    ScanFoldIsLastScan(folder.simulationLog.value);
    assert (details, performanceErrors) == LoadedDetails(folder);
    var errors := WithLogErrors(progress.errors, folder, performanceErrors);
    var file := folder.assertions.value;
    if details.name != file.simulation {
      return Continue(progress.(errors := errors + [SimulationMismatch(folder.path, details.name, file.simulation)]));
    }
    if details.name.Some? {
      var name, reportFile := details.name.value, OutputFileName(details.id);
      assert SimulationErrors(name, reportFile, logOutput, validProjects, progress.(errors := errors))
          == SimulationErrors(name, reportFile, logOutput, validProjects, progress);
    }
    r := ReportSimulation(folder.path, details, file, logOutput, validProjects, progress.(errors := errors));
    if r.Continue? {
      PrefixOfPrefix(progress.errors, errors, r.progress.errors);
      assert |r.progress.errors| == |progress.errors| ==> |r.progress.errors| == |errors|;
    }
  }

  /** The body of the folder loop of `generateCucumberJson`: a missing file or differing
      simulation names are errors that end the folder's turn; otherwise the simulation is
      reported. */
  method ProcessFolder(folder: Folder, logOutput: Option<map<string, Block>>, validProjects: seq<string>,
                       progress: Progress)
    returns (r: FolderOutcome)
    requires DistinctFiles(progress.reports)
    ensures r.Continue? ==> DistinctFiles(r.progress.reports)
    ensures r.Continue? ==> |progress.reports| <= |r.progress.reports| <= |progress.reports| + 1
    ensures r.Continue? ==> |r.progress.errors| >= |progress.errors|
    ensures r.Continue? ==> |r.progress.reports| == |progress.reports| + 1 || |r.progress.errors| > |progress.errors|
    ensures r.Continue? && FolderHasError(folder) ==> |r.progress.errors| > |progress.errors|
    ensures folder.simulationLog.None? ==> r == Continue(progress.(errors := progress.errors + [MissingSimulationLog(folder.path)]))
    ensures folder.simulationLog.Some? && folder.assertions.None? ==>
      r == Continue(progress.(errors := progress.errors + [MissingAssertions(folder.path)]))
    ensures folder.simulationLog.Some? && folder.assertions.Some? && ScanOf(folder).name != folder.assertions.value.simulation ==>
      r == Continue(progress.(errors := WithLogErrors(progress.errors, folder, CheckScan(ScanOf(folder), folder.simulationLog.value).1)
                                        + [SimulationMismatch(folder.path, ScanOf(folder).name, folder.assertions.value.simulation)]))
    ensures r.Stop? ==> folder.simulationLog.Some? && folder.assertions.Some?
                        && ScanOf(folder).name == folder.assertions.value.simulation
    ensures r.Stop? && ScanOf(folder).name.None? ==> r.reason == UndefinedSimulationName(folder.path)
    ensures r.Stop? && ScanOf(folder).name.Some? ==>
      && logOutput.Some? && ScanOf(folder).name.value !in logOutput.value && ScanOf(folder).name.value in INHERITED_NAMES
      && r.reason == InheritedLogDetails(ScanOf(folder).name.value)
    ensures (folder.simulationLog.Some? && folder.assertions.Some?
             && ScanOf(folder).name == folder.assertions.value.simulation
             && (ScanOf(folder).name.None?
                 || (logOutput.Some? && ScanOf(folder).name.value !in logOutput.value
                     && ScanOf(folder).name.value in INHERITED_NAMES))) ==> r.Stop?
    ensures r.Continue? && |r.progress.reports| > |progress.reports| ==>
      && folder.simulationLog.Some? && folder.assertions.Some?
      && ScanOf(folder).name == folder.assertions.value.simulation
      && r.progress.reports[|r.progress.reports| - 1].fileName == ReportFileOf(ScanOf(folder))
      && (r.progress.reports[|r.progress.reports| - 1].passed <==>
            |folder.assertions.value.assertions| > 0
            && forall i :: 0 <= i < |folder.assertions.value.assertions| ==> folder.assertions.value.assertions[i].result)
      && r.progress.reports[|r.progress.reports| - 1].tag == ReportTag(ScanOf(folder).name.value)
    ensures r.Continue? && folder.simulationLog.Some? && folder.assertions.Some?
            && ScanOf(folder).name == folder.assertions.value.simulation ==>
      && ScanOf(folder).name.Some?
      && r.progress.referrers == RegisterJira(ReferralOf(ScanOf(folder).name.value), validProjects, progress.referrers).0
      && r.progress.errors == WithLogErrors(progress.errors, folder, CheckScan(ScanOf(folder), folder.simulationLog.value).1)
                              + SimulationErrors(ScanOf(folder).name.value, ReportFileOf(ScanOf(folder)), logOutput,
                                                 validProjects, progress)
    ensures r.Continue? ==> r.progress.reports[..|progress.reports|] == progress.reports
    ensures r.Continue? && |r.progress.errors| == |progress.errors| ==>
      && |r.progress.reports| == |progress.reports| + 1
      && CleanReport(folder, r.progress.reports[|progress.reports|], validProjects)
  {
    if folder.simulationLog.None? {
      return Continue(progress.(errors := progress.errors + [MissingSimulationLog(folder.path)]));
    }
    if folder.assertions.None? {
      return Continue(progress.(errors := progress.errors + [MissingAssertions(folder.path)]));
    }
    r := ReportFolder(folder, logOutput, validProjects, progress);
  }

  /** A folder as the loop of `generateCucumberJson` sees it: what it adds to the run, and why
      it stops the run. */
  method NextFolder(folder: Folder, logOutput: Option<map<string, Block>>, validProjects: seq<string>,
                    progress: Progress)
    returns (r: FolderOutcome)
    requires DistinctFiles(progress.reports)
    ensures r.Continue? ==> DistinctFiles(r.progress.reports)
    ensures r.Continue? ==> |progress.reports| <= |r.progress.reports| <= |progress.reports| + 1
    ensures r.Continue? ==> |r.progress.errors| >= |progress.errors|
    ensures r.Continue? ==> |r.progress.reports| == |progress.reports| + 1 || |r.progress.errors| > |progress.errors|
    ensures r.Continue? && FolderHasError(folder) ==> |r.progress.errors| > |progress.errors|
    ensures r.Stop? ==> folder.simulationLog.Some? && folder.assertions.Some?
    ensures r.Stop? && r.reason.UndefinedSimulationName? ==>
      r.reason.folder == folder.path && folder.assertions.value.simulation.None? && ScanOf(folder).name.None?
    ensures r.Stop? ==> r.reason.UndefinedSimulationName? || r.reason.InheritedLogDetails?
    ensures r.Stop? && r.reason.InheritedLogDetails? ==>
      logOutput.Some? && r.reason.simulation in INHERITED_NAMES && ScanOf(folder).name == Some(r.reason.simulation)
    ensures r.Continue? ==> r.progress.reports[..|progress.reports|] == progress.reports
    ensures r.Continue? && |r.progress.errors| == |progress.errors| ==>
      && |r.progress.reports| == |progress.reports| + 1
      && CleanReport(folder, r.progress.reports[|progress.reports|], validProjects)
  {
    r := ProcessFolder(folder, logOutput, validProjects, progress);
  }

  /** One more folder reported cleanly extends a run of clean reports. */
  lemma CleanStep(folders: seq<Folder>, k: nat, reports: seq<CucumberReport>, next: seq<CucumberReport>,
                  validProjects: seq<string>)
    requires k < |folders| && |reports| == k && |next| == k + 1 && next[..k] == reports
    requires forall i :: 0 <= i < k ==> CleanReport(folders[i], reports[i], validProjects)
    requires CleanReport(folders[k], next[k], validProjects)
    ensures forall i :: 0 <= i < k + 1 ==> CleanReport(folders[i], next[i], validProjects)
  {
    forall i | 0 <= i < k + 1
      ensures CleanReport(folders[i], next[i], validProjects)
    {
      if i < k {
        assert next[i] == reports[i];
      }
    }
  }

  /** `generateCucumberJson`: refuse an existing output folder unless overwriting, load the
      console output if given, make one report per result folder, and summarise. */
  method GenerateCucumberJson(options: Options, folders: seq<Folder>) returns (r: Generation)
    ensures r == Aborted(OutputFolderExists) <==> options.outputFolderExists && !options.overwrite
    ensures r.Aborted? && r.reason.RepeatedSimulation? ==>
      options.resultsFile.Some? &&
      FirstRepetition(options.resultsFile.value, r.reason.name, r.reason.firstLine, r.reason.secondLine)
    ensures !(options.outputFolderExists && !options.overwrite) && options.resultsFile.Some? ==>
      (r.Aborted? && r.reason.RepeatedSimulation? <==>
         !DistinctNames(options.resultsFile.value, |options.resultsFile.value|))
    ensures r.Aborted? && r.reason.UndefinedSimulationName? ==>
      exists i :: 0 <= i < |folders| && folders[i].path == r.reason.folder &&
        folders[i].simulationLog.Some? && folders[i].assertions.Some? &&
        folders[i].assertions.value.simulation.None? && ScanOf(folders[i]).name.None?
    ensures r.Aborted? && r.reason.InheritedLogDetails? ==>
      options.resultsFile.Some? && r.reason.simulation in INHERITED_NAMES &&
      exists i :: 0 <= i < |folders| && folders[i].simulationLog.Some? &&
        ScanOf(folders[i]).name == Some(r.reason.simulation)
    ensures r.Generated? ==> (r.successful <==> |r.errors| == 0)
    ensures r.Generated? ==> r.summary == Summarize(r.reports)
    ensures r.Generated? ==> DistinctFiles(r.reports) && |r.reports| <= |folders|
    ensures r.Generated? && |folders| == 0 ==> r.reports == [] && r.errors == [NoResultFolders]
    ensures r.Generated? && (exists i :: 0 <= i < |folders| && FolderHasError(folders[i])) ==> !r.successful
    ensures r.Generated? && r.successful ==> |r.reports| == |folders|
    ensures r.Generated? && r.successful ==>
      |r.reports| == |folders| && forall i :: 0 <= i < |folders| ==> CleanReport(folders[i], r.reports[i], options.validJiraProjects)
  {
    if options.outputFolderExists && !options.overwrite {
      return Aborted(OutputFolderExists);
    }
    var logOutput: Option<map<string, Block>> := None;
    if options.resultsFile.Some? {
      var loaded := LoadResultsFile(options.resultsFile.value);
      match loaded {
        case DuplicateSimulation(name, firstLine, secondLine) =>
          return Aborted(RepeatedSimulation(name, firstLine, secondLine));
        case Loaded(blocks) =>
          logOutput := Some(blocks);
      }
    }
    var progress := Progress(map[], [], []);
    if |folders| == 0 {
      progress := progress.(errors := [NoResultFolders]);
    } else {
      var k := 0;
      while k < |folders|
        invariant 0 <= k <= |folders|
        invariant DistinctFiles(progress.reports) && |progress.reports| <= k
        invariant |progress.errors| == 0 ==> |progress.reports| == k
        invariant SomeFolderHasError(folders[..k]) ==> |progress.errors| > 0
        invariant |progress.errors| == 0 ==>
          forall i :: 0 <= i < k ==> CleanReport(folders[i], progress.reports[i], options.validJiraProjects)
      {
        assert folders[..k + 1][..k] == folders[..k];
        var outcome := NextFolder(folders[k], logOutput, options.validJiraProjects, progress);
        match outcome {
          case Stop(reason) =>
            return Aborted(reason);
          case Continue(next) =>
            if |next.errors| == 0 {
              CleanStep(folders, k, progress.reports, next.reports, options.validJiraProjects);
            }
            progress := next;
        }
        k := k + 1;
      }
      assert folders[..k] == folders;
    }
    SomeFolderHasErrorMeaning(folders);
    r := Generated(progress.reports, progress.errors, Summarize(progress.reports), |progress.errors| == 0);
  }
}

=== FILE: LogMasking.dfy ===
/**
  The HTTP log modifier handed to the test runner (`runner.LogModifier`): it hides the
  credential of Basic authorisation headers and passes everything else through. A Java
  `null` is `None`; `StringUtils.equalsIgnoreCase` and `startsWithIgnoreCase` are false
  when either side is null.
 */
module LogMasking {
  import opened Common
  import opened Text

  const AUTHORIZATION: string := "Authorization"
  const BASIC: string := "Basic "
  const MASKED: string := BASIC + "***"

  /** Whether a header carries Basic credentials: its name is "Authorization" and its value
      starts with "Basic ", both ignoring case. */
  predicate IsBasicAuthorization(name: Option<string>, value: Option<string>) {
    name.Some? && value.Some? && EqualsIgnoreCase(name.value, AUTHORIZATION) && StartsWithIgnoreCase(value.value, BASIC)
  }

  /** `header`: the value to log for a header. */
  function Header(name: Option<string>, value: Option<string>): (r: Option<string>)
    ensures IsBasicAuthorization(name, value) ==> r == Some(MASKED)
    ensures !IsBasicAuthorization(name, value) ==> r == value
  {
    if name.Some? && value.Some? && EqualsIgnoreCase(name.value, AUTHORIZATION)
       && StartsWithIgnoreCase(value.value, BASIC)
    then Some(BASIC + "***")
    else value
  }

  /** The mask is itself a Basic value, so masking a logged header again changes nothing. */
  lemma {:induction false} HeaderIdempotent(name: Option<string>, value: Option<string>)
    ensures Header(name, Header(name, value)) == Header(name, value)
  {
    if IsBasicAuthorization(name, value) {
      assert MASKED[..|BASIC|] == BASIC;
    }
  }

  /** Nothing of the credential reaches the log: two Basic headers are logged identically,
      whatever their credentials and whatever the case of the header name. */
  lemma BasicCredentialsIndistinguishable(name1: Option<string>, value1: Option<string>,
                                         name2: Option<string>, value2: Option<string>)
    requires IsBasicAuthorization(name1, value1) && IsBasicAuthorization(name2, value2)
    ensures Header(name1, value1) == Header(name2, value2)
  {
  }

  /** The header name is recognised in lower case. */
  lemma AuthorizationInLowerCase()
    ensures EqualsIgnoreCase("authorization", AUTHORIZATION)
  {
  }

  /** The header name is recognised in upper case. */
  lemma AuthorizationInUpperCase()
    ensures EqualsIgnoreCase("AUTHORIZATION", AUTHORIZATION)
  {
  }

  /** Examples: the scheme and the header name match in any case. */
  lemma HeaderMaskExamples()
    ensures Header(Some("authorization"), Some("basic dXNlcjpwYXNz")) == Some("Basic ***")
    ensures Header(Some("AUTHORIZATION"), Some("BASIC x")) == Some("Basic ***")
  {
    AuthorizationInLowerCase();
    AuthorizationInUpperCase();
    assert MASKED == "Basic ***";
    assert EqualsIgnoreCase("basic dXNlcjpwYXNz"[..6], BASIC);
    assert EqualsIgnoreCase("BASIC x"[..6], BASIC);
  }

  /** Examples: another scheme, a bare `Basic`, another header and a missing name or value
      are logged as they are. */
  lemma HeaderKeepExamples()
    ensures Header(Some("Authorization"), Some("Bearer abc")) == Some("Bearer abc")
    ensures Header(Some("Authorization"), Some("Basic")) == Some("Basic")
    ensures Header(Some("X-Authorization"), Some("Basic x")) == Some("Basic x")
    ensures Header(Some("Authorization"), None) == None
    ensures Header(None, Some("Basic x")) == Some("Basic x")
  {
    assert !IsBasicAuthorization(Some("Authorization"), Some("Bearer abc")) by {
      assert ToUpperChar("Bearer abc"[1]) != ToUpperChar(BASIC[1]);
    }
    assert !IsBasicAuthorization(Some("Authorization"), Some("Basic")) by {
      assert |"Basic"| < |BASIC|;
    }
    assert !IsBasicAuthorization(Some("X-Authorization"), Some("Basic x")) by {
      assert |"X-Authorization"| != |AUTHORIZATION|;
    }
  }

  /** One item offered to the log modifier. */
  datatype LogItem =
    | UriItem(uri: string)
    | HeaderItem(name: Option<string>, value: Option<string>)
    | RequestItem(requestUri: string, request: string)
    | ResponseItem(responseUri: string, response: string)

  /** `uri`, `header`, `request` and `response` together: what each item becomes in the log. */
  function Modify(item: LogItem): (r: LogItem)
    ensures r.HeaderItem? <==> item.HeaderItem?
    ensures r.HeaderItem? ==> r.name == item.name
    ensures r != item ==> item.HeaderItem? && IsBasicAuthorization(item.name, item.value) && r.value == Some(MASKED)
  {
    match item
    case UriItem(uri) => UriItem(uri)
    case HeaderItem(name, value) => HeaderItem(name, Header(name, value))
    case RequestItem(uri, request) => RequestItem(uri, request)
    case ResponseItem(uri, response) => ResponseItem(uri, response)
  }

  /** `enableForUri`: the modifier applies to every URI. */
  function EnableForUri(uri: string): (r: bool)
    ensures r
  {
    true
  }
}

=== FILE: Support.dfy ===
/**
  Property resolution (`utils.util.Support`): reading named system properties as a string,
  an `int`, a `boolean` or a delimited list, falling back to a default whenever the stored
  value is blank or malformed. The process-wide system properties are a map from name to
  value; a name outside the map is an undefined property.
 */
module Support {
  import opened Common
  import opened Text
  import opened Decimal

  type Properties = map<string, string>

  /** `getPropertyValue`, which is also the public `getProperty(name, String defaultValue)`:
      the stored value, unless it is undefined or blank, in which case the default. */
  function GetPropertyValue(props: Properties, name: string, default: Option<string>): (r: Option<string>)
    ensures IsBlank(Lookup(props, name)) ==> r == default
    ensures !IsBlank(Lookup(props, name)) ==> name in props && r == Some(props[name])
  {
    var value := Lookup(props, name);
    if IsBlank(value) then default else value
  }

  /** `getProperty(name)`: the raw stored value, blank or not; null when undefined. */
  function GetProperty(props: Properties, name: string): (r: Option<string>)
    ensures r.Some? <==> name in props
    ensures r.Some? ==> r.value == props[name]
  {
    Lookup(props, name)
  }

  /** The raw lookup and the lookup with a null default differ exactly on a defined but blank
      property, which the raw lookup returns and the defaulting lookup turns into null. */
  lemma RawVersusNullDefault(props: Properties, name: string)
    ensures GetProperty(props, name) != GetPropertyValue(props, name, None)
            <==> name in props && IsBlankText(props[name])
  {
  }

  /** `getProperty(name, int defaultValue)`: the stored value when it is an `int` literal that
      `Integer.parseInt` accepts, otherwise the default; it never fails. */
  function GetPropertyInt(props: Properties, name: string, default: Int32): (r: Int32)
    ensures IsBlank(Lookup(props, name)) ==> r == default
    ensures (!IsBlank(Lookup(props, name)) && ParseJavaInt(props[name]).Some?) ==>
              r == ParseJavaInt(props[name]).value
    ensures !IsBlank(Lookup(props, name)) && ParseJavaInt(props[name]).None? ==> r == default
  {
    var text := GetPropertyValue(props, name, Some(IntToString(default)));
    IntRoundTrip(default);
    match ParseJavaInt(text.value)
    case Some(v) => v
    case None => default
  }

  function BoolToString(b: bool): string {
    if b then "true" else "false"
  }

  /** `parseBoolean`: `true` or `false` for a case-insensitive "true" or "false", null for
      anything else (null included). */
  function ParseBoolean(value: Option<string>): (r: Option<bool>)
    ensures r.Some? ==> value.Some? && EqualsIgnoreCase(value.value, BoolToString(r.value))
    ensures forall b: bool :: value.Some? && EqualsIgnoreCase(value.value, BoolToString(b)) ==> r == Some(b)
  {
    if value.Some? && EqualsIgnoreCase(value.value, "true") then Some(true)
    else if value.Some? && EqualsIgnoreCase(value.value, "false") then Some(false)
    else None
  }

  /** `getProperty(name, boolean defaultValue)`: only a case-insensitive "true" or "false" is
      read; anything else, including a partial word, gives the default. */
  function GetPropertyBool(props: Properties, name: string, default: bool): (r: bool)
    ensures name in props && EqualsIgnoreCase(props[name], "true") ==> r
    ensures name in props && EqualsIgnoreCase(props[name], "false") ==> !r
    ensures !(name in props && (EqualsIgnoreCase(props[name], "true") || EqualsIgnoreCase(props[name], "false"))) ==>
              r == default
  {
    WordIsNotBlank(Lookup(props, name), "true");
    WordIsNotBlank(Lookup(props, name), "false");
    var text := GetPropertyValue(props, name, Some(BoolToString(default)));
    match ParseBoolean(text)
    case Some(b) => b
    case None => default
  }

  /** A string that matches a word ignoring case is not blank. */
  lemma WordIsNotBlank(value: Option<string>, word: string)
    requires word == "true" || word == "false"
    ensures value.Some? && EqualsIgnoreCase(value.value, word) ==> !IsBlank(value)
  {
    if value.Some? && EqualsIgnoreCase(value.value, word) {
      assert ToUpperChar(value.value[0]) == ToUpperChar(word[0]);
      assert !IsJavaWhitespace(value.value[0]);
    }
  }

  /** A delimiter that `String.split` reads as the literal character: one character that is
      not a regular-expression metacharacter. */
  predicate IsLiteralDelimiter(d: char) {
    d !in ".$|()[{^?*+\\"
  }

  /** `getPropertyList(name, defaultValue, delimiter)`: the stored value, or the default when
      the stored value is blank, split on the delimiter; an empty list when that is blank too. */
  function GetPropertyList(props: Properties, name: string, default: Option<string>, delim: char): (r: seq<string>)
    requires IsLiteralDelimiter(delim)
    ensures IsBlank(Lookup(props, name)) && IsBlank(default) ==> r == []
    ensures IsBlank(Lookup(props, name)) && !IsBlank(default) ==> r == JavaSplit(default.value, delim)
    ensures !IsBlank(Lookup(props, name)) ==> r == JavaSplit(props[name], delim)
  {
    var value := GetPropertyValue(props, name, default);
    if IsBlank(value) then [] else JavaSplit(value.value, delim)
  }

  /** `getPropertyList(name, defaultValue)`: comma-separated. */
  function GetPropertyListDefault(props: Properties, name: string, default: Option<string>): (r: seq<string>)
    ensures IsBlank(Lookup(props, name)) && IsBlank(default) ==> r == []
    ensures IsBlank(Lookup(props, name)) && !IsBlank(default) ==> r == JavaSplit(default.value, ',')
    ensures !IsBlank(Lookup(props, name)) ==> r == JavaSplit(props[name], ',')
  {
    GetPropertyList(props, name, default, ',')
  }

  /** `getPropertyList(name)`: comma-separated, no default. */
  function GetPropertyListOf(props: Properties, name: string): (r: seq<string>)
    ensures IsBlank(Lookup(props, name)) ==> r == []
    ensures !IsBlank(Lookup(props, name)) ==> r == JavaSplit(props[name], ',')
  {
    GetPropertyList(props, name, None, ',')
  }

  /** A non-blank value without the delimiter is a one-element list, whatever the default. */
  lemma ListWithoutDelimiter(props: Properties, name: string, default: Option<string>, delim: char)
    requires IsLiteralDelimiter(delim)
    requires name in props && !IsBlankText(props[name]) && delim !in props[name]
    ensures GetPropertyList(props, name, default, delim) == [props[name]]
  {
  }

  /** Storing the join of non-empty, delimiter-free segments and reading it back as a list
      gives the segments back, whatever the default. */
  lemma ListRoundTrip(props: Properties, name: string, segs: seq<string>, default: Option<string>, delim: char)
    requires IsLiteralDelimiter(delim)
    requires |segs| > 0
    requires forall i :: 0 <= i < |segs| ==> segs[i] != "" && delim !in segs[i]
    requires !IsBlankText(Join(segs, delim))
    ensures GetPropertyList(props[name := Join(segs, delim)], name, default, delim) == segs
  {
    if |segs| == 1 {
      assert Join(segs, delim) == segs[0];
    } else {
      JavaSplitJoin(segs, delim);
    }
  }

  /** Expected values of the `int` overload from the unit tests. */
  lemma IntOverloadExamples(props: Properties, name: string)
    ensures GetPropertyInt(props[name := "111"], name, 42) == 111
    ensures GetPropertyInt(props[name := "blah"], name, 42) == 42
    ensures GetPropertyInt(props[name := ""], name, -3) == -3
    ensures GetPropertyInt(props[name := "987kjsjdf"], name, 1234) == 1234
  {
    IntLiteralExample();
    MalformedIntExamples();
    assert IsBlankText("");
  }

  lemma IntLiteralExample()
    ensures !IsBlankText("111") && ParseJavaInt("111") == Some(111)
  {
    assert !IsJavaWhitespace("111"[0]);
    assert DigitsValue("111") == 111 by {
      assert "111"[..2] == "11" && "11"[..1] == "1" && "1"[..0] == "";
    }
  }

  lemma MalformedIntExamples()
    ensures !IsBlankText("blah") && ParseJavaInt("blah").None?
    ensures !IsBlankText("987kjsjdf") && ParseJavaInt("987kjsjdf").None?
  {
    assert !IsJavaWhitespace("blah"[0]) && !IsDigit("blah"[0]);
    assert !IsJavaWhitespace("987kjsjdf"[0]) && !IsDigit("987kjsjdf"[3]);
  }

  /** Expected values of the `boolean` overload from the unit tests. */
  lemma BoolOverloadExamples(props: Properties, name: string)
    ensures GetPropertyBool(props[name := "tru"], name, false) == false
    ensures GetPropertyBool(props[name := "fals"], name, true) == true
    ensures GetPropertyBool(props[name := "TRUE"], name, false) == true
    ensures GetPropertyBool(props[name := ""], name, true) == true
  {
    PartialWordExamples();
    assert EqualsIgnoreCase("TRUE", "true");
    assert IsBlankText("");
  }

  lemma PartialWordExamples()
    ensures !EqualsIgnoreCase("tru", "true") && !EqualsIgnoreCase("tru", "false")
    ensures !EqualsIgnoreCase("fals", "true") && !EqualsIgnoreCase("fals", "false")
  {
    assert ToUpperChar("fals"[0]) != ToUpperChar("true"[0]);
    assert ToUpperChar("tru"[0]) != ToUpperChar("false"[0]);
  }
}

=== FILE: TagRunner.dfy ===
/**
  Tag-filter construction and report classifications of the Karate runner
  (`runner.TagBasedApiRunner`). Karate runs the features whose tags satisfy every entry of
  the tag list (implied AND); one entry may itself be a comma-separated group (implied OR).
 */
module TagRunner {
  import opened Common
  import opened Text
  import opened Support

  const KARATE_ENV: string := "karate.env"
  const TAGS_PROPERTY: string := "apitest.tags"
  const NO_DATA_ENV_PROPERTY: string := "apitest.no.data.env"
  const NO_DATA_PROPERTY: string := "apitest.no.data"
  const IGNORE_PROPERTY: string := "apitest.ignore"

  const NO_DATA_TAG: string := "~@NO-DATA"
  const IGNORE_TAG: string := "~@ignore"
  const IGNORE_UPPER_TAG: string := "~@IGNORE"

  // ---------------------------------------------------------------------------
  // Tag list
  // ---------------------------------------------------------------------------

  /** The explicit tags with the empty segments of the `&`-split dropped. */
  function NonEmptyTags(segs: seq<string>): (r: seq<string>)
    ensures forall i :: 0 <= i < |r| ==> r[i] != ""
    ensures forall t :: t in r <==> t in segs && t != ""
  {
    if |segs| == 0 then []
    else (if segs[0] != "" then [segs[0]] else []) + NonEmptyTags(segs[1..])
  }

  /** Dropping empty segments keeps the others in their original order: it distributes over
      concatenation. */
  lemma {:induction false} NonEmptyTagsAppend(a: seq<string>, b: seq<string>)
    ensures NonEmptyTags(a + b) == NonEmptyTags(a) + NonEmptyTags(b)
  {
    if |a| > 0 {
      assert (a + b)[1..] == a[1..] + b;
      NonEmptyTagsAppend(a[1..], b);
    } else {
      assert a + b == b;
    }
  }

  /** The three exclusion switches `apitest.no.data.env`, `apitest.no.data`, `apitest.ignore`. */
  datatype Toggles = Toggles(noDataEnv: bool, noData: bool, ignore: bool)

  /** `"~@NO-DATA-" + StringUtils.upperCase(env)`: an undefined environment is rendered as
      "null" and an empty one leaves the tag ending in '-'. */
  function EnvTag(env: Option<string>): (r: string)
    ensures |r| >= 10 && r[..10] == "~@NO-DATA-"
    ensures env.None? ==> r == "~@NO-DATA-null"
    ensures env.Some? ==> r[10..] == ToUpper(env.value)
  {
    "~@NO-DATA-" + (if env.None? then "null" else ToUpper(env.value))
  }

  /** The environment tag is none of the fixed tags, which are longer than it can be. */
  lemma EnvTagIsDistinct(env: Option<string>)
    ensures EnvTag(env) != NO_DATA_TAG && EnvTag(env) != IGNORE_TAG && EnvTag(env) != IGNORE_UPPER_TAG
  {
    assert |NO_DATA_TAG| < 10 && |IGNORE_TAG| < 10 && |IGNORE_UPPER_TAG| < 10;
  }

  /** The exclusion tags derived from the switches, in the order they are appended. */
  function DerivedTags(env: Option<string>, t: Toggles): (r: seq<string>)
    ensures |r| == (if t.noDataEnv then 1 else 0) + (if t.noData then 1 else 0) + (if t.ignore then 2 else 0)
    ensures EnvTag(env) in r <==> t.noDataEnv
    ensures NO_DATA_TAG in r <==> t.noData
    ensures IGNORE_TAG in r <==> t.ignore
    ensures IGNORE_UPPER_TAG in r <==> t.ignore
    ensures t == Toggles(true, true, true) ==> r == [EnvTag(env), NO_DATA_TAG, IGNORE_TAG, IGNORE_UPPER_TAG]
  {
    EnvTagIsDistinct(env);
    (if t.noDataEnv then [EnvTag(env)] else [])
    + (if t.noData then [NO_DATA_TAG] else [])
    + (if t.ignore then [IGNORE_TAG, IGNORE_UPPER_TAG] else [])
  }

  /** The list without the given tags. */
  function Without(s: seq<string>, drop: set<string>): seq<string>
  {
    if |s| == 0 then [] else (if s[0] in drop then [] else [s[0]]) + Without(s[1..], drop)
  }

  lemma {:induction false} WithoutAppend(a: seq<string>, b: seq<string>, drop: set<string>)
    ensures Without(a + b, drop) == Without(a, drop) + Without(b, drop)
  {
    if |a| > 0 {
      assert (a + b)[0] == a[0];
      assert (a + b)[1..] == a[1..] + b;
      WithoutAppend(a[1..], b, drop);
      var head: seq<string> := if a[0] in drop then [] else [a[0]];
      assert Without(a + b, drop) == head + Without(a[1..] + b, drop);
      assert Without(a, drop) == head + Without(a[1..], drop);
    } else {
      assert a + b == b;
    }
  }

  lemma WithoutSmall(x: string, y: string, drop: set<string>)
    ensures Without([], drop) == []
    ensures Without([x], drop) == if x in drop then [] else [x]
    ensures Without([x, y], drop) == (if x in drop then [] else [x]) + (if y in drop then [] else [y])
  {
    assert [x][1..] == [];
    assert [x, y][1..] == [y];
    assert [y][1..] == [];
  }

  lemma WithoutThree(e: seq<string>, n: seq<string>, g: seq<string>, drop: set<string>)
    ensures Without(e + n + g, drop) == Without(e, drop) + Without(n, drop) + Without(g, drop)
  {
    WithoutAppend(e + n, g, drop);
    WithoutAppend(e, n, drop);
  }

  /** The derived tags as the concatenation of the three switches' contributions. */
  lemma DerivedParts(env: Option<string>, t: Toggles)
    ensures DerivedTags(env, t) == EnvPart(env, t) + NoDataPart(t) + IgnorePart(t)
    ensures EnvTag(env) != NO_DATA_TAG && EnvTag(env) != IGNORE_TAG && EnvTag(env) != IGNORE_UPPER_TAG
  {
    EnvTagIsDistinct(env);
  }

  function EnvPart(env: Option<string>, t: Toggles): seq<string> {
    if t.noDataEnv then [EnvTag(env)] else []
  }

  function NoDataPart(t: Toggles): seq<string> {
    if t.noData then [NO_DATA_TAG] else []
  }

  function IgnorePart(t: Toggles): seq<string> {
    if t.ignore then [IGNORE_TAG, IGNORE_UPPER_TAG] else []
  }

  lemma EnvPartWithout(env: Option<string>, t: Toggles, drop: set<string>)
    ensures Without(EnvPart(env, t), drop) == if EnvTag(env) in drop then [] else EnvPart(env, t)
  {
    WithoutSmall(EnvTag(env), EnvTag(env), drop);
  }

  lemma NoDataPartWithout(t: Toggles, drop: set<string>)
    ensures Without(NoDataPart(t), drop) == if NO_DATA_TAG in drop then [] else NoDataPart(t)
  {
    WithoutSmall(NO_DATA_TAG, NO_DATA_TAG, drop);
  }

  lemma IgnorePartWithout(t: Toggles, drop: set<string>)
    ensures IGNORE_TAG in drop && IGNORE_UPPER_TAG in drop ==> Without(IgnorePart(t), drop) == []
    ensures IGNORE_TAG !in drop && IGNORE_UPPER_TAG !in drop ==> Without(IgnorePart(t), drop) == IgnorePart(t)
  {
    WithoutSmall(IGNORE_TAG, IGNORE_UPPER_TAG, drop);
  }

  /** Turning `apitest.no.data.env` off removes exactly the environment tag; the rest of the list,
      order included, is unchanged. */
  lemma NoDataEnvOffRemovesOnlyItsTag(env: Option<string>, t: Toggles)
    ensures DerivedTags(env, t.(noDataEnv := false)) == Without(DerivedTags(env, t), {EnvTag(env)})
  {
    var d := {EnvTag(env)};
    DerivedParts(env, t);
    DerivedParts(env, t.(noDataEnv := false));
    EnvPartWithout(env, t, d);
    NoDataPartWithout(t, d);
    IgnorePartWithout(t, d);
    WithoutThree(EnvPart(env, t), NoDataPart(t), IgnorePart(t), d);
  }

  /** Turning `apitest.no.data` off removes exactly `~@NO-DATA`. */
  lemma NoDataOffRemovesOnlyItsTag(env: Option<string>, t: Toggles)
    ensures DerivedTags(env, t.(noData := false)) == Without(DerivedTags(env, t), {NO_DATA_TAG})
  {
    var d := {NO_DATA_TAG};
    DerivedParts(env, t);
    DerivedParts(env, t.(noData := false));
    EnvPartWithout(env, t, d);
    NoDataPartWithout(t, d);
    IgnorePartWithout(t, d);
    WithoutThree(EnvPart(env, t), NoDataPart(t), IgnorePart(t), d);
  }

  /** Turning `apitest.ignore` off removes exactly its two tags, `~@ignore` and `~@IGNORE`. */
  lemma IgnoreOffRemovesOnlyItsTags(env: Option<string>, t: Toggles)
    ensures DerivedTags(env, t.(ignore := false)) == Without(DerivedTags(env, t), {IGNORE_TAG, IGNORE_UPPER_TAG})
  {
    var d := {IGNORE_TAG, IGNORE_UPPER_TAG};
    DerivedParts(env, t);
    DerivedParts(env, t.(ignore := false));
    EnvPartWithout(env, t, d);
    NoDataPartWithout(t, d);
    IgnorePartWithout(t, d);
    WithoutThree(EnvPart(env, t), NoDataPart(t), IgnorePart(t), d);
  }

  /** The tag list of `runApiTests`: the non-empty explicit tags first, in their order, then the
      derived exclusion tags. */
  function BuildTags(explicit: seq<string>, env: Option<string>, t: Toggles): (r: seq<string>)
    ensures forall i :: 0 <= i < |r| ==> r[i] != ""
    ensures |r| == |NonEmptyTags(explicit)| + |DerivedTags(env, t)|
    ensures r[..|NonEmptyTags(explicit)|] == NonEmptyTags(explicit)
    ensures r[|NonEmptyTags(explicit)|..] == DerivedTags(env, t)
  {
    NonEmptyTags(explicit) + DerivedTags(env, t)
  }

  /** The three switches read as booleans defaulting to `true`: a switch is off exactly when its
      property is "false" ignoring case. */
  function TogglesOf(props: Properties): (t: Toggles)
    ensures !t.noDataEnv <==> NO_DATA_ENV_PROPERTY in props && EqualsIgnoreCase(props[NO_DATA_ENV_PROPERTY], "false")
    ensures !t.noData <==> NO_DATA_PROPERTY in props && EqualsIgnoreCase(props[NO_DATA_PROPERTY], "false")
    ensures !t.ignore <==> IGNORE_PROPERTY in props && EqualsIgnoreCase(props[IGNORE_PROPERTY], "false")
  {
    TrueIsNotFalse(props, NO_DATA_ENV_PROPERTY);
    TrueIsNotFalse(props, NO_DATA_PROPERTY);
    TrueIsNotFalse(props, IGNORE_PROPERTY);
    Toggles(GetPropertyBool(props, NO_DATA_ENV_PROPERTY, true),
            GetPropertyBool(props, NO_DATA_PROPERTY, true),
            GetPropertyBool(props, IGNORE_PROPERTY, true))
  }

  lemma TrueIsNotFalse(props: Properties, name: string)
    ensures name in props && EqualsIgnoreCase(props[name], "true") ==> !EqualsIgnoreCase(props[name], "false")
  {
    if name in props && EqualsIgnoreCase(props[name], "true") {
      assert |props[name]| == 4;
    }
  }

  /** The complete tag list built from the system properties (lines 61 and 76-113). */
  function TagsOf(props: Properties): (r: seq<string>)
    ensures var kept := NonEmptyTags(GetPropertyList(props, TAGS_PROPERTY, None, '&'));
            |kept| <= |r| && r[..|kept|] == kept
            && r[|kept|..] == DerivedTags(GetProperty(props, KARATE_ENV), TogglesOf(props))
    ensures TAGS_PROPERTY !in props && NO_DATA_ENV_PROPERTY !in props && NO_DATA_PROPERTY !in props
            && IGNORE_PROPERTY !in props
            ==> r == [EnvTag(GetProperty(props, KARATE_ENV)), NO_DATA_TAG, IGNORE_TAG, IGNORE_UPPER_TAG]
  {
    var explicit := GetPropertyList(props, TAGS_PROPERTY, None, '&');
    BuildTags(explicit, GetProperty(props, KARATE_ENV), TogglesOf(props))
  }

  /** Tags are handed to the runner only when the list is not empty, which happens exactly when
      every switch is off and no explicit tag is given. */
  function RunnerTags(props: Properties): (r: Option<seq<string>>)
    ensures r.None? <==> (TogglesOf(props) == Toggles(false, false, false)
                          && NonEmptyTags(GetPropertyList(props, TAGS_PROPERTY, None, '&')) == [])
    ensures r.Some? ==> |r.value| > 0 && r.value == TagsOf(props)
  {
    var tags := TagsOf(props);
    if |tags| == 0 then None else Some(tags)
  }

  /** The environment tag for an undefined, an empty and a lower-case environment name. */
  lemma EnvTagExamples()
    ensures EnvTag(None) == "~@NO-DATA-null"
    ensures EnvTag(Some("")) == "~@NO-DATA-"
    ensures EnvTag(Some("dev")) == "~@NO-DATA-DEV"
  {
  }

  // ---------------------------------------------------------------------------
  // Environment variables and display values
  // ---------------------------------------------------------------------------

  /** `checkVars`: the value of the first variable, in the given order, that is not blank. */
  function CheckVars(env: map<string, string>, names: seq<string>): (r: Option<string>)
    ensures r.Some? ==> !IsBlankText(r.value)
    ensures r.None? <==> forall i :: 0 <= i < |names| ==> IsBlank(Lookup(env, names[i]))
    ensures r.Some? ==> exists i :: 0 <= i < |names| && Lookup(env, names[i]) == r
                          && forall j :: 0 <= j < i ==> IsBlank(Lookup(env, names[j]))
  {
    if |names| == 0 then None
    else
      var value := Lookup(env, names[0]);
      if !IsBlank(value) then value
      else
        var rest := CheckVars(env, names[1..]);
        assert rest.Some? ==> exists i :: 1 <= i < |names| && Lookup(env, names[i]) == rest
                                && forall j :: 0 <= j < i ==> IsBlank(Lookup(env, names[j])) by {
          if rest.Some? {
            var i :| 0 <= i < |names[1..]| && Lookup(env, names[1..][i]) == rest
                     && forall j :: 0 <= j < i ==> IsBlank(Lookup(env, names[1..][j]));
            assert forall j :: 1 <= j < i + 1 ==> names[j] == names[1..][j - 1];
          }
        }
        rest
  }

  const UNKNOWN: string := "UNKNOWN"

  /** `getUserName`: `USER`, else `USERNAME`, else "UNKNOWN". */
  function GetUserName(env: map<string, string>): (r: string)
    ensures !IsBlankText(r)
    ensures !IsBlank(Lookup(env, "USER")) ==> r == env["USER"]
    ensures IsBlank(Lookup(env, "USER")) && !IsBlank(Lookup(env, "USERNAME")) ==> r == env["USERNAME"]
    ensures IsBlank(Lookup(env, "USER")) && IsBlank(Lookup(env, "USERNAME")) ==> r == UNKNOWN
  {
    assert !IsJavaWhitespace(UNKNOWN[0]);
    var names := ["USER", "USERNAME"];
    assert names[0] == "USER" && names[1] == "USERNAME";
    match CheckVars(env, names)
    case Some(v) => v
    case None => UNKNOWN
  }

  /** `getHostName`: the local host name when the lookup succeeds (`localHost`), otherwise
      `HOSTNAME`, else `COMPUTERNAME`, else "UNKNOWN". */
  function GetHostName(localHost: Option<string>, env: map<string, string>): (r: string)
    ensures localHost.Some? ==> r == localHost.value
    ensures localHost.None? && !IsBlank(Lookup(env, "HOSTNAME")) ==> r == env["HOSTNAME"]
    ensures localHost.None? && IsBlank(Lookup(env, "HOSTNAME")) && !IsBlank(Lookup(env, "COMPUTERNAME"))
            ==> r == env["COMPUTERNAME"]
    ensures localHost.None? && IsBlank(Lookup(env, "HOSTNAME")) && IsBlank(Lookup(env, "COMPUTERNAME"))
            ==> r == UNKNOWN
  {
    if localHost.Some? then localHost.value
    else
      var names := ["HOSTNAME", "COMPUTERNAME"];
      assert names[0] == "HOSTNAME" && names[1] == "COMPUTERNAME";
      assert !IsJavaWhitespace(UNKNOWN[0]);
      match CheckVars(env, names)
      case Some(v) => v
      case None => UNKNOWN
  }

  /** The value shown for a classification: "-" for a blank value, the value otherwise. */
  function DisplayValue(value: Option<string>): (r: string)
    ensures !IsBlankText(r)
    ensures IsBlank(value) ==> r == "-"
    ensures !IsBlank(value) ==> r == value.value
  {
    assert !IsJavaWhitespace("-"[0]);
    if IsBlank(value) then "-" else value.value
  }

  datatype ClassificationDetails = ClassificationDetails(name: string, caption: string, default: Option<string>)

  /** The classifications of the HTML report, in display order. */
  function ClassificationItems(hostName: string, userName: string): seq<ClassificationDetails> {
    [ ClassificationDetails(KARATE_ENV, "Environment", None),
      ClassificationDetails("apitest.host", "Host", Some(hostName)),
      ClassificationDetails("apitest.user", "User", Some(userName)),
      ClassificationDetails("apitest.git.repository.url", "Repository", None),
      ClassificationDetails("apitest.git.branch", "Branch", None),
      ClassificationDetails("apitest.git.commit.hash", "Commit", None),
      ClassificationDetails("apitest.git.dirty", "Dirty", None) ]
  }

  /** `addClassifications`: one (caption, display value) pair per item, in order; a property
      that is blank falls back to the item's default, and a blank result is shown as "-". */
  function Classifications(props: Properties, hostName: string, userName: string): (r: seq<(string, string)>)
    ensures |r| == |ClassificationItems(hostName, userName)|
    ensures forall i :: 0 <= i < |r| ==> r[i].0 == ClassificationItems(hostName, userName)[i].caption
    ensures forall i :: 0 <= i < |r| ==> !IsBlankText(r[i].1)
    ensures forall i :: 0 <= i < |r| ==>
              var item := ClassificationItems(hostName, userName)[i];
              !IsBlank(Lookup(props, item.name)) ==> r[i].1 == props[item.name]
    ensures forall i :: 0 <= i < |r| ==>
              var item := ClassificationItems(hostName, userName)[i];
              IsBlank(Lookup(props, item.name)) ==> r[i].1 == DisplayValue(item.default)
  {
    var items := ClassificationItems(hostName, userName);
    seq(|items|, i requires 0 <= i < |items| =>
      (items[i].caption, DisplayValue(GetPropertyValue(props, items[i].name, items[i].default))))
  }
}

=== FILE: TestRail.dfy ===
/**
  The TestRail synchronisation pass (`utils.testrail.handlers.TestRailIntegrationImp`):
  skip when there is no report or no credential, find the run named after the CI build
  (or create it), then upload one result per report entry. The TestRail service is an
  abstract connector: what it answers is an input, and every call made to it is recorded,
  in order, in the returned trace.
 */
module TestRail {
  import opened Common
  import opened Text
  import opened Decimal

  const TESTRAIL_USER: string := "testrail.user"
  const TESTRAIL_PASS: string := "testrail.key"
  const PROJECT_NAME: string := "testrail.project"
  const TESTRAIL_URL: string := "testrail.url"
  const DEFAULT_PREFIX: string := "default.prefix"
  const BUILD_NUMBER: string := "BuildNumber"
  const BUILD_DEFINITION: string := "DefinitionName"

  type Properties = map<string, string>
  type Environment = map<string, string>

  datatype Credential = Credential(user: string, key: string)
  datatype Project = Project(id: int, name: string)
  datatype Run = Run(id: int, name: string)

  /** One entry of the parsed report: the case identifier (the report map's key) and the
      status and message of its result. */
  datatype ReportEntry = ReportEntry(caseId: string, status: string, message: string)

  /** The answers of the TestRail service: the project found under the configured name
      (none when the lookup fails), the project's runs in listing order, and the identifier
      the service assigns to a run it creates. */
  datatype Service = Service(project: Option<Project>, runs: seq<Run>, createdRunId: int)

  /** A call made to the connector. */
  datatype Call =
    | Connect(url: Option<string>, credential: Credential)
    | GetProject(projectName: Option<string>)
    | GetRuns(projectId: int)
    | CreateTestRun(projectId: int, runName: string)
    | GetTestCase(projectId: int, caseId: Int32)
    | AddCaseToRun(runId: int, caseId: Int32)
    | AddResult(runId: int, caseId: Int32, status: string, message: string)

  /** How a pass ends. `NoReports`, `NoCredential` and `NotCiBuild` are silent skips;
      `ProjectNotFound` and `BadCaseId` are the exceptions that end the pass. */
  datatype Outcome =
    | NoReports
    | NoCredential
    | NotCiBuild
    | ProjectNotFound(projectName: Option<string>)
    | BadCaseId(run: Run, caseId: string)
    | Synced(run: Run, created: bool)

  datatype Execution = Execution(outcome: Outcome, calls: seq<Call>)

  // ---------------------------------------------------------------------------
  // Credential, run name and run lookup
  // ---------------------------------------------------------------------------

  /** `getCredential`: a credential exactly when both the user and the key are defined; a blank
      but defined value still counts. */
  function GetCredential(props: Properties): (r: Option<Credential>)
    ensures r.Some? <==> TESTRAIL_USER in props && TESTRAIL_PASS in props
    ensures r.Some? ==> r.value.user == props[TESTRAIL_USER] && r.value.key == props[TESTRAIL_PASS]
  {
    if TESTRAIL_PASS !in props || TESTRAIL_USER !in props then None
    else Some(Credential(props[TESTRAIL_USER], props[TESTRAIL_PASS]))
  }

  /** Whether a CI build number is set: defined and not empty. */
  predicate IsCiBuild(env: Environment) {
    BUILD_NUMBER in env && env[BUILD_NUMBER] != ""
  }

  /** `getTestRunName`: `<definition> - <number>` on a CI build, otherwise
      `<prefix> <timestamp>`; undefined values are rendered as "null". */
  function GetTestRunName(env: Environment, props: Properties, timestamp: string): (r: string)
    ensures IsCiBuild(env) ==> r == JavaText(Lookup(env, BUILD_DEFINITION)) + " - " + env[BUILD_NUMBER]
    ensures !IsCiBuild(env) ==> r == JavaText(Lookup(props, DEFAULT_PREFIX)) + " " + timestamp
  {
    if BUILD_NUMBER !in env || env[BUILD_NUMBER] == "" then
      JavaText(Lookup(props, DEFAULT_PREFIX)) + " " + timestamp
    else
      JavaText(Lookup(env, BUILD_DEFINITION)) + " - " + env[BUILD_NUMBER]
  }

  /** Reruns of one CI build target the same run name whatever the clock says, while ad-hoc
      runs at different times get different names. */
  lemma RunNameAndClock(env: Environment, props: Properties, t1: string, t2: string)
    ensures IsCiBuild(env) ==> GetTestRunName(env, props, t1) == GetTestRunName(env, props, t2)
    ensures !IsCiBuild(env) && t1 != t2 ==> GetTestRunName(env, props, t1) != GetTestRunName(env, props, t2)
  {
    if !IsCiBuild(env) && t1 != t2 {
      var p := JavaText(Lookup(props, DEFAULT_PREFIX)) + " ";
      assert GetTestRunName(env, props, t1)[|p|..] == t1;
      assert GetTestRunName(env, props, t2)[|p|..] == t2;
    }
  }

  /** A listed run answers to a name when its trimmed name equals the name ignoring case. */
  predicate Matches(run: Run, name: string) {
    EqualsIgnoreCase(Trim(run.name), name)
  }

  /** Where the lookup stops: the index of the first run that answers to the name, or the
      number of runs when none does. */
  function FirstMatch(runs: seq<Run>, name: string): (k: nat)
    ensures k <= |runs|
    ensures forall j :: 0 <= j < k ==> !Matches(runs[j], name)
    ensures k < |runs| ==> Matches(runs[k], name)
  {
    FirstWhere(runs, (run: Run) => Matches(run, name))
  }

  /** The index of the first element that satisfies `p`, or the length when none does. */
  function FirstWhere<T>(s: seq<T>, p: T -> bool): (k: nat)
    ensures k <= |s|
    ensures forall j :: 0 <= j < k ==> !p(s[j])
    ensures k < |s| ==> p(s[k])
  {
    if |s| == 0 || p(s[0]) then 0
    else
      var k := FirstWhere(s[1..], p);
      assert forall j :: 1 <= j < k + 1 ==> s[j] == s[1..][j - 1];
      k + 1
  }

  /** `getExpectedRun`: the first run, in listing order, that answers to the name. */
  function GetExpectedRun(runs: seq<Run>, name: string): (r: Option<Run>)
    ensures r.None? <==> forall i :: 0 <= i < |runs| ==> !Matches(runs[i], name)
    ensures r.Some? ==> exists i :: 0 <= i < |runs| && runs[i] == r.value && Matches(runs[i], name)
                          && forall j :: 0 <= j < i ==> !Matches(runs[j], name)
  {
    var k := FirstMatch(runs, name);
    if k < |runs| then Some(runs[k]) else None
  }

  /** The desired name is compared as it is: one that starts with whitespace (or any character
      at or below ' ') matches no run, because trimmed names never start with one. */
  lemma UntrimmedNameMatchesNothing(runs: seq<Run>, name: string)
    requires |name| > 0 && name[0] <= ' '
    ensures GetExpectedRun(runs, name).None?
  {
    forall i | 0 <= i < |runs|
      ensures !Matches(runs[i], name)
    {
      var t := Trim(runs[i].name);
      if Matches(runs[i], name) {
        UpperOfControl(name[0], t[0]);
      }
    }
  }

  /** A run listed as " Nightly Build " is found under "nightly build". */
  lemma LookupIgnoresCaseAndPadding()
    ensures GetExpectedRun([Run(7, " Nightly Build ")], "nightly build") == Some(Run(7, " Nightly Build "))
  {
    NightlyBuildFolds();
    NightlyBuildTrimmed();
    FirstRunMatches([Run(7, " Nightly Build ")], "nightly build", "Nightly Build");
  }

  lemma NightlyBuildFolds()
    ensures EqualsIgnoreCase("Nightly Build", "nightly build")
  {
  }

  lemma NightlyBuildTrimmed()
    ensures Trim(" Nightly Build ") == "Nightly Build"
  {
    var s := " Nightly Build ";
    assert TrimLeft(s) == s[1..];
    assert TrimRight(s[1..]) == "Nightly Build" by {
      assert s[1..][..|s[1..]| - 1] == "Nightly Build";
    }
  }

  /** The lookup stops at the first run when its trimmed name answers to the name. */
  lemma FirstRunMatches(runs: seq<Run>, name: string, trimmed: string)
    requires |runs| > 0 && Trim(runs[0].name) == trimmed && EqualsIgnoreCase(trimmed, name)
    ensures GetExpectedRun(runs, name) == Some(runs[0])
  {
  }

  // ---------------------------------------------------------------------------
  // Upload loop
  // ---------------------------------------------------------------------------

  /** The three calls one report entry causes, in order: case lookup, association of the case
      with the run, and the result with the entry's status and message. */
  function EntryCalls(projectId: int, runId: int, caseId: Int32, e: ReportEntry): seq<Call> {
    [GetTestCase(projectId, caseId), AddCaseToRun(runId, caseId), AddResult(runId, caseId, e.status, e.message)]
  }

  predicate IsUploadCall(c: Call) {
    c.GetTestCase? || c.AddCaseToRun? || c.AddResult?
  }

  datatype UploadResult = UploadResult(calls: seq<Call>, badCaseId: Option<string>)

  /** The loop over the report entries. `Integer.parseInt` of a case identifier comes before
      any call for that entry, so a malformed identifier ends the loop after the calls of the
      entries before it. */
  function Upload(projectId: int, runId: int, entries: seq<ReportEntry>): (r: UploadResult)
    ensures forall i :: 0 <= i < |r.calls| ==> IsUploadCall(r.calls[i])
    ensures forall i :: 0 <= i < |r.calls| && (r.calls[i].AddCaseToRun? || r.calls[i].AddResult?)
              ==> r.calls[i].runId == runId
    ensures r.badCaseId.None? <==> forall i :: 0 <= i < |entries| ==> ParseJavaInt(entries[i].caseId).Some?
  {
    if |entries| == 0 then UploadResult([], None)
    else
      match ParseJavaInt(entries[0].caseId)
      case None => UploadResult([], Some(entries[0].caseId))
      case Some(id) =>
        var rest := Upload(projectId, runId, entries[1..]);
        assert forall i :: 1 <= i < |entries| ==> entries[i] == entries[1..][i - 1];
        UploadResult(EntryCalls(projectId, runId, id, entries[0]) + rest.calls, rest.badCaseId)
  }

  /** How many entries, from the front, have a well-formed case identifier. */
  function ParsedPrefix(entries: seq<ReportEntry>): (n: nat)
    ensures n <= |entries|
    ensures forall i :: 0 <= i < n ==> ParseJavaInt(entries[i].caseId).Some?
    ensures n < |entries| ==> ParseJavaInt(entries[n].caseId).None?
  {
    if |entries| == 0 || ParseJavaInt(entries[0].caseId).None? then 0
    else
      var n := ParsedPrefix(entries[1..]);
      assert forall i :: 1 <= i < n + 1 ==> entries[i] == entries[1..][i - 1];
      n + 1
  }

  /** The loop makes three calls for each well-formed identifier before the first malformed
      one, and reports that one when there is one. */
  lemma {:induction false} UploadCount(projectId: int, runId: int, entries: seq<ReportEntry>)
    ensures var r := Upload(projectId, runId, entries);
      && |r.calls| == 3 * ParsedPrefix(entries)
      && (r.badCaseId.None? <==> ParsedPrefix(entries) == |entries|)
      && (r.badCaseId.Some? ==> r.badCaseId.value == entries[ParsedPrefix(entries)].caseId)
  {
    if |entries| > 0 && ParseJavaInt(entries[0].caseId).Some? {
      UploadCount(projectId, runId, entries[1..]);
      if Upload(projectId, runId, entries[1..]).badCaseId.Some? {
        assert entries[ParsedPrefix(entries)] == entries[1..][ParsedPrefix(entries[1..])];
      }
    }
  }

  /** A slice of a concatenation that lies wholly in its second part. */
  lemma SliceOfSecond<T>(a: seq<T>, b: seq<T>, lo: nat, hi: nat)
    requires |a| <= lo <= hi <= |a| + |b|
    ensures (a + b)[lo..hi] == b[lo - |a|..hi - |a|]
  {
    assert forall k :: lo <= k < hi ==> (a + b)[k] == b[k - |a|];
  }

  /** An entry with a well-formed case identifier makes its three calls before the rest. */
  lemma UploadFirst(projectId: int, runId: int, entries: seq<ReportEntry>)
    requires |entries| > 0 && ParseJavaInt(entries[0].caseId).Some?
    ensures Upload(projectId, runId, entries).calls
            == EntryCalls(projectId, runId, ParseJavaInt(entries[0].caseId).value, entries[0])
               + Upload(projectId, runId, entries[1..]).calls
  {
  }

  /** The calls of the `i`-th group of three are those of the `i`-th entry. */
  lemma {:induction false} UploadEntry(projectId: int, runId: int, entries: seq<ReportEntry>, i: nat)
    requires i < ParsedPrefix(entries)
    ensures 3 * i + 3 <= |Upload(projectId, runId, entries).calls|
    ensures Upload(projectId, runId, entries).calls[3 * i..3 * i + 3]
              == EntryCalls(projectId, runId, ParseJavaInt(entries[i].caseId).value, entries[i])
  {
    if i == 0 {
      UploadEntryFirst(projectId, runId, entries);
    } else {
      UploadEntry(projectId, runId, entries[1..], i - 1);
      assert entries[i] == entries[1..][i - 1];
      UploadEntryLater(projectId, runId, entries, i);
    }
  }

  /** A later group of three calls is the group one place earlier in the upload of the rest. */
  lemma UploadEntryLater(projectId: int, runId: int, entries: seq<ReportEntry>, i: nat)
    requires 0 < i < ParsedPrefix(entries)
    requires 3 * i <= |Upload(projectId, runId, entries[1..]).calls|
    requires Upload(projectId, runId, entries[1..]).calls[3 * i - 3..3 * i]
               == EntryCalls(projectId, runId, ParseJavaInt(entries[i].caseId).value, entries[i])
    ensures 3 * i + 3 <= |Upload(projectId, runId, entries).calls|
    ensures Upload(projectId, runId, entries).calls[3 * i..3 * i + 3]
              == EntryCalls(projectId, runId, ParseJavaInt(entries[i].caseId).value, entries[i])
  {
    var head := EntryCalls(projectId, runId, ParseJavaInt(entries[0].caseId).value, entries[0]);
    var rest := Upload(projectId, runId, entries[1..]).calls;
    UploadFirst(projectId, runId, entries);
    SliceOfSecond(head, rest, 3 * i, 3 * i + 3);
  }

  /** The first group of three calls is that of the first entry. */
  lemma UploadEntryFirst(projectId: int, runId: int, entries: seq<ReportEntry>)
    requires 0 < ParsedPrefix(entries)
    ensures 3 <= |Upload(projectId, runId, entries).calls|
    ensures Upload(projectId, runId, entries).calls[..3]
              == EntryCalls(projectId, runId, ParseJavaInt(entries[0].caseId).value, entries[0])
  {
    var head := EntryCalls(projectId, runId, ParseJavaInt(entries[0].caseId).value, entries[0]);
    var rest := Upload(projectId, runId, entries[1..]).calls;
    UploadFirst(projectId, runId, entries);
    assert (head + rest)[..3] == head;
  }

  /** The entries are handled in order, three calls each, up to the first malformed case
      identifier (which is reported) or to the end. */
  lemma UploadShape(projectId: int, runId: int, entries: seq<ReportEntry>)
    ensures var r := Upload(projectId, runId, entries);
      && |r.calls| % 3 == 0 && |r.calls| / 3 <= |entries|
      && (forall i :: 0 <= i < |r.calls| / 3 ==>
            ParseJavaInt(entries[i].caseId).Some?
            && r.calls[3 * i..3 * i + 3] == EntryCalls(projectId, runId, ParseJavaInt(entries[i].caseId).value, entries[i]))
      && (r.badCaseId.None? ==> |r.calls| == 3 * |entries|)
      && (r.badCaseId.Some? ==>
            (|r.calls| / 3 < |entries|
             && ParseJavaInt(entries[|r.calls| / 3].caseId).None?
             && r.badCaseId.value == entries[|r.calls| / 3].caseId))
  {
    var r := Upload(projectId, runId, entries);
    var n := ParsedPrefix(entries);
    UploadCount(projectId, runId, entries);
    assert |r.calls| / 3 == n;
    forall i | 0 <= i < n
      ensures ParseJavaInt(entries[i].caseId).Some?
      ensures r.calls[3 * i..3 * i + 3] == EntryCalls(projectId, runId, ParseJavaInt(entries[i].caseId).value, entries[i])
    {
      UploadEntry(projectId, runId, entries, i);
    }
  }

  // ---------------------------------------------------------------------------
  // The pass
  // ---------------------------------------------------------------------------

  /** The run the pass uploads to: the one the lookup found, else the one it creates under the
      name with the identifier the service assigns. */
  function ResolvedRun(found: Option<Run>, name: string, createdRunId: int): Run {
    match found
    case Some(run) => run
    case None => Run(createdRunId, name)
  }

  /** The calls that open a pass: connection with the credential, then the project lookup. */
  function Opening(props: Properties, credential: Credential): seq<Call> {
    [Connect(Lookup(props, TESTRAIL_URL), credential), GetProject(Lookup(props, PROJECT_NAME))]
  }

  /** The calls that settle the run: the listing of the project's runs, then the creation of
      the run when the lookup found none. */
  function Resolution(projectId: int, found: Option<Run>, name: string): seq<Call> {
    [GetRuns(projectId)] + (if found.None? then [CreateTestRun(projectId, name)] else [])
  }

  /** The part of `execute` after the project is found and the runs are looked up (`found`):
      create the run when none answers to the name, then upload the entries to the run. */
  function Sync(reports: seq<ReportEntry>, opening: seq<Call>, projectId: int, name: string,
                found: Option<Run>, createdRunId: int): (r: Execution)
    ensures r.outcome.Synced? || r.outcome.BadCaseId?
    ensures r.outcome.run == ResolvedRun(found, name, createdRunId)
    ensures r.outcome.Synced? ==> (r.outcome.created <==> found.None?)
    ensures r.outcome.Synced? <==> forall i :: 0 <= i < |reports| ==> ParseJavaInt(reports[i].caseId).Some?
  {
    var run := ResolvedRun(found, name, createdRunId);
    var upload := Upload(projectId, run.id, reports);
    var calls := opening + Resolution(projectId, found, name) + upload.calls;
    match upload.badCaseId
    case Some(caseId) => Execution(BadCaseId(run, caseId), calls)
    case None => Execution(Synced(run, found.None?), calls)
  }

  /** The run is created at most once, exactly when the lookup found none, and before any
      upload call; a created run carries the name, and every case association and result goes
      to the run that was found or created. */
  lemma {:induction false} SyncTrace(reports: seq<ReportEntry>, opening: seq<Call>, projectId: int, name: string,
                                     found: Option<Run>, createdRunId: int)
    requires forall i :: 0 <= i < |opening| ==> !opening[i].CreateTestRun? && !IsUploadCall(opening[i])
    ensures var r := Sync(reports, opening, projectId, name, found, createdRunId);
      && ((exists i :: 0 <= i < |r.calls| && r.calls[i].CreateTestRun?) <==> found.None?)
      && (forall i, j :: 0 <= i < |r.calls| && 0 <= j < |r.calls| && r.calls[i].CreateTestRun? && r.calls[j].CreateTestRun?
            ==> i == j)
      && (forall i, j :: 0 <= i < |r.calls| && 0 <= j < |r.calls| && r.calls[i].CreateTestRun? && IsUploadCall(r.calls[j])
            ==> i < j)
      && (forall i :: 0 <= i < |r.calls| && r.calls[i].CreateTestRun? ==> r.calls[i].runName == name)
      && (forall i :: 0 <= i < |r.calls| && (r.calls[i].AddCaseToRun? || r.calls[i].AddResult?)
            ==> r.calls[i].runId == ResolvedRun(found, name, createdRunId).id)
  {
    SyncCallKinds(reports, opening, projectId, name, found, createdRunId);
  }

  /** Where each kind of call sits in the trace of `Sync`: the creation right after the
      opening and the listing, the upload calls after the resolution. */
  lemma SyncCallKinds(reports: seq<ReportEntry>, opening: seq<Call>, projectId: int, name: string,
                      found: Option<Run>, createdRunId: int)
    requires forall i :: 0 <= i < |opening| ==> !opening[i].CreateTestRun? && !IsUploadCall(opening[i])
    ensures var r := Sync(reports, opening, projectId, name, found, createdRunId);
      && (found.None? ==> |opening| + 1 < |r.calls| && r.calls[|opening| + 1] == CreateTestRun(projectId, name))
      && forall i :: 0 <= i < |r.calls| ==>
           && (r.calls[i].CreateTestRun? ==> found.None? && i == |opening| + 1)
           && (IsUploadCall(r.calls[i]) ==> i >= |opening| + |Resolution(projectId, found, name)|)
           && ((r.calls[i].AddCaseToRun? || r.calls[i].AddResult?) ==> r.calls[i].runId == ResolvedRun(found, name, createdRunId).id)
  {
    var r := Sync(reports, opening, projectId, name, found, createdRunId);
    var resolution := Resolution(projectId, found, name);
    var head := opening + resolution;
    var upload := Upload(projectId, ResolvedRun(found, name, createdRunId).id, reports);
    assert r.calls == head + upload.calls;
    forall i | 0 <= i < |r.calls|
      ensures i < |opening| ==> r.calls[i] == opening[i]
      ensures |opening| <= i < |head| ==> r.calls[i] == resolution[i - |opening|]
      ensures |head| <= i ==> r.calls[i] == upload.calls[i - |head|]
    {
    }
  }

  /** The trace of `Sync` is the opening, the resolution and the upload, in that order. */
  lemma SyncParts(reports: seq<ReportEntry>, opening: seq<Call>, projectId: int, name: string,
                  found: Option<Run>, createdRunId: int)
    ensures var r := Sync(reports, opening, projectId, name, found, createdRunId);
      var upload := Upload(projectId, ResolvedRun(found, name, createdRunId).id, reports);
      && r.calls == opening + Resolution(projectId, found, name) + upload.calls
      && r.outcome.run == ResolvedRun(found, name, createdRunId)
      && (r.outcome.Synced? <==> upload.badCaseId.None?)
  {
  }

  /** After any calls, a complete upload makes the three calls of every entry in order. */
  lemma {:induction false} UploadAfter(head: seq<Call>, projectId: int, runId: int, reports: seq<ReportEntry>)
    requires Upload(projectId, runId, reports).badCaseId.None?
    ensures var calls := head + Upload(projectId, runId, reports).calls;
      && |calls| == |head| + 3 * |reports|
      && forall i :: 0 <= i < |reports| ==>
           ParseJavaInt(reports[i].caseId).Some?
           && calls[|head| + 3 * i..|head| + 3 * i + 3]
              == EntryCalls(projectId, runId, ParseJavaInt(reports[i].caseId).value, reports[i])
  {
    UploadCount(projectId, runId, reports);
    forall i | 0 <= i < |reports|
      ensures ParseJavaInt(reports[i].caseId).Some?
      ensures (head + Upload(projectId, runId, reports).calls)[|head| + 3 * i..|head| + 3 * i + 3]
              == EntryCalls(projectId, runId, ParseJavaInt(reports[i].caseId).value, reports[i])
    {
      UploadEntryAfter(head, projectId, runId, reports, i);
    }
  }

  /** After any calls, the `i`-th group of three calls of a complete upload is that of the
      `i`-th entry. */
  lemma UploadEntryAfter(head: seq<Call>, projectId: int, runId: int, reports: seq<ReportEntry>, i: nat)
    requires i < ParsedPrefix(reports)
    ensures ParseJavaInt(reports[i].caseId).Some?
    ensures |head| + 3 * i + 3 <= |head + Upload(projectId, runId, reports).calls|
    ensures (head + Upload(projectId, runId, reports).calls)[|head| + 3 * i..|head| + 3 * i + 3]
            == EntryCalls(projectId, runId, ParseJavaInt(reports[i].caseId).value, reports[i])
  {
    UploadEntry(projectId, runId, reports, i);
    GroupAfter(head, Upload(projectId, runId, reports).calls, i,
               EntryCalls(projectId, runId, ParseJavaInt(reports[i].caseId).value, reports[i]));
  }

  /** A group of three elements keeps its contents when the sequence is put after others. */
  lemma GroupAfter<T>(head: seq<T>, s: seq<T>, i: nat, group: seq<T>)
    requires 3 * i + 3 <= |s| && s[3 * i..3 * i + 3] == group
    ensures |head| + 3 * i + 3 <= |head + s| && (head + s)[|head| + 3 * i..|head| + 3 * i + 3] == group
  {
    SliceOfSecond(head, s, |head| + 3 * i, |head| + 3 * i + 3);
  }

  /** A pass that completes makes, after the opening and the resolution, exactly the three calls
      of every report entry in report order. */
  lemma SyncUploadsEveryEntry(reports: seq<ReportEntry>, opening: seq<Call>, projectId: int, name: string,
                              found: Option<Run>, createdRunId: int)
    requires Sync(reports, opening, projectId, name, found, createdRunId).outcome.Synced?
    ensures var r := Sync(reports, opening, projectId, name, found, createdRunId);
      var h := |r.calls| - 3 * |reports|;
      && (h == |opening| + 1 || h == |opening| + 2)
      && forall i :: 0 <= i < |reports| ==>
           ParseJavaInt(reports[i].caseId).Some?
           && r.calls[h + 3 * i..h + 3 * i + 3]
              == EntryCalls(projectId, r.outcome.run.id, ParseJavaInt(reports[i].caseId).value, reports[i])
  {
    SyncParts(reports, opening, projectId, name, found, createdRunId);
    UploadAfter(opening + Resolution(projectId, found, name), projectId, ResolvedRun(found, name, createdRunId).id, reports);
  }

  /** `execute`: skip an empty report or a missing credential, stop after the opening calls when
      the project is not found, otherwise look the run up under the name built for this pass
      and synchronise. */
  function Execute(reports: seq<ReportEntry>, props: Properties, env: Environment, timestamp: string,
                   service: Service): (r: Execution)
    ensures |reports| == 0 ==> r == Execution(NoReports, [])
    ensures |reports| > 0 && GetCredential(props).None? ==> r == Execution(NoCredential, [])
    ensures |reports| > 0 && GetCredential(props).Some? && service.project.None? ==>
              r == Execution(ProjectNotFound(Lookup(props, PROJECT_NAME)), Opening(props, GetCredential(props).value))
    ensures |reports| > 0 && GetCredential(props).Some? && service.project.Some? ==>
              var name := GetTestRunName(env, props, timestamp);
              r == Sync(reports, Opening(props, GetCredential(props).value), service.project.value.id, name,
                        GetExpectedRun(service.runs, name), service.createdRunId)
  {
    if |reports| == 0 then Execution(NoReports, [])
    else
      match GetCredential(props)
      case None => Execution(NoCredential, [])
      case Some(credential) =>
        match service.project
        case None => Execution(ProjectNotFound(Lookup(props, PROJECT_NAME)), Opening(props, credential))
        case Some(project) =>
          var name := GetTestRunName(env, props, timestamp);
          Sync(reports, Opening(props, credential), project.id, name, GetExpectedRun(service.runs, name),
               service.createdRunId)
  }

  /** `update`: the pass runs only on a CI build (a build number that is defined and not
      empty); anywhere else nothing at all is done. */
  function Update(reports: seq<ReportEntry>, props: Properties, env: Environment, timestamp: string,
                  service: Service): (r: Execution)
    ensures !IsCiBuild(env) ==> r == Execution(NotCiBuild, [])
    ensures IsCiBuild(env) ==> r == Execute(reports, props, env, timestamp, service)
  {
    if BUILD_NUMBER in env && env[BUILD_NUMBER] != "" then Execute(reports, props, env, timestamp, service)
    else Execution(NotCiBuild, [])
  }

  /** A run created by `update` is named after the CI build: `<definition> - <number>`. */
  lemma UpdateCreatesBuildRun(reports: seq<ReportEntry>, props: Properties, env: Environment, timestamp: string,
                              service: Service)
    ensures var r := Update(reports, props, env, timestamp, service);
      forall i :: 0 <= i < |r.calls| && r.calls[i].CreateTestRun? ==>
        r.calls[i].runName == JavaText(Lookup(env, BUILD_DEFINITION)) + " - " + env[BUILD_NUMBER]
  {
    if IsCiBuild(env) && |reports| > 0 && GetCredential(props).Some? && service.project.Some? {
      var name := GetTestRunName(env, props, timestamp);
      OpeningCreatesAndUploadsNothing(props, GetCredential(props).value);
      SyncCreatesNamedRun(reports, Opening(props, GetCredential(props).value), service.project.value.id, name,
                          GetExpectedRun(service.runs, name), service.createdRunId);
    }
  }

  /** The opening calls neither create a run nor upload. */
  lemma OpeningCreatesAndUploadsNothing(props: Properties, credential: Credential)
    ensures var opening := Opening(props, credential);
      forall i :: 0 <= i < |opening| ==> !opening[i].CreateTestRun? && !IsUploadCall(opening[i])
  {
  }

  /** Every run a pass creates carries the name it was given. */
  lemma SyncCreatesNamedRun(reports: seq<ReportEntry>, opening: seq<Call>, projectId: int, name: string,
                            found: Option<Run>, createdRunId: int)
    requires forall i :: 0 <= i < |opening| ==> !opening[i].CreateTestRun? && !IsUploadCall(opening[i])
    ensures var r := Sync(reports, opening, projectId, name, found, createdRunId);
      forall i :: 0 <= i < |r.calls| && r.calls[i].CreateTestRun? ==> r.calls[i].runName == name
  {
    SyncTrace(reports, opening, projectId, name, found, createdRunId);
  }

  /** Case identifiers of the scenario below parse to their numbers. */
  lemma ScenarioCaseIds()
    ensures ParseJavaInt("101") == Some(101) && ParseJavaInt("102") == Some(102)
  {
    assert DigitsValue("101") == 101 by {
      assert "101"[..2] == "10" && "10"[..1] == "1" && "1"[..0] == "";
    }
    assert DigitsValue("102") == 102 by {
      assert "102"[..2] == "10" && "10"[..1] == "1" && "1"[..0] == "";
    }
    ParseDigitsValue("101");
    ParseDigitsValue("102");
  }

  /** The run of the previous build does not answer to the name of this one. */
  lemma ScenarioLookup()
    ensures GetExpectedRun([Run(3, "CI - 4520")], "CI - 4521") == None
  {
    var s := "CI - 4520";
    assert TrimLeft(s) == s;
    assert TrimRight(s) == s;
    assert Trim(s) == s;
    assert ToUpperChar(s[8]) != ToUpperChar("CI - 4521"[8]);
  }

  const ScenarioReports: seq<ReportEntry> :=
    [ReportEntry("101", "passed", "ok"), ReportEntry("102", "failed", "assertion X failed")]
  const ScenarioEnv: Environment := map[BUILD_NUMBER := "4521", BUILD_DEFINITION := "CI"]

  /** The upload of the scenario below: three calls per entry, no malformed identifier. */
  lemma ScenarioUpload(projectId: int, runId: int)
    ensures Upload(projectId, runId, ScenarioReports)
      == UploadResult([GetTestCase(projectId, 101), AddCaseToRun(runId, 101), AddResult(runId, 101, "passed", "ok"),
                       GetTestCase(projectId, 102), AddCaseToRun(runId, 102),
                       AddResult(runId, 102, "failed", "assertion X failed")],
                      None)
  {
    ScenarioCaseIds();
    var second := ScenarioReports[1..];
    assert second[1..] == [];
    assert Upload(projectId, runId, second) == UploadResult(EntryCalls(projectId, runId, 102, second[0]), None);
    assert Upload(projectId, runId, ScenarioReports)
        == UploadResult(EntryCalls(projectId, runId, 101, ScenarioReports[0]) + EntryCalls(projectId, runId, 102, second[0]), None);
  }

  /** The run name of the scenario below, built from the build variables. */
  lemma ScenarioRunName(props: Properties, timestamp: string)
    ensures GetTestRunName(ScenarioEnv, props, timestamp) == "CI - 4521"
  {
    assert IsCiBuild(ScenarioEnv) && ScenarioEnv[BUILD_NUMBER] == "4521";
    assert Lookup(ScenarioEnv, BUILD_DEFINITION) == Some("CI");
    assert JavaText(Some("CI")) + " - " + "4521" == "CI - 4521";
  }

  /** The part of the scenario below up to the synchronisation: the run name is built from the
      build variables and the lookup finds nothing. */
  lemma ScenarioReachesSync(props: Properties, timestamp: string, project: Project, runs: seq<Run>, newRunId: int)
    requires TESTRAIL_USER in props && TESTRAIL_PASS in props
    requires GetExpectedRun(runs, "CI - 4521").None?
    ensures Update(ScenarioReports, props, ScenarioEnv, timestamp, Service(Some(project), runs, newRunId))
      == Sync(ScenarioReports, Opening(props, Credential(props[TESTRAIL_USER], props[TESTRAIL_PASS])),
              project.id, "CI - 4521", None, newRunId)
  {
    ScenarioRunName(props, timestamp);
    assert IsCiBuild(ScenarioEnv) by {
      assert BUILD_NUMBER in ScenarioEnv && ScenarioEnv[BUILD_NUMBER] == "4521";
    }
    assert |ScenarioReports| > 0;
  }

  /** The synchronisation step of the scenario below. */
  lemma ScenarioSync(opening: seq<Call>, projectId: int, newRunId: int)
    ensures Sync(ScenarioReports, opening, projectId, "CI - 4521", None, newRunId)
      == Execution(Synced(Run(newRunId, "CI - 4521"), true),
                   opening + [GetRuns(projectId), CreateTestRun(projectId, "CI - 4521"),
                              GetTestCase(projectId, 101), AddCaseToRun(newRunId, 101),
                              AddResult(newRunId, 101, "passed", "ok"),
                              GetTestCase(projectId, 102), AddCaseToRun(newRunId, 102),
                              AddResult(newRunId, 102, "failed", "assertion X failed")])
  {
    ScenarioUpload(projectId, newRunId);
  }

  /** A CI build "CI - 4521" with two report entries, a credential, and no run answering to
      that name: the run is created, then each case is looked up, added to the run and given
      its result verbatim. */
  lemma CiBuildScenario(props: Properties, timestamp: string, project: Project, runs: seq<Run>, newRunId: int)
    requires TESTRAIL_USER in props && TESTRAIL_PASS in props
    requires GetExpectedRun(runs, "CI - 4521").None?
    ensures Update(ScenarioReports, props, ScenarioEnv, timestamp, Service(Some(project), runs, newRunId))
      == Execution(Synced(Run(newRunId, "CI - 4521"), true),
                   Opening(props, Credential(props[TESTRAIL_USER], props[TESTRAIL_PASS]))
                   + [GetRuns(project.id), CreateTestRun(project.id, "CI - 4521"),
                      GetTestCase(project.id, 101), AddCaseToRun(newRunId, 101), AddResult(newRunId, 101, "passed", "ok"),
                      GetTestCase(project.id, 102), AddCaseToRun(newRunId, 102),
                      AddResult(newRunId, 102, "failed", "assertion X failed")])
  {
    ScenarioReachesSync(props, timestamp, project, runs, newRunId);
    ScenarioSync(Opening(props, Credential(props[TESTRAIL_USER], props[TESTRAIL_PASS])), project.id, newRunId);
  }
}

=== FILE: Text.dfy ===
/**
  String semantics of the Java and JavaScript library calls the model relies on:
  `StringUtils.isBlank`, `String.trim`, case-insensitive comparison and the splitting
  of a string on a single literal delimiter character.
 */
module Text {
  import opened Common

  /** `Character.isWhitespace`: the ASCII controls TAB..CR and FS..US, and every Unicode
      space, line or paragraph separator except the three non-breaking spaces. */
  predicate IsJavaWhitespace(c: char) {
    || ('\U{9}' <= c <= '\U{D}')
    || ('\U{1C}' <= c <= '\U{20}')
    || c == '\U{1680}'
    || ('\U{2000}' <= c <= '\U{2006}')
    || ('\U{2008}' <= c <= '\U{200A}')
    || c == '\U{2028}' || c == '\U{2029}' || c == '\U{205F}' || c == '\U{3000}'
  }

  /** `StringUtils.isBlank` on a present string: empty or whitespace only. */
  predicate IsBlankText(s: string) {
    forall i :: 0 <= i < |s| ==> IsJavaWhitespace(s[i])
  }

  /** `StringUtils.isBlank`: null, empty or whitespace only. */
  predicate IsBlank(s: Option<string>) {
    s.None? || IsBlankText(s.value)
  }

  /** Java string concatenation renders a null reference as the text "null". */
  function JavaText(s: Option<string>): string {
    s.GetOr("null")
  }

  // ---------------------------------------------------------------------------
  // Trimming (String.trim: removes leading and trailing characters <= U+0020)
  // ---------------------------------------------------------------------------

  function TrimLeft(s: string): (r: string)
    ensures |r| <= |s| && r == s[|s| - |r|..]
    ensures forall i :: 0 <= i < |s| - |r| ==> s[i] <= ' '
    ensures |r| > 0 ==> r[0] > ' '
  {
    if |s| > 0 && s[0] <= ' ' then TrimLeft(s[1..]) else s
  }

  function TrimRight(s: string): (r: string)
    ensures |r| <= |s| && r == s[..|r|]
    ensures forall i :: |r| <= i < |s| ==> s[i] <= ' '
    ensures |r| > 0 ==> r[|r| - 1] > ' '
  {
    if |s| > 0 && s[|s| - 1] <= ' ' then TrimRight(s[..|s| - 1]) else s
  }

  /** `String.trim`: the longest infix that neither starts nor ends with a character <= ' ',
      obtained by removing only such characters. */
  function Trim(s: string): (r: string)
    ensures |r| > 0 ==> r[0] > ' ' && r[|r| - 1] > ' '
    ensures |s| - |TrimLeft(s)| + |r| <= |s|
    ensures r == s[|s| - |TrimLeft(s)|..][..|r|]
    ensures forall i :: 0 <= i < |s| - |TrimLeft(s)| ==> s[i] <= ' '
    ensures forall i :: |s| - |TrimLeft(s)| + |r| <= i < |s| ==> s[i] <= ' '
  {
    var l := TrimLeft(s);
    var r := TrimRight(l);
    TrimTail(s, l, r);
    r
  }

  lemma TrimTail(s: string, l: string, r: string)
    requires |l| <= |s| && l == s[|s| - |l|..]
    requires |r| <= |l| && r == l[..|r|]
    requires forall i :: |r| <= i < |l| ==> l[i] <= ' '
    ensures forall i :: |s| - |l| + |r| <= i < |s| ==> s[i] <= ' '
  {
    forall i | |s| - |l| + |r| <= i < |s|
      ensures s[i] <= ' '
    {
      assert s[i] == l[i - (|s| - |l|)];
    }
  }

  // ---------------------------------------------------------------------------
  // Case folding (ASCII letters only)
  // ---------------------------------------------------------------------------

  function ToUpperChar(c: char): char {
    if 'a' <= c <= 'z' then (c as int - 32) as char else c
  }

  function ToLowerChar(c: char): char {
    if 'A' <= c <= 'Z' then (c as int + 32) as char else c
  }

  function ToUpper(s: string): (r: string)
    ensures |r| == |s|
    ensures forall i :: 0 <= i < |s| ==> r[i] == ToUpperChar(s[i])
  {
    seq(|s|, i requires 0 <= i < |s| => ToUpperChar(s[i]))
  }

  function ToLower(s: string): (r: string)
    ensures |r| == |s|
    ensures forall i :: 0 <= i < |s| ==> r[i] == ToLowerChar(s[i])
  {
    seq(|s|, i requires 0 <= i < |s| => ToLowerChar(s[i]))
  }

  /** `String.equalsIgnoreCase` / `StringUtils.equalsIgnoreCase` on present strings. */
  predicate EqualsIgnoreCase(a: string, b: string) {
    |a| == |b| && forall i :: 0 <= i < |a| ==> ToUpperChar(a[i]) == ToUpperChar(b[i])
  }

  /** `StringUtils.startsWithIgnoreCase` on present strings. */
  predicate StartsWithIgnoreCase(s: string, prefix: string) {
    |prefix| <= |s| && EqualsIgnoreCase(s[..|prefix|], prefix)
  }

  /** Case folding leaves every character at or below ' ' alone, and only maps such a
      character onto itself. */
  lemma UpperOfControl(c: char, d: char)
    requires c <= ' '
    ensures ToUpperChar(c) == c
    ensures ToUpperChar(d) == c ==> d == c
  {
  }

  // ---------------------------------------------------------------------------
  // Splitting on a single literal delimiter character, and joining
  // ---------------------------------------------------------------------------

  /** Position of the first occurrence of `d` in `s`. */
  function IndexOf(s: string, d: char): (k: nat)
    requires d in s
    ensures k < |s| && s[k] == d && d !in s[..k]
  {
    if s[0] == d then 0 else
      assert d in s[1..] by { var j :| 0 <= j < |s| && s[j] == d; assert s[1..][j - 1] == d; }
      1 + IndexOf(s[1..], d)
  }

  /** The first occurrence is at `j` when `s[j]` is `d` and no `d` comes before it. */
  lemma {:induction false} IndexOfAt(s: string, d: char, j: nat)
    requires j < |s| && s[j] == d && d !in s[..j]
    ensures IndexOf(s, d) == j
  {
    if j > 0 {
      assert s[0] == s[..j][0];
      assert s[1..][j - 1] == d && s[1..][..j - 1] == s[..j][1..];
      IndexOfAt(s[1..], d, j - 1);
    }
  }

  /** Position of the last occurrence of `d` in `s` (`lastIndexOf`), if any. */
  function LastIndexOf(s: string, d: char): (r: Option<nat>)
    ensures r.None? <==> d !in s
    ensures r.Some? ==> r.value < |s| && s[r.value] == d && d !in s[r.value + 1..]
  {
    if |s| == 0 then None
    else if s[|s| - 1] == d then Some(|s| - 1)
    else
      var r := LastIndexOf(s[..|s| - 1], d);
      assert s == s[..|s| - 1] + [s[|s| - 1]];
      if r.None? then r
      else assert s[r.value + 1..] == s[..|s| - 1][r.value + 1..] + [s[|s| - 1]]; r
  }

  /** The last occurrence is the one with no occurrence after it. */
  lemma LastIndexOfAt(s: string, d: char, j: nat)
    requires j < |s| && s[j] == d && d !in s[j + 1..]
    ensures LastIndexOf(s, d) == Some(j)
  {
  }

  /** Every segment of `s` between occurrences of `d`, empty ones included. */
  function SplitAll(s: string, d: char): (r: seq<string>)
    ensures |r| > 0
    ensures forall i :: 0 <= i < |r| ==> d !in r[i]
    decreases |s|
  {
    if d !in s then [s]
    else
      var k := IndexOf(s, d);
      [s[..k]] + SplitAll(s[k + 1..], d)
  }

  /** The segments separated by `d` (`String.join`). */
  function Join(segs: seq<string>, d: char): string
  {
    if |segs| == 0 then ""
    else if |segs| == 1 then segs[0]
    else segs[0] + [d] + Join(segs[1..], d)
  }

  /** Appending a segment appends the delimiter and the segment. */
  lemma {:induction false} JoinSnoc(segs: seq<string>, x: string, d: char)
    requires |segs| > 0
    ensures Join(segs + [x], d) == Join(segs, d) + [d] + x
  {
    if |segs| > 1 {
      JoinSnoc(segs[1..], x, d);
      assert (segs + [x])[1..] == segs[1..] + [x];
    }
  }

  /** The segments with every trailing empty segment removed. */
  function DropTrailingEmpty(segs: seq<string>): (r: seq<string>)
    ensures |r| <= |segs| && r == segs[..|r|]
    ensures forall j :: |r| <= j < |segs| ==> segs[j] == ""
    ensures |r| > 0 ==> r[|r| - 1] != ""
  {
    if |segs| > 0 && segs[|segs| - 1] == "" then DropTrailingEmpty(segs[..|segs| - 1]) else segs
  }

  /** `String.split(d)` for a delimiter that is one literal character: without an occurrence
      of `d` the whole string is the only element; otherwise every segment is kept except
      the trailing empty ones. */
  function JavaSplit(s: string, d: char): (r: seq<string>)
    ensures forall i :: 0 <= i < |r| ==> d !in r[i]
    ensures d !in s ==> r == [s]
    ensures d in s ==> |r| <= |SplitAll(s, d)| && r == SplitAll(s, d)[..|r|]
    ensures d in s ==> forall j :: |r| <= j < |SplitAll(s, d)| ==> SplitAll(s, d)[j] == ""
    ensures d in s && |r| > 0 ==> r[|r| - 1] != ""
  {
    if d !in s then [s] else DropTrailingEmpty(SplitAll(s, d))
  }

  /** Joining the segments of a split gives back the string. */
  lemma {:induction false} JoinSplitAll(s: string, d: char)
    ensures Join(SplitAll(s, d), d) == s
    decreases |s|
  {
    if d in s {
      var k := IndexOf(s, d);
      var rest := SplitAll(s[k + 1..], d);
      JoinSplitAll(s[k + 1..], d);
      assert SplitAll(s, d) == [s[..k]] + rest;
      assert s == s[..k] + [d] + s[k + 1..];
    }
  }

  /** Splitting a join of delimiter-free segments gives back the segments. */
  lemma {:induction false} SplitAllJoin(segs: seq<string>, d: char)
    requires |segs| > 0
    requires forall i :: 0 <= i < |segs| ==> d !in segs[i]
    ensures SplitAll(Join(segs, d), d) == segs
  {
    if |segs| == 1 {
      assert Join(segs, d) == segs[0];
    } else {
      var s := Join(segs, d);
      var n := |segs[0]|;
      var tail := Join(segs[1..], d);
      assert SplitAll(s, d) == [segs[0]] + SplitAll(tail, d) by {
        assert s == segs[0] + [d] + tail;
        assert s[..n] == segs[0] && s[n] == d && s[n + 1..] == tail;
        IndexOfAt(s, d, n);
      }
      assert forall i :: 0 <= i < |segs| - 1 ==> segs[1..][i] == segs[i + 1];
      SplitAllJoin(segs[1..], d);
      assert segs == [segs[0]] + segs[1..];
    }
  }

  /** Java's split of a join of non-empty delimiter-free segments reproduces the segments. */
  lemma JavaSplitJoin(segs: seq<string>, d: char)
    requires |segs| > 1
    requires forall i :: 0 <= i < |segs| ==> d !in segs[i] && segs[i] != ""
    ensures JavaSplit(Join(segs, d), d) == segs
  {
    var s := Join(segs, d);
    SplitAllJoin(segs, d);
    assert s == segs[0] + [d] + Join(segs[1..], d);
    assert s[|segs[0]|] == d;
    assert DropTrailingEmpty(segs) == segs;
  }
}
